=== FILE: README.md ===
# jast in Dafny

A model of the core of `jast`, a Python library that represents Java source
code as an abstract syntax tree, prints trees back to Java, and walks or
rewrites them with visitors. The model has three parts.

- **The validated node model** (`src/jast/_jast.py`).
  - The modelled node classes are constructors of immutable datatypes
    (`Jast`): names, modifiers, types, patterns, every expression class
    except `SwitchExp`, thirteen statement classes, switch-expression rules,
    switch groups, and the `Import`, `Field` and `Method` declarations.
    The classes left out are listed under "## Left out".
  - Each validating `__init__` becomes a smart constructor returning
    `Result<Node, JastError>` (`JastInit`). It promises three things:
    - it succeeds exactly when the source's checks pass;
    - it reports the first failing check's message;
    - an `Ok` result satisfies the well-formedness predicate of its class whenever its children do.
  - Each class's `__iter__` becomes a list of named slots over a generic
    tree (`JastIter`). The model proves that the slots are exactly the
    truthy attributes, in declaration order (`JastIterProps`).
- **The precedence-aware expression printer** (`src/jast/_unparse.py`).
  - `_Precedence` is the range 1..17 with `Next` saturating at PRIMARY.
  - The identity-keyed precedence side table becomes an explicit context
    parameter: `Unparse(e, ctx)` wraps `e` in parentheses exactly when
    `ctx` is greater than the level of `e`.
  - `UnparseProps` states, per operator, which operands are parenthesised.
  - `UnparseExamples` derives the test suite's expected strings from those lemmas.
- **The visitor and transformer fold** (`src/jast/_visitors.py`).
  - Visiting is modelled over a generic tree `Node(kind, text, fields)`
    with `Child = One(Node) | Many(seq<Node>)` (`Tree`, `Visitors`).
  - A visitor subclass is a value: its default result, its aggregate
    function, the set of classes it overrides and the hook that computes
    their result from the generic result.
  - A transformer's overrides are pure functions, so the in-place
    transformer and the copying transformer compute the same tree and
    become one function.
  - `IterLeaves` shows that identifiers are leaves of every tree the
    model's `__iter__` builds, so the identifier visitor of the tests lists
    them in pre-order on every expression, statement and declaration.

Reading the printer against Java's grammar shows one defect, in
`visit_IfExp`: it prints the else branch of a conditional in the loosest
context. Two different trees then print to the same text (see
Findings). `Corrected` gives the intended printer over the operator
sublanguage, and `Reparse` is a reference precedence parser for it. The
model proves that parsing the corrected printer's tokens gives back the
tree, and that the corrected printer writes different texts for the two
trees the unparser confuses.

The printer uses the seventeen levels of `_Precedence`
(`src/jast/_unparse.py`:9-30): LAMBDA, ASSIGN, TERNARY, the ten binary
levels, TYPE, UNARY, POSTFIX and PRIMARY. The model of the unparser itself
keeps the else branch of a conditional in the LAMBDA context, as the code
does.

## Model

| member | source | states |
|---|---|---|
| JastInit.MkQName | src/jast/_jast.py:110-114 | a qualified name is built exactly when the identifier list is non-empty; otherwise the error is "identifier is required for qname" |
| JastInit.MkWildcardBound | src/jast/_jast.py:519-528 | a bound needs a type and exactly one of extends/super; both or neither is rejected with the mutual-exclusion message, and a built bound is well formed |
| JastInit.MkTypeArgs | src/jast/_jast.py:565-569 | only a missing list is rejected; the empty diamond is accepted |
| JastInit.MkClassType | src/jast/_jast.py:619-625 | a class type needs at least one component; the error is "coits is required" |
| JastInit.MkTypeBound | src/jast/_jast.py:716-722 | a type bound needs at least one type |
| JastInit.MkTypeParams | src/jast/_jast.py:765-769 | a type-parameter list needs at least one parameter |
| JastInit.MkLambda | src/jast/_jast.py:1098-1106 | args and body are required, checked in that order, and formal parameters may not carry a receiver |
| JastInit.MkAssign | src/jast/_jast.py:1128-1135 | target and value are required, the operator is optional |
| JastInit.MkIfExp | src/jast/_jast.py:1159-1168 | test, body and orelse are required, and the first missing one is reported |
| JastInit.MkBinOp | src/jast/_jast.py:1191-1200 | left, op and right are required, in that order |
| JastInit.MkUnaryOp | src/jast/_jast.py:1238-1245 | operator and operand are required |
| JastInit.MkCast | src/jast/_jast.py:1290-1297 | the type bound and the operand are required |
| JastInit.MkNewArray | src/jast/_jast.py:1359-1370 | a type is required, and dimension expressions together with an initializer are rejected; a built node never has both |
| JastInit.MkReference | src/jast/_jast.py:1655-1665 | a method reference needs a target and exactly one of `new` or a non-empty identifier; each failure has its own message |
| JastInit.MkSwitchExpRule | src/jast/_jast.py:1413-1423 | a case rule needs cases and a default rule must have none |
| JastInit.MkSwitchGroup | src/jast/_jast.py:2066-2072 | a switch group needs at least one label and one statement |
| JastInit.MkCatch | src/jast/_jast.py:2346-2356 | a catch clause needs exception types, a name and a body, checked in that order |
| JastInit.MkTry | src/jast/_jast.py:2381-2389 | a try statement needs a body and at least one catch clause or a finally block |
| JastInit.MkTryWithResources | src/jast/_jast.py:2446-2455 | try-with-resources needs a non-empty resource list and a body; catch clauses and a finally block are optional |
| JastInit.MkLocalVariable | src/jast/_jast.py:1895-1903 | a local variable declaration needs a type and at least one declarator |
| JastInit.MkField | src/jast/_jast.py:2768-2776 | a field declaration needs a type and at least one declarator |
| JastInit.MkImport | src/jast/_jast.py:2546-2551 | an import needs a qualified name |
| JastInit.MkMethod | src/jast/_jast.py:2809-2822 | a method needs a return type and then a name; everything else is optional |
| JastIter.EmitYields | src/jast/_jast.py:2824-2840 | the conditional yields keep field order, yield every present field with its value, and yield nothing that is not a field with that value |
| JastIterProps.EmitFollowsTable | src/jast/_jast.py:2824-2840 | when each candidate is present exactly when its attribute is truthy, the yielded names are the truthy fields of the class's table, in table order |
| JastIterProps.ExprIterFields | src/jast/_jast.py:1083-1677 | every modelled expression class yields exactly its truthy fields in declaration order: an Assign omits `op` exactly when it has none, and a NewArray always yields `type` but yields `expr_dims`, `dims` and `init` only when non-empty or present |
| JastIterProps.StmtIterFields | src/jast/_jast.py:2390-2396 | every statement yields exactly its truthy fields in declaration order; a Try yields `catches` and `final` only when present |
| JastIterProps.DeclarationIterFields | src/jast/_jast.py:2824-2840 | every declaration yields exactly its truthy fields in declaration order; a Method always yields `return_type` and `id` |
| Visitors.ShallowCopy | src/jast/_jast.py:38-48 | a copy with fresh lists holding the same elements equals the original node |
| Unparser.Next | src/jast/_unparse.py:32-36 | `next` moves one level up, and stays put exactly at PRIMARY |
| UnparseProps.WrapMonotone | src/jast/_unparse.py:172-176 | parenthesising is monotone in the context: an expression wrapped in one context is wrapped in every greater one, one left bare is bare in every smaller one, and in each context it is either bare or wrapped |
| UnparseProps.BinOpOperands | src/jast/_unparse.py:533-542 | a left operand is parenthesised exactly when it is looser than the operator, a right operand exactly when it is no tighter |
| UnparseProps.BinOpLeftAssociative | src/jast/_unparse.py:533-542 | with equal levels, a nested left operation is printed bare and a nested right operation is parenthesised |
| UnparseProps.BinOpTighterLooser | src/jast/_unparse.py:533-542 | a tighter right operation is bare and a looser left operation is parenthesised |
| UnparseProps.AssignOperands | src/jast/_unparse.py:490-498 | an assignment parenthesises only a lambda or assignment target and only a lambda value, so nested assignment reads right to left |
| UnparseProps.IfExpOperands | src/jast/_unparse.py:500-509 | a conditional parenthesises its test when that is a lambda, assignment or conditional, and never its body or else branch |
| UnparseProps.UnaryOperand | src/jast/_unparse.py:582-586 | a prefix operator parenthesises exactly the operands looser than UNARY: binary operations and casts, but not other unary operations |
| UnparseProps.PostfixOperand | src/jast/_unparse.py:588-592 | a postfix operator parenthesises exactly the operands looser than POSTFIX, which includes prefix operations |
| UnparseProps.CastOperand | src/jast/_unparse.py:573-580 | a cast parenthesises exactly the operands looser than TYPE, so nested casts and unary operations stay bare |
| UnparseProps.MemberOperand | src/jast/_unparse.py:615-619 | a member access parenthesises every operand that is not primary |
| UnparseProps.CallOperand | src/jast/_unparse.py:609-613 | a call parenthesises every callee that is not primary and joins its arguments with ", " |
| UnparseProps.SubscriptOperand | src/jast/_unparse.py:621-625 | a subscript parenthesises every array operand that is not primary |
| Text.InterleaveLength | src/jast/_unparse.py:99-118 | `interleave` writes nothing for an empty list; otherwise the length of its text is the lengths of the start, the items and the end plus n - 1 separator lengths |
| UnparseProps.JoinedConditionsCount | src/jast/_unparse.py:387-394 | joining n conditions with ") && " adds n - 1 closing parentheses and no opening ones |
| UnparseProps.GuardedPatternParens | src/jast/_unparse.py:387-394 | a guarded pattern with n conditions adds exactly n - 1 opening and n - 1 closing parentheses to those of its parts |
| UnparseProps.GuardedPatternNoConditions | tests/test_unparse.py:320-328 | a guarded pattern without conditions prints as its pattern |
| Text.ParseIntToString | src/jast/_unparse.py:200-203 | the decimal text of an integer, with its minus sign, reads back as that integer |
| Text.IntToStringInjective | src/jast/_unparse.py:200-203 | different integers are written differently |
| LeafText.LiteralTextInjective | src/jast/_unparse.py:200-229 | two literals with the same text are equal: the first character gives the class, the suffix `l` the long flag, and the rest the value |
| LeafText.QNameRoundTrip | src/jast/_unparse.py:197-198 | a qualified name's text cut at its dots gives back its identifiers, when no identifier holds a dot |
| LeafText.ImportRoundTrip | src/jast/_unparse.py:913-920 | reading an import statement's text back gives its static flag, its name's identifiers and its on-demand flag |
| LeafText.WildcardBoundWritten | src/jast/_unparse.py:322-329 | a bound with exactly one flag is written as that flag's keyword followed by its type, never as nothing |
| LeafText.BuiltBoundIsWritten | src/jast/_jast.py:519-528 | every bound the constructor accepts is written with a keyword, so the printer's error branch is never reached from a constructed bound |
| UnparseExamples.AssignLeftNested | tests/test_unparse.py:493-501 | an assignment as target prints as "(x = y) = 42" |
| UnparseExamples.AssignRightNested | tests/test_unparse.py:503-511 | an assignment as value prints as "x = y = 42" |
| UnparseExamples.AssignWithOperator | tests/test_unparse.py:513-537 | compound assignment prints as "x += 42" and "x >>>= 42" |
| UnparseExamples.IfExpInBody | tests/test_unparse.py:547-557 | a conditional as body is bare: "true ? false ? 42 : 0 : 1" |
| UnparseExamples.IfExpInElse | tests/test_unparse.py:559-569 | a conditional as else branch is bare: "true ? 42 : false ? 0 : 1" |
| UnparseExamples.IfExpInTest | tests/test_unparse.py:571-581 | a conditional as test is parenthesised: "(true ? 42 : 0) ? 1 : 2" |
| UnparseExamples.MixedLevels | tests/test_unparse.py:593-604 | "1 + 2 * 3" for the tighter right operand and "(1 + 2) * 3" for the looser left one |
| UnparseExamples.SubtractionNesting | src/jast/_unparse.py:533-542 | "1 - 2 - 3" for the left nesting and "1 - (2 - 3)" for the right nesting |
| UnparseExamples.DoubleMinus | tests/test_unparse.py:735-743 | two unary minus operators print as "--42" with no space or parentheses |
| UnparseExamples.UnaryAndProduct | tests/test_unparse.py:745-765 | "-(x * y)" and "-x * y" |
| UnparseExamples.Casts | tests/test_unparse.py:767-802 | "(int) -x", "-((int) x)" and "(int) (long) x" |
| UnparseExamples.PostfixAndMember | tests/test_unparse.py:1282-1300 | "(++x).y" and "++x.y", with "(+x)++" for a prefix operand of a postfix operator |
| UnparseExamples.GuardedPatternExample | tests/test_unparse.py:307-318 | "int bar" guarded by true and 42 prints as "(int bar && true) && 42" |
| UnparseExamples.GuardedPatternWithoutConditions | tests/test_unparse.py:320-328 | without conditions the guarded pattern prints as "int bar" |
| UnparseExamples.ImportExamples | tests/test_unparse.py:1860-1872 | "import static foo.bar;" and "import foo.*;" |
| Corrected.UnparseCorrected | src/jast/_unparse.py:500-509 | the corrected printer writes the unparser's text at the root on every operator expression with no assignment in an else branch |
| Corrected.AgreesWithUnparse | src/jast/_unparse.py:477-592 | on every operator expression with no assignment in an else branch, the corrected printer writes exactly the unparser's text in every context |
| Reparse.RoundTrip | tests/test_parse.py:730-772 | the reference precedence parser reads the corrected printer's tokens back into the original tree |
| Reparse.TokensInjective | src/jast/_unparse.py:500-509 | different operator expressions never print to the same corrected tokens |
| ElseBranch.ElseAssignCollides | src/jast/_unparse.py:500-509 | as written, a conditional with an assignment as its else branch prints like the assignment to the conditional, although the trees differ |
| ElseBranch.ElseAssignExample | src/jast/_unparse.py:500-509 | the conditional whose else branch is `x = 1` and the assignment of 1 to the conditional `t ? b : x` both print as "t ? b : x = 1" |
| ElseBranch.ElseAssignKeptApart | src/jast/_unparse.py:500-509 | with the else branch in the TERNARY context the two trees get different tokens, and the assignment is parenthesised |
| ElseBranch.ElseAssignTextsDiffer | src/jast/_unparse.py:500-509 | the corrected printer writes different texts for the two trees, the conditional's being the other with one more pair of parentheses |
| ElseBranch.ElseAssignCorrectedExample | src/jast/_unparse.py:500-509 | the corrected printer writes "t ? b : (x = y)" |
| Visitors.GenericVisitIsFold | src/jast/_visitors.py:38-53 | `generic_visit` folds the aggregate over the children in field order, list elements in order, starting from the default result |
| Visitors.VisitItemsAppend | src/jast/_visitors.py:45-52 | folding over two lists of children is folding over the first and then the second |
| Visitors.GenericVisitIsLastChild | src/jast/_visitors.py:44-53 | with the base aggregate, the result is that of the last child, or the default for a leaf |
| Visitors.BaseVisitorReturnsNone | src/jast/_visitors.py:14-29 | without overrides the base visitor returns None for every tree |
| Visitors.CollectorIsPreorder | src/jast/_visitors.py:38-53 | a visitor that concatenates lists and overrides leaf classes returns the leaves' contributions in pre-order |
| Visitors.IdentifierVisitorIsPreorder | tests/test_visitors.py:23-53 | the identifier visitor returns the identifiers of the tree in source pre-order, on every tree whose identifiers have no fields |
| IterLeaves.ExprTreeIdentifiersAreLeaves | src/jast/_jast.py:32-37 | in the tree of every expression, an identifier node yields no fields, because `identifier` keeps the base `__iter__` and no other class is called `identifier` |
| IterLeaves.StmtTreeIdentifiersAreLeaves | src/jast/_jast.py:32-37 | the same for every modelled statement |
| IterLeaves.DeclarationTreeIdentifiersAreLeaves | src/jast/_jast.py:32-37 | the same for every modelled declaration |
| IterLeaves.ExprIdentifiersInPreorder | tests/test_visitors.py:23-53 | on every expression's tree, the identifier visitor returns its identifiers in pre-order |
| IterLeaves.StmtIdentifiersInPreorder | tests/test_visitors.py:23-53 | on every statement's tree, the identifier visitor returns its identifiers in pre-order |
| IterLeaves.DeclarationIdentifiersInPreorder | tests/test_visitors.py:23-53 | on every declaration's tree, the identifier visitor returns its identifiers in pre-order |
| Visitors.TransformItemsSingle | src/jast/_visitors.py:64-76 | in a list, a None result drops the element, a node result replaces it and a list result is spliced in at its place |
| Visitors.TransformItemsAppend | src/jast/_visitors.py:64-76 | a list is rewritten element by element, and the survivors keep their relative order |
| Visitors.TransformSlotCases | src/jast/_visitors.py:63-83 | a list field keeps its name and holds the rewritten list; a single-node field is deleted on None, holds the new node on a node result, and holds the returned list on a list result |
| Visitors.TransformKeepsFieldOrder | src/jast/_visitors.py:77-82 | the field names after rewriting are exactly the names of the fields that were not deleted, in their old order, so no field is added or reordered |
| Visitors.TransformSlotName | src/jast/_visitors.py:77-82 | one field rewrites to nothing or to one field of the same name |
| Visitors.TransformIdentity | src/jast/_visitors.py:63-83 | a transformer with no overrides returns a tree equal to its input |
| Visitors.DeleterRemovesAll | tests/test_visitors.py:167-185 | a transformer whose overrides return None deletes every node of those classes: such a node is removed, and any other node is kept with no node of those classes left at any depth |
| Visitors.DeleterFiltersList | tests/test_visitors.py:167-185 | in a list, the deleting transformer keeps exactly the elements of the other classes, in order, each rewritten |

## Left out

- The ANTLR-generated parser (`_cpp_parser/`, `src/jast/_parser/JavaParserListener.py`): only declarations of it exist, and the grammar that disambiguates Java is not part of this model.
- `src/jast/_parser/_convert.py` and `src/jast/_parse.py`: they map ANTLR contexts to nodes and drive the lexer, and they are not part of this model.
- `setup.py` and `generate-parser.py`: build tooling.
- Node classes with no constructor in the model: `FloatLiteral`, `TextBlock`, `elementvaluepair`, `elementarrayinit`, `SwitchExp`, the statements `Compound`, `LocalType`, `Labeled`, `Assert`, `switchblock`, `Switch`, `DoWhile`, `For`, `ForEach` and `Synch`, the declarations `EmptyDecl`, `Package`, the module directives (`Requires`, `Exports`, `Opens`, `Uses`, `Provides`), `Module`, `Constructor`, `Initializer`, `Interface`, `AnnotationMethod`, `AnnotationDecl`, `Class`, `enumconstant`, `Enum`, `recordcomponent` and `Record`, and the roots `CompilationUnit` and `ModularUnit`. They are outside the expression printer and the statements it needs, and none of their checks or fields is modelled.
- Smart constructors for modelled classes beyond the validated core: `Annotation`, `pattern`, `guardedpattern`, `InstanceOf`, `PostOp` and `NewObject` are built as plain datatype values without their checks.
- Floating-point literals and text blocks: `str()` of a Python float and text-block indentation have no counterpart over Dafny strings.
- Layout of statements and declarations (`fill`, `maybe_newline`, `block`): whitespace and indentation are not modelled. Of the declarations, only `Import` is printed, without leading indentation.
- `SwitchExp` printing, lambda bodies that are blocks, and anonymous class bodies of `NewObject`: they need the statement layout.
- Annotation elements: an annotation is modelled by its name only.
- `visit_Module`, which writes nothing, and `visit_Interface`'s treatment of `extends`.
- Object identity: `__hash__` by `id` and the identity-keyed precedence table are replaced by a context parameter. `JNodeTransformer` returning the very object it was given, mutated in place, has no counterpart in a pure model.
- JastIterProps.ExprIterFields: covers the modelled expression classes only. `NewObject` has no anonymous class `body` field, so `new T() { ... }` and the `body` it yields when truthy are not modelled, and `SwitchExp` with its `value` and `rules` is absent from `Expr`; both would make expressions recursive through statements and declarations.
- Visitors.GenericTransform: deleting any single-node field, required or optional (`If.orelse`, `Return.value`), leaves an object whose later use, by `__iter__` or by the unparser, raises `AttributeError`; the model keeps a node without that slot, which iterates and prints without error.
- Visitors.KeepGenericTransform: the copy is taken only inside `generic_visit`, so an override receives the original node, and an override that mutates its argument changes the input tree too; the model's overrides are pure, and the member states only that the copying transformer yields the same tree as the in-place one.
- Unparser.WildcardBoundText: a bound with neither flag makes the source raise `ValueError`; the model writes nothing for it. LeafText.BuiltBoundIsWritten shows that the constructor never builds such a bound.
- Visitor overrides that keep state across calls (a transformer that collects nodes to add later) are left out: an override is a pure function of the node and its generic result.
- Reparse.RoundTrip: the round trip is proved for the operator sublanguage (names, constants, binary, prefix and postfix operators, casts, assignments and conditionals), not for calls, members, lambdas or types.
- Visitors.DeleterFiltersList: states the list case only; deletion at every depth, single-node fields included, is Visitors.DeleterRemovesAll.
- LeafText.ImportRoundTrip: holds for names whose identifiers contain no dot, space or star, as Java identifiers do; the model's identifiers are arbitrary strings, for which the text can be ambiguous.
- LeafText.LiteralTextInjective: character and string literals are written without escaping, as the source writes them, so the statement is about the model's texts and not about valid Java.

## Findings

| source | as written | input that shows it | evidently intended | confidence | as-written member | corrected member |
|---|---|---|---|---|---|---|
| src/jast/_unparse.py:500-509 | `visit_IfExp` prints the else branch in the LAMBDA context, so an assignment there is not parenthesised | `IfExp(t, b, Assign(x, =, 1))` and `Assign(IfExp(t, b, x), =, 1)` both print as `t ? b : x = 1`, which Java reads as the second | print the else branch in the TERNARY context, giving `t ? b : (x = 1)`, so that different trees print differently | not executed | ElseBranch.ElseAssignCollides | Corrected.UnparseCorrected |

=== FILE: corrected.dfy ===
/**
 * A token-level expression printer for the operator sublanguage (names,
 * constants, binary, prefix and postfix operators, casts, assignments and
 * conditionals) that places parentheses by the same `require_parens` rule
 * as the unparser, with one change: the else branch of a conditional is
 * printed in the TERNARY context instead of the default LAMBDA context, so
 * an assignment there comes out parenthesised.
 *
 * Rendering the tokens gives the unparser's text on every expression whose
 * conditionals have no assignment in the else branch; the reference parser
 * in module Reparse reads the tokens back into the original tree.
 */
module Corrected {
  import opened Wrappers
  import opened Text
  import opened Jast
  import opened Unparser

  datatype Token =
    | TName(id: Ident)
    | TLit(lit: Literal)
    | TBin(op: BinaryOp)
    | TPre(uop: UnaryOperator)
    | TPost(pop: PostOperator)
    | TCast(annotations: seq<Modifier>, bound: TypeBound)
    | TAssignOp(aop: Option<BinaryOp>)
    | TQuestion
    | TColon
    | TOpen
    | TClose

  /** The expressions built from operators over names and constants. */
  predicate OpExpr(e: Expr)
  {
    match e
    case Name(_) => true
    case Constant(_) => true
    case BinOp(l, _, r) => OpExpr(l) && OpExpr(r)
    case UnaryOp(_, x) => OpExpr(x)
    case PostOp(x, _) => OpExpr(x)
    case Cast(_, _, x) => OpExpr(x)
    case Assign(t, _, v) => OpExpr(t) && OpExpr(v)
    case IfExp(t, b, o) => OpExpr(t) && OpExpr(b) && OpExpr(o)
    case _ => false
  }

  /** No conditional anywhere in `e` has an assignment as its else branch. */
  predicate ElseNotAssign(e: Expr)
  {
    match e
    case BinOp(l, _, r) => ElseNotAssign(l) && ElseNotAssign(r)
    case UnaryOp(_, x) => ElseNotAssign(x)
    case PostOp(x, _) => ElseNotAssign(x)
    case Cast(_, _, x) => ElseNotAssign(x)
    case Assign(t, _, v) => ElseNotAssign(t) && ElseNotAssign(v)
    case IfExp(t, b, o) => !o.Assign? && ElseNotAssign(t) && ElseNotAssign(b) && ElseNotAssign(o)
    case _ => true
  }

  /** The text the unparser writes for each token. */
  function TokenText(t: Token): string
  {
    match t
    case TName(id) => id
    case TLit(l) => LiteralText(l)
    case TBin(op) => " " + BinOpText(op) + " "
    case TPre(op) => UnaryText(op)
    case TPost(op) => PostText(op)
    case TCast(anns, b) => "(" + AnnotationsText(anns) + TypeBoundText(b) + ") "
    case TAssignOp(op) => AssignOpText(op)
    case TQuestion => " ? "
    case TColon => " : "
    case TOpen => "("
    case TClose => ")"
  }

  function Render(ts: seq<Token>): string
  {
    if |ts| == 0 then "" else TokenText(ts[0]) + Render(ts[1..])
  }

  lemma {:induction false} RenderAppend(a: seq<Token>, b: seq<Token>)
    ensures Render(a + b) == Render(a) + Render(b)
    decreases |a|
  {
    if |a| == 0 {
      assert a + b == b;
    } else {
      assert (a + b)[0] == a[0];
      assert (a + b)[1..] == a[1..] + b;
      RenderAppend(a[1..], b);
    }
  }

  /** `e` in context `ctx`, parenthesised exactly when the context exceeds its own level. */
  function Tokens(e: Expr, ctx: Prec): seq<Token>
    requires OpExpr(e)
    decreases e, 1
  {
    if NeedsParens(OwnLevel(e), ctx) then [TOpen] + BareTokens(e) + [TClose] else BareTokens(e)
  }

  function BareTokens(e: Expr): seq<Token>
    requires OpExpr(e)
    decreases e, 0
  {
    match e
    case Name(id) => [TName(id)]
    case Constant(l) => [TLit(l)]
    case BinOp(l, op, r) => Tokens(l, BinOpLevel(op)) + [TBin(op)] + Tokens(r, Next(BinOpLevel(op)))
    case UnaryOp(op, x) => [TPre(op)] + Tokens(x, UNARY)
    case PostOp(x, op) => Tokens(x, POSTFIX) + [TPost(op)]
    case Cast(anns, b, x) => [TCast(anns, b)] + Tokens(x, TYPE)
    case Assign(t, op, v) => Tokens(t, Next(ASSIGN)) + [TAssignOp(op)] + Tokens(v, ASSIGN)
    case IfExp(t, b, o) => Tokens(t, Next(TERNARY)) + [TQuestion] + Tokens(b, LAMBDA) + [TColon] + Tokens(o, TERNARY)
  }

  /**
   * The corrected unparser's text for `e` at the root: the unparser's own
   * text whenever no conditional has an assignment as its else branch.
   */
  function UnparseCorrected(e: Expr): (r: string)
    requires OpExpr(e)
    ensures ElseNotAssign(e) ==> r == UnparseExpr(e)
  {
    if ElseNotAssign(e) then AgreesWithUnparse(e, LAMBDA); Render(Tokens(e, LAMBDA))
    else Render(Tokens(e, LAMBDA))
  }

  lemma RenderThree(a: seq<Token>, b: seq<Token>, c: seq<Token>)
    ensures Render(a + b + c) == Render(a) + Render(b) + Render(c)
  {
    RenderAppend(a + b, c);
    RenderAppend(a, b);
  }

  lemma RenderFive(a: seq<Token>, b: seq<Token>, c: seq<Token>, d: seq<Token>, f: seq<Token>)
    ensures Render(a + b + c + d + f) == Render(a) + Render(b) + Render(c) + Render(d) + Render(f)
  {
    RenderAppend(a + b + c + d, f);
    RenderAppend(a + b + c, d);
    RenderThree(a, b, c);
  }

  lemma RenderOne(t: Token)
    ensures Render([t]) == TokenText(t)
  {
  }

  /**
   * Away from the one difference, the corrected printer writes exactly
   * what the unparser writes, in every context.
   */
  lemma {:induction false} AgreesWithUnparse(e: Expr, ctx: Prec)
    requires OpExpr(e) && ElseNotAssign(e)
    ensures Render(Tokens(e, ctx)) == Unparse(e, ctx)
    decreases e, 2
  {
    BareAgrees(e);
    if NeedsParens(OwnLevel(e), ctx) {
      RenderThree([TOpen], BareTokens(e), [TClose]);
    }
  }

  lemma {:induction false} BareAgrees(e: Expr)
    requires OpExpr(e) && ElseNotAssign(e)
    ensures Render(BareTokens(e)) == Bare(e)
    decreases e, 1
  {
    match e
    case Name(id) =>
    case Constant(l) =>
    case BinOp(l, op, r) => BinOpAgrees(l, op, r);
    case UnaryOp(op, x) => UnaryAgrees(op, x);
    case PostOp(x, op) => PostAgrees(x, op);
    case Cast(anns, b, x) => CastAgrees(anns, b, x);
    case Assign(t, op, v) => AssignAgrees(t, op, v);
    case IfExp(t, b, o) => IfExpAgrees(t, b, o);
  }

  lemma {:induction false} BinOpAgrees(l: Expr, op: BinaryOp, r: Expr)
    requires OpExpr(BinOp(l, op, r)) && ElseNotAssign(BinOp(l, op, r))
    ensures Render(BareTokens(BinOp(l, op, r))) == Bare(BinOp(l, op, r))
    decreases BinOp(l, op, r), 0
  {
    var p := BinOpLevel(op);
    var tl, tr := Tokens(l, p), Tokens(r, Next(p));
    AgreesWithUnparse(l, p);
    AgreesWithUnparse(r, Next(p));
    assert BareTokens(BinOp(l, op, r)) == tl + [TBin(op)] + tr;
    RenderThree(tl, [TBin(op)], tr);
    BinOpTokenText(Unparse(l, p), op, Unparse(r, Next(p)));
    assert Bare(BinOp(l, op, r)) == Unparse(l, p) + " " + BinOpText(op) + " " + Unparse(r, Next(p));
  }

  /** The operator token renders as the operator between two spaces. */
  lemma BinOpTokenText(a: string, op: BinaryOp, b: string)
    ensures a + Render([TBin(op)]) + b == a + " " + BinOpText(op) + " " + b
  {
    RenderOne(TBin(op));
    var t := BinOpText(op);
    assert a + (" " + t + " ") + b == a + " " + t + " " + b;
  }

  lemma {:induction false} UnaryAgrees(op: UnaryOperator, x: Expr)
    requires OpExpr(UnaryOp(op, x)) && ElseNotAssign(UnaryOp(op, x))
    ensures Render(BareTokens(UnaryOp(op, x))) == Bare(UnaryOp(op, x))
    decreases UnaryOp(op, x), 0
  {
    AgreesWithUnparse(x, UNARY);
    RenderAppend([TPre(op)], Tokens(x, UNARY));
    assert BareTokens(UnaryOp(op, x)) == [TPre(op)] + Tokens(x, UNARY);
    assert Bare(UnaryOp(op, x)) == UnaryText(op) + Unparse(x, UNARY);
  }

  lemma {:induction false} PostAgrees(x: Expr, op: PostOperator)
    requires OpExpr(PostOp(x, op)) && ElseNotAssign(PostOp(x, op))
    ensures Render(BareTokens(PostOp(x, op))) == Bare(PostOp(x, op))
    decreases PostOp(x, op), 0
  {
    AgreesWithUnparse(x, POSTFIX);
    RenderAppend(Tokens(x, POSTFIX), [TPost(op)]);
    assert BareTokens(PostOp(x, op)) == Tokens(x, POSTFIX) + [TPost(op)];
    assert Bare(PostOp(x, op)) == Unparse(x, POSTFIX) + PostText(op);
  }

  lemma {:induction false} CastAgrees(anns: seq<Modifier>, b: TypeBound, x: Expr)
    requires OpExpr(Cast(anns, b, x)) && ElseNotAssign(Cast(anns, b, x))
    ensures Render(BareTokens(Cast(anns, b, x))) == Bare(Cast(anns, b, x))
    decreases Cast(anns, b, x), 0
  {
    AgreesWithUnparse(x, TYPE);
    RenderAppend([TCast(anns, b)], Tokens(x, TYPE));
    assert BareTokens(Cast(anns, b, x)) == [TCast(anns, b)] + Tokens(x, TYPE);
    assert Bare(Cast(anns, b, x)) == "(" + AnnotationsText(anns) + TypeBoundText(b) + ") " + Unparse(x, TYPE);
  }

  lemma {:induction false} AssignAgrees(t: Expr, op: Option<BinaryOp>, v: Expr)
    requires OpExpr(Assign(t, op, v)) && ElseNotAssign(Assign(t, op, v))
    ensures Render(BareTokens(Assign(t, op, v))) == Bare(Assign(t, op, v))
    decreases Assign(t, op, v), 0
  {
    var tt, tv := Tokens(t, Next(ASSIGN)), Tokens(v, ASSIGN);
    AgreesWithUnparse(t, Next(ASSIGN));
    AgreesWithUnparse(v, ASSIGN);
    RenderThree(tt, [TAssignOp(op)], tv);
    RenderOne(TAssignOp(op));
    assert BareTokens(Assign(t, op, v)) == tt + [TAssignOp(op)] + tv;
    assert Bare(Assign(t, op, v)) == Unparse(t, Next(ASSIGN)) + AssignOpText(op) + Unparse(v, ASSIGN);
  }

  lemma {:induction false} IfExpAgrees(t: Expr, b: Expr, o: Expr)
    requires OpExpr(IfExp(t, b, o)) && ElseNotAssign(IfExp(t, b, o))
    ensures Render(BareTokens(IfExp(t, b, o))) == Bare(IfExp(t, b, o))
    decreases IfExp(t, b, o), 0
  {
    var tt, tb, to := Tokens(t, Next(TERNARY)), Tokens(b, LAMBDA), Tokens(o, TERNARY);
    AgreesWithUnparse(t, Next(TERNARY));
    AgreesWithUnparse(b, LAMBDA);
    AgreesWithUnparse(o, TERNARY);
    assert Unparse(o, TERNARY) == Unparse(o, LAMBDA);
    RenderFive(tt, [TQuestion], tb, [TColon], to);
    RenderOne(TQuestion);
    RenderOne(TColon);
    assert BareTokens(IfExp(t, b, o)) == tt + [TQuestion] + tb + [TColon] + to;
    assert Bare(IfExp(t, b, o)) == Unparse(t, Next(TERNARY)) + " ? " + Unparse(b, LAMBDA) + " : " + Unparse(o, LAMBDA);
  }
}

=== FILE: else_branch.dfy ===
/**
 * `visit_IfExp` leaves the else branch of a conditional in the default
 * LAMBDA context, so an assignment there is printed bare. Java's grammar
 * reads `t ? b : x = v` as an assignment to the conditional, so two
 * different trees print to one text. The corrected printer of module
 * Corrected uses the TERNARY context for the else branch and tells them
 * apart.
 */
module ElseBranch {
  import opened Wrappers
  import opened Text
  import opened Jast
  import opened Unparser
  import opened UnparseProps
  import opened Corrected
  import opened Reparse

  /**
   * As written: a conditional whose else branch is an assignment prints
   * exactly like the assignment to the conditional, whenever the assigned
   * expression is not itself a lambda or an assignment.
   */
  lemma ElseAssignCollides(t: Expr, b: Expr, x: Expr, op: Option<BinaryOp>, v: Expr)
    requires !x.Lambda? && !x.Assign?
    ensures IfExp(t, b, Assign(x, op, v)) != Assign(IfExp(t, b, x), op, v)
    ensures UnparseExpr(IfExp(t, b, Assign(x, op, v))) == UnparseExpr(Assign(IfExp(t, b, x), op, v))
  {
    ElseAssignText(t, b, x, op, v);
    AssignToConditionalText(t, b, x, op, v);
  }

  /** The text of the conditional whose else branch is the assignment. */
  lemma ElseAssignText(t: Expr, b: Expr, x: Expr, op: Option<BinaryOp>, v: Expr)
    requires !x.Lambda? && !x.Assign?
    ensures UnparseExpr(IfExp(t, b, Assign(x, op, v)))
         == Operand(t, t.Lambda? || t.Assign? || t.IfExp?) + " ? " + UnparseExpr(b) + " : " + UnparseExpr(x) + AssignOpText(op) + Operand(v, v.Lambda?)
  {
    var head := Operand(t, t.Lambda? || t.Assign? || t.IfExp?) + " ? " + UnparseExpr(b) + " : ";
    AssignOperands(x, op, v);
    IfExpOperands(t, b, Assign(x, op, v));
    AppendTail(head, UnparseExpr(x), AssignOpText(op), Operand(v, v.Lambda?));
  }

  /** The text of the assignment whose target is the conditional. */
  lemma AssignToConditionalText(t: Expr, b: Expr, x: Expr, op: Option<BinaryOp>, v: Expr)
    ensures UnparseExpr(Assign(IfExp(t, b, x), op, v))
         == Operand(t, t.Lambda? || t.Assign? || t.IfExp?) + " ? " + UnparseExpr(b) + " : " + UnparseExpr(x) + AssignOpText(op) + Operand(v, v.Lambda?)
  {
    IfExpOperands(t, b, x);
    AssignOperands(IfExp(t, b, x), op, v);
  }

  lemma AppendTail<T>(h: seq<T>, a: seq<T>, b: seq<T>, c: seq<T>)
    ensures h + (a + b + c) == h + a + b + c
  {
  }

  /** The smallest instance: both trees print as `t ? b : x = 1`. */
  lemma {:induction false} ElseAssignExample()
    ensures UnparseExpr(IfExp(Name("t"), Name("b"), Assign(Name("x"), None, Constant(IntLiteral(1, false))))) == "t ? b : x = 1"
    ensures UnparseExpr(Assign(IfExp(Name("t"), Name("b"), Name("x")), None, Constant(IntLiteral(1, false)))) == "t ? b : x = 1"
  {
    var one := Constant(IntLiteral(1, false));
    var a := Assign(Name("x"), None, one);
    ElseAssignCollides(Name("t"), Name("b"), Name("x"), None, one);
    AssignText(one);
    NameText("t");
    NameText("b");
    ElseAssignShape(Name("t"), Name("b"), a);
  }

  /** The conditional's text from the texts of its parts, for a plain test. */
  lemma {:induction false} ElseAssignShape(t: Expr, b: Expr, a: Expr)
    requires t.Name? && UnparseExpr(t) == "t" && UnparseExpr(b) == "b" && UnparseExpr(a) == "x = 1"
    ensures UnparseExpr(IfExp(t, b, a)) == "t ? b : x = 1"
  {
    IfExpOperands(t, b, a);
  }

  lemma NameText(s: string)
    ensures UnparseExpr(Name(s)) == s
  {
    ContextOnlyWraps(Name(s), LAMBDA);
  }

  lemma AssignText(one: Expr)
    requires one == Constant(IntLiteral(1, false))
    ensures UnparseExpr(Assign(Name("x"), None, one)) == "x = 1"
  {
    AssignOperands(Name("x"), None, one);
    NameText("x");
    ContextOnlyWraps(one, LAMBDA);
    assert NatToString(1) == "1";
    assert UnparseExpr(one) == "1";
    assert AssignOpText(None) == " = ";
  }

  /** Corrected: the two trees get different tokens, and the else-branch assignment is parenthesised. */
  lemma ElseAssignKeptApart(t: Expr, b: Expr, x: Expr, op: Option<BinaryOp>, v: Expr)
    requires OpExpr(t) && OpExpr(b) && OpExpr(x) && OpExpr(v)
    ensures Tokens(IfExp(t, b, Assign(x, op, v)), LAMBDA) != Tokens(Assign(IfExp(t, b, x), op, v), LAMBDA)
    ensures Tokens(IfExp(t, b, Assign(x, op, v)), LAMBDA)
         == Tokens(t, OR) + [TQuestion] + Tokens(b, LAMBDA) + [TColon, TOpen] + Tokens(Assign(x, op, v), LAMBDA) + [TClose]
  {
    var e1, e2 := IfExp(t, b, Assign(x, op, v)), Assign(IfExp(t, b, x), op, v);
    var a := Assign(x, op, v);
    assert Tokens(e1, LAMBDA) == BareTokens(e1);
    assert Tokens(a, TERNARY) == [TOpen] + BareTokens(a) + [TClose];
    assert Tokens(a, LAMBDA) == BareTokens(a);
    if Tokens(e1, LAMBDA) == Tokens(e2, LAMBDA) {
      TokensInjective(e1, e2);
    }
  }

  /**
   * Corrected: the two trees print to different texts. The conditional's
   * text is the assignment to the conditional with one pair of parentheses
   * added around the else branch, so it is two characters longer.
   */
  lemma ElseAssignTextsDiffer(t: Expr, b: Expr, x: Expr, op: Option<BinaryOp>, v: Expr)
    requires OpExpr(t) && OpExpr(b) && OpExpr(x) && OpExpr(v)
    ensures |UnparseCorrected(IfExp(t, b, Assign(x, op, v)))| == |UnparseCorrected(Assign(IfExp(t, b, x), op, v))| + 2
    ensures UnparseCorrected(IfExp(t, b, Assign(x, op, v))) != UnparseCorrected(Assign(IfExp(t, b, x), op, v))
  {
    var e1, e2 := IfExp(t, b, Assign(x, op, v)), Assign(IfExp(t, b, x), op, v);
    ElseAssignTokenShapes(t, b, x, op, v);
    ParensAddTwo(Tokens(t, Next(TERNARY)) + [TQuestion] + Tokens(b, LAMBDA) + [TColon], BareTokens(Assign(x, op, v)));
    assert UnparseCorrected(e1) == Render(Tokens(e1, LAMBDA));
    assert UnparseCorrected(e2) == Render(Tokens(e2, LAMBDA));
  }

  /** The corrected tokens of the two trees: the same head, and the assignment's tokens with and without parentheses. */
  lemma ElseAssignTokenShapes(t: Expr, b: Expr, x: Expr, op: Option<BinaryOp>, v: Expr)
    requires OpExpr(t) && OpExpr(b) && OpExpr(x) && OpExpr(v)
    ensures Tokens(IfExp(t, b, Assign(x, op, v)), LAMBDA)
         == (Tokens(t, Next(TERNARY)) + [TQuestion] + Tokens(b, LAMBDA) + [TColon]) + ([TOpen] + BareTokens(Assign(x, op, v)) + [TClose])
    ensures Tokens(Assign(IfExp(t, b, x), op, v), LAMBDA)
         == (Tokens(t, Next(TERNARY)) + [TQuestion] + Tokens(b, LAMBDA) + [TColon]) + BareTokens(Assign(x, op, v))
  {
    ConditionalShape(t, b, Assign(x, op, v));
    AssignToConditionalShape(t, b, x, op, v);
  }

  lemma ConditionalShape(t: Expr, b: Expr, a: Expr)
    requires OpExpr(t) && OpExpr(b) && OpExpr(a) && a.Assign?
    ensures Tokens(IfExp(t, b, a), LAMBDA)
         == (Tokens(t, Next(TERNARY)) + [TQuestion] + Tokens(b, LAMBDA) + [TColon]) + ([TOpen] + BareTokens(a) + [TClose])
  {
    assert Tokens(a, TERNARY) == [TOpen] + BareTokens(a) + [TClose];
    assert Tokens(IfExp(t, b, a), LAMBDA) == BareTokens(IfExp(t, b, a));
  }

  lemma AssignToConditionalShape(t: Expr, b: Expr, x: Expr, op: Option<BinaryOp>, v: Expr)
    requires OpExpr(t) && OpExpr(b) && OpExpr(x) && OpExpr(v)
    ensures Tokens(Assign(IfExp(t, b, x), op, v), LAMBDA)
         == (Tokens(t, Next(TERNARY)) + [TQuestion] + Tokens(b, LAMBDA) + [TColon]) + BareTokens(Assign(x, op, v))
  {
    var p := Tokens(t, Next(TERNARY)) + [TQuestion] + Tokens(b, LAMBDA) + [TColon];
    var tx, tv := Tokens(x, TERNARY), Tokens(v, ASSIGN);
    assert Tokens(IfExp(t, b, x), TERNARY) == p + tx;
    assert BareTokens(Assign(x, op, v)) == tx + [TAssignOp(op)] + tv;
    assert Tokens(Assign(IfExp(t, b, x), op, v), LAMBDA) == Tokens(IfExp(t, b, x), TERNARY) + [TAssignOp(op)] + tv;
    AppendTail(p, tx, [TAssignOp(op)], tv);
  }

  /** Wrapping the tail of a token list in parentheses adds exactly two characters to its text. */
  lemma ParensAddTwo(p: seq<Token>, q: seq<Token>)
    ensures |Render(p + ([TOpen] + q + [TClose]))| == |Render(p + q)| + 2
  {
    RenderAppend(p, [TOpen] + q + [TClose]);
    RenderThree([TOpen], q, [TClose]);
    RenderAppend(p, q);
    RenderOne(TOpen);
    RenderOne(TClose);
  }

  lemma {:induction false} ElseAssignCorrectedExample()
    ensures UnparseCorrected(IfExp(Name("t"), Name("b"), Assign(Name("x"), None, Name("y")))) == "t ? b : (x = y)"
  {
    var head := [TName("t"), TQuestion, TName("b"), TColon, TOpen];
    var ta := [TName("x"), TAssignOp(None), TName("y")];
    ExampleTokens();
    RenderAppend(head + ta, [TClose]);
    RenderAppend(head, ta);
    ExampleRenders();
  }

  lemma ExampleTokens()
    ensures Tokens(IfExp(Name("t"), Name("b"), Assign(Name("x"), None, Name("y"))), LAMBDA)
         == [TName("t"), TQuestion, TName("b"), TColon, TOpen] + [TName("x"), TAssignOp(None), TName("y")] + [TClose]
  {
    var a := Assign(Name("x"), None, Name("y"));
    ElseAssignKeptApart(Name("t"), Name("b"), Name("x"), None, Name("y"));
    assert Tokens(a, LAMBDA) == [TName("x"), TAssignOp(None), TName("y")] by {
      assert Tokens(Name("x"), OR) == [TName("x")];
      assert Tokens(Name("y"), ASSIGN) == [TName("y")];
    }
    assert Tokens(Name("t"), OR) == [TName("t")];
    assert Tokens(Name("b"), LAMBDA) == [TName("b")];
  }

  lemma ExampleRenders()
    ensures Render([TName("t"), TQuestion, TName("b"), TColon, TOpen]) == "t ? b : ("
    ensures Render([TName("x"), TAssignOp(None), TName("y")]) == "x = y"
    ensures Render([TClose]) == ")"
  {
    HeadRenders();
    AssignRenders();
  }

  lemma HeadRenders()
    ensures Render([TName("t"), TQuestion, TName("b"), TColon, TOpen]) == "t ? b : ("
  {
    RenderCons(TColon, [TOpen]);
    RenderCons(TName("b"), [TColon, TOpen]);
    RenderCons(TQuestion, [TName("b"), TColon, TOpen]);
    RenderCons(TName("t"), [TQuestion, TName("b"), TColon, TOpen]);
  }

  lemma AssignRenders()
    ensures Render([TName("x"), TAssignOp(None), TName("y")]) == "x = y"
  {
    assert AssignOpText(None) == " = ";
    RenderCons(TAssignOp(None), [TName("y")]);
    RenderCons(TName("x"), [TAssignOp(None), TName("y")]);
  }

  lemma RenderCons(t: Token, rest: seq<Token>)
    ensures Render([t] + rest) == TokenText(t) + Render(rest)
  {
    assert ([t] + rest)[1..] == rest;
  }
}

=== FILE: iter_leaves.dfy ===
/**
 * Identifiers are leaves of every tree `__iter__` builds: an `identifier`
 * is a `str`, which yields no fields, and no node class of
 * `src/jast/_jast.py` is called `identifier`. So the identifier visitor of
 * the visitor tests lists, on every expression, statement and declaration
 * of the model, the identifiers in pre-order.
 */
module IterLeaves {
  import opened Wrappers
  import opened Tree
  import opened Jast
  import opened JastIter
  import opened Visitors

  const IDS: set<string> := {"identifier"}

  /** A yielded field holds only trees whose identifiers are leaves. */
  predicate CandidateLeaves(c: Candidate)
  {
    c.value.Some? ==> ChildKindsAreLeaves(c.value.value, IDS)
  }

  lemma {:induction false} SeqLeaves(ms: seq<Node>)
    requires forall i :: 0 <= i < |ms| ==> KindsAreLeaves(ms[i], IDS)
    ensures SeqKindsAreLeaves(ms, IDS)
    decreases |ms|
  {
    if |ms| > 0 {
      assert forall i :: 0 <= i < |ms[1..]| ==> ms[1..][i] == ms[i + 1];
      SeqLeaves(ms[1..]);
    }
  }

  /** The fields `Emit` yields keep identifiers as leaves when every candidate does. */
  lemma {:induction false} EmitLeaves(cs: seq<Candidate>)
    requires forall i :: 0 <= i < |cs| ==> CandidateLeaves(cs[i])
    ensures SlotsKindsAreLeaves(Emit(cs), IDS)
    decreases |cs|
  {
    if |cs| > 0 {
      assert forall i :: 0 <= i < |cs[1..]| ==> cs[1..][i] == cs[i + 1];
      EmitLeaves(cs[1..]);
    }
  }

  /** A node of a class other than `identifier` built by `Emit`. */
  lemma EmitNodeLeaves(kind: string, cs: seq<Candidate>)
    requires kind != "identifier"
    requires forall i :: 0 <= i < |cs| ==> CandidateLeaves(cs[i])
    ensures KindsAreLeaves(Node(kind, "", Emit(cs)), IDS)
  {
    EmitLeaves(cs);
  }

  /** An identifier, an operator or another class without fields. */
  lemma LeafLeaves(kind: string, text: string)
    ensures KindsAreLeaves(Leaf(kind, text), IDS)
  {
    assert SlotsKindsAreLeaves([], IDS);
  }

  lemma IdNodesLeaves(ids: seq<Ident>)
    ensures SeqKindsAreLeaves(IdNodes(ids), IDS)
  {
    forall i | 0 <= i < |ids| ensures KindsAreLeaves(IdNodes(ids)[i], IDS) { LeafLeaves("identifier", ids[i]); }
    SeqLeaves(IdNodes(ids));
  }

  lemma QNameLeaves(q: QName)
    ensures KindsAreLeaves(QNameNode(q), IDS)
  {
    IdNodesLeaves(q.identifiers);
    EmitNodeLeaves("qname", [Req("identifiers", Many(IdNodes(q.identifiers)))]);
  }

  lemma QNamesLeaves(qs: seq<QName>)
    ensures SeqKindsAreLeaves(QNameNodes(qs), IDS)
  {
    forall i | 0 <= i < |qs| ensures KindsAreLeaves(QNameNodes(qs)[i], IDS) { QNameLeaves(qs[i]); }
    SeqLeaves(QNameNodes(qs));
  }

  lemma ModifiersLeaves(name: string, ms: seq<Modifier>)
    ensures CandidateLeaves(OptModifiers(name, ms))
  {
    var nodes := seq(|ms|, i requires 0 <= i < |ms| => ModifierNode(ms[i]));
    forall i | 0 <= i < |ms| ensures KindsAreLeaves(nodes[i], IDS)
    {
      match ms[i]
      case Annotation(q) =>
        QNameLeaves(q);
        EmitNodeLeaves("Annotation", [Req("name", One(QNameNode(q)))]);
      case _ =>
    }
    SeqLeaves(nodes);
  }

  lemma DimsLeaves(ds: seq<Dim>)
    ensures SeqKindsAreLeaves(DimNodes(ds), IDS)
  {
    forall i | 0 <= i < |ds| ensures KindsAreLeaves(DimNodes(ds)[i], IDS)
    {
      ModifiersLeaves("annotations", ds[i].annotations);
      EmitNodeLeaves("dim", [OptModifiers("annotations", ds[i].annotations)]);
    }
    SeqLeaves(DimNodes(ds));
  }

  lemma {:induction false} TypeLeaves(t: JType)
    ensures KindsAreLeaves(TypeNode(t), IDS)
  {
    match t
    case Void =>
    case Var =>
    case Primitive(k, anns) =>
      ModifiersLeaves("annotations", anns);
      EmitNodeLeaves(PrimitiveClass(k), [OptModifiers("annotations", anns)]);
    case Wildcard(anns, bound) =>
      ModifiersLeaves("annotations", anns);
      assert bound.Some? ==> KindsAreLeaves(WildcardBoundNode(bound.value), IDS) by { if bound.Some? { WildcardBoundLeaves(bound.value); } }
      EmitNodeLeaves("Wildcard", [
        OptModifiers("annotations", anns),
        Candidate("bound", if bound.Some? then Some(One(WildcardBoundNode(bound.value))) else None)]);
    case Coit(anns, id, targs) =>
      ModifiersLeaves("annotations", anns);
      LeafLeaves("identifier", id);
      assert targs.Some? ==> KindsAreLeaves(TypeArgsNode(targs.value), IDS) by { if targs.Some? { TypeArgsLeaves(targs.value); } }
      EmitNodeLeaves("Coit", [
        OptModifiers("annotations", anns),
        Req("id", One(IdNode(id))),
        Candidate("type_args", if targs.Some? then Some(One(TypeArgsNode(targs.value))) else None)]);
    case ClassType(anns, coits) =>
      ModifiersLeaves("annotations", anns);
      var nodes := seq(|coits|, i requires 0 <= i < |coits| => TypeNode(coits[i]));
      forall i | 0 <= i < |coits| ensures KindsAreLeaves(nodes[i], IDS) { TypeLeaves(coits[i]); }
      SeqLeaves(nodes);
      EmitNodeLeaves("ClassType", [OptModifiers("annotations", anns), Req("coits", Many(nodes))]);
    case ArrayType(anns, elem, dims) =>
      ModifiersLeaves("annotations", anns);
      TypeLeaves(elem);
      DimsLeaves(dims);
      EmitNodeLeaves("ArrayType", [
        OptModifiers("annotations", anns),
        Req("type", One(TypeNode(elem))),
        Opt("dims", |dims| > 0, Many(DimNodes(dims)))]);
  }

  lemma {:induction false} WildcardBoundLeaves(b: WildcardBound)
    ensures KindsAreLeaves(WildcardBoundNode(b), IDS)
  {
    TypeLeaves(b.ty);
    EmitNodeLeaves("wildcardbound", [Req("type", One(TypeNode(b.ty)))]);
  }

  lemma {:induction false} TypesLeaves(ts: seq<JType>)
    ensures SeqKindsAreLeaves(TypeNodes(ts), IDS)
  {
    forall i | 0 <= i < |ts| ensures KindsAreLeaves(TypeNodes(ts)[i], IDS) { TypeLeaves(ts[i]); }
    SeqLeaves(TypeNodes(ts));
  }

  lemma {:induction false} TypeArgsLeaves(a: TypeArgs)
    ensures KindsAreLeaves(TypeArgsNode(a), IDS)
  {
    TypesLeaves(a.types);
    EmitNodeLeaves("typeargs", [Req("types", Many(TypeNodes(a.types)))]);
  }

  lemma TypeBoundLeaves(b: TypeBound)
    ensures KindsAreLeaves(TypeBoundNode(b), IDS)
  {
    TypesLeaves(b.types);
    EmitNodeLeaves("typebound", [Req("types", Many(TypeNodes(b.types)))]);
  }

  lemma TypeParamsLeaves(ps: TypeParams)
    ensures KindsAreLeaves(TypeParamsNode(ps), IDS)
  {
    var nodes := seq(|ps.parameters|, i requires 0 <= i < |ps.parameters| => TypeParamNode(ps.parameters[i]));
    forall i | 0 <= i < |ps.parameters| ensures KindsAreLeaves(nodes[i], IDS)
    {
      var p := ps.parameters[i];
      ModifiersLeaves("annotations", p.annotations);
      LeafLeaves("identifier", p.id);
      assert p.bound.Some? ==> KindsAreLeaves(TypeBoundNode(p.bound.value), IDS) by { if p.bound.Some? { TypeBoundLeaves(p.bound.value); } }
      EmitNodeLeaves("typeparam", [
        OptModifiers("annotations", p.annotations),
        Req("id", One(IdNode(p.id))),
        Candidate("bound", if p.bound.Some? then Some(One(TypeBoundNode(p.bound.value))) else None)]);
    }
    SeqLeaves(nodes);
    EmitNodeLeaves("typeparams", [Req("parameters", Many(nodes))]);
  }

  lemma VarDeclIdLeaves(v: VarDeclId)
    ensures KindsAreLeaves(VarDeclIdNode(v), IDS)
  {
    DimsLeaves(v.dims);
    LeafLeaves("identifier", v.id);
    EmitNodeLeaves("variabledeclaratorid", [Req("id", One(IdNode(v.id))), Opt("dims", |v.dims| > 0, Many(DimNodes(v.dims)))]);
  }

  lemma PatternLeaves(p: Pattern)
    ensures KindsAreLeaves(PatternNode(p), IDS)
  {
    ModifiersLeaves("modifiers", p.modifiers);
    TypeLeaves(p.ty);
    ModifiersLeaves("annotations", p.annotations);
    LeafLeaves("identifier", p.id);
    EmitNodeLeaves("pattern", [
      OptModifiers("modifiers", p.modifiers),
      Req("type", One(TypeNode(p.ty))),
      OptModifiers("annotations", p.annotations),
      Req("id", One(IdNode(p.id)))]);
  }

  lemma ParamLeaves(p: Param)
    ensures KindsAreLeaves(ParamNode(p), IDS)
  {
    ModifiersLeaves("modifiers", p.modifiers);
    TypeLeaves(p.ty);
    VarDeclIdLeaves(p.id);
    match p
    case Param(mods, ty, id) =>
      EmitNodeLeaves("param", [OptModifiers("modifiers", mods), Req("type", One(TypeNode(ty))), Req("id", One(VarDeclIdNode(id)))]);
    case Arity(mods, ty, anns, id) =>
      ModifiersLeaves("annotations", anns);
      EmitNodeLeaves("arity", [
        OptModifiers("modifiers", mods),
        Req("type", One(TypeNode(ty))),
        OptModifiers("annotations", anns),
        Req("id", One(VarDeclIdNode(id)))]);
  }

  lemma ParamsLeaves(ps: Params)
    ensures KindsAreLeaves(ParamsNode(ps), IDS)
  {
    if ps.receiver.Some? {
      var r := ps.receiver.value;
      TypeLeaves(r.ty);
      IdNodesLeaves(r.identifiers);
      EmitNodeLeaves("receiver", [
        Req("type", One(TypeNode(r.ty))),
        Opt("identifiers", |r.identifiers| > 0, Many(IdNodes(r.identifiers)))]);
    }
    var nodes := seq(|ps.parameters|, i requires 0 <= i < |ps.parameters| => ParamNode(ps.parameters[i]));
    forall i | 0 <= i < |ps.parameters| ensures KindsAreLeaves(nodes[i], IDS) { ParamLeaves(ps.parameters[i]); }
    SeqLeaves(nodes);
    EmitNodeLeaves("params", [
      Candidate("receiver_param", if ps.receiver.Some? then Some(One(ReceiverNode(ps.receiver.value))) else None),
      Opt("parameters", |ps.parameters| > 0, Many(nodes))]);
  }

  lemma ExprClassIsNotIdentifier(e: Expr)
    ensures ExprClass(e) != "identifier"
  {
  }

  /** The nodes of a list of expressions. */
  lemma {:induction false} ExprsLeaves(xs: seq<Expr>)
    ensures SeqKindsAreLeaves(ExprNodes(xs), IDS)
    decreases xs, 1
  {
    forall i | 0 <= i < |xs| ensures KindsAreLeaves(ExprNodes(xs)[i], IDS) { ExprTreeIdentifiersAreLeaves(xs[i]); }
    SeqLeaves(ExprNodes(xs));
  }

  /** The fields of operators and conditionals keep identifiers as leaves. */
  lemma {:induction false} OperatorCandidatesLeaves(e: Expr)
    requires e.Lambda? || e.Assign? || e.IfExp? || e.BinOp? || e.InstanceOf? || e.UnaryOp? || e.PostOp? || e.Cast?
    ensures forall i :: 0 <= i < |ExprCandidates(e)| ==> CandidateLeaves(ExprCandidates(e)[i])
    decreases e, 0
  {
    match e
    case Lambda(args, body) =>
      match args {
        case SingleArg(id) => LeafLeaves("identifier", id);
        case ArgList(ids) => IdNodesLeaves(ids);
        case FormalParams(ps) => ParamsLeaves(ps);
      }
      ExprTreeIdentifiersAreLeaves(body);
    case Assign(target, op, value) =>
      assert op.Some? ==> KindsAreLeaves(Leaf(BinaryOpClass(op.value), ""), IDS) by { if op.Some? { LeafLeaves(BinaryOpClass(op.value), ""); } }
      ExprTreeIdentifiersAreLeaves(target);
      ExprTreeIdentifiersAreLeaves(value);
    case IfExp(test, body, orelse) =>
      ExprTreeIdentifiersAreLeaves(test);
      ExprTreeIdentifiersAreLeaves(body);
      ExprTreeIdentifiersAreLeaves(orelse);
    case BinOp(left, op, right) =>
      LeafLeaves(BinaryOpClass(op), "");
      ExprTreeIdentifiersAreLeaves(left);
      ExprTreeIdentifiersAreLeaves(right);
    case InstanceOf(value, target) =>
      ExprTreeIdentifiersAreLeaves(value);
      var typeNode := match target case TypeTarget(ty) => TypeNode(ty) case PatternTarget(p) => PatternNode(p);
      assert KindsAreLeaves(typeNode, IDS) by {
        match target {
          case TypeTarget(ty) => TypeLeaves(ty);
          case PatternTarget(p) => PatternLeaves(p);
        }
      }
    case UnaryOp(op, operand) =>
      LeafLeaves(UnaryOpClass(op), "");
      ExprTreeIdentifiersAreLeaves(operand);
    case PostOp(operand, op) =>
      LeafLeaves(PostOpClass(op), "");
      ExprTreeIdentifiersAreLeaves(operand);
    case Cast(anns, bound, value) =>
      ModifiersLeaves("annotations", anns);
      TypeBoundLeaves(bound);
      ExprTreeIdentifiersAreLeaves(value);
  }

  /** The fields of object creation, literals and names keep identifiers as leaves. */
  lemma {:induction false} CreationCandidatesLeaves(e: Expr)
    requires e.NewObject? || e.NewArray? || e.This? || e.Super? || e.Constant? || e.Name? || e.ClassExpr?
    ensures forall i :: 0 <= i < |ExprCandidates(e)| ==> CandidateLeaves(ExprCandidates(e)[i])
    decreases e, 0
  {
    match e
    case NewObject(targs, ty, args) =>
      assert targs.Some? ==> KindsAreLeaves(TypeArgsNode(targs.value), IDS) by { if targs.Some? { TypeArgsLeaves(targs.value); } }
      TypeLeaves(ty);
      ExprsLeaves(args);
    case NewArray(ty, exprDims, dims, init) =>
      TypeLeaves(ty);
      ExprsLeaves(exprDims);
      DimsLeaves(dims);
      assert init.Some? ==> KindsAreLeaves(ArrayInitNode(init.value), IDS) by { if init.Some? { ArrayInitLeaves(init.value); } }
    case This =>
    case Super(targs, id) =>
      assert Present(id) ==> KindsAreLeaves(IdNode(id.value), IDS) by { if Present(id) { LeafLeaves("identifier", id.value); } }
      assert targs.Some? ==> KindsAreLeaves(TypeArgsNode(targs.value), IDS) by { if targs.Some? { TypeArgsLeaves(targs.value); } }
    case Constant(lit) =>
      LeafLeaves(LiteralClass(lit), "");
    case Name(id) =>
      LeafLeaves("identifier", id);
    case ClassExpr(ty) => TypeLeaves(ty);
  }

  /** The fields of member access and calls keep identifiers as leaves. */
  lemma {:induction false} AccessCandidatesLeaves(e: Expr)
    requires e.ExplicitGenericInvocation? || e.Subscript? || e.Member? || e.Call?
    ensures forall i :: 0 <= i < |ExprCandidates(e)| ==> CandidateLeaves(ExprCandidates(e)[i])
    decreases e, 0
  {
    match e
    case ExplicitGenericInvocation(targs, value) =>
      TypeArgsLeaves(targs);
      ExprTreeIdentifiersAreLeaves(value);
    case Subscript(value, index) =>
      ExprTreeIdentifiersAreLeaves(value);
      ExprTreeIdentifiersAreLeaves(index);
    case Member(value, member) =>
      ExprTreeIdentifiersAreLeaves(value);
      ExprTreeIdentifiersAreLeaves(member);
    case Call(func, args) =>
      ExprTreeIdentifiersAreLeaves(func);
      ExprsLeaves(args);
  }

  /** The fields of method references and switch patterns keep identifiers as leaves. */
  lemma {:induction false} ReferenceCandidatesLeaves(e: Expr)
    requires e.Reference? || e.Match?
    ensures forall i :: 0 <= i < |ExprCandidates(e)| ==> CandidateLeaves(ExprCandidates(e)[i])
    decreases e, 0
  {
    match e
    case Reference(target, targs, id, _) =>
      assert Present(id) ==> KindsAreLeaves(IdNode(id.value), IDS) by { if Present(id) { LeafLeaves("identifier", id.value); } }
      var typeNode := match target case RefExpr(x) => ExprNode(x) case RefType(ty) => TypeNode(ty);
      assert KindsAreLeaves(typeNode, IDS) by {
        match target {
          case RefExpr(x) => ExprTreeIdentifiersAreLeaves(x);
          case RefType(ty) => TypeLeaves(ty);
        }
      }
      assert targs.Some? ==> KindsAreLeaves(TypeArgsNode(targs.value), IDS) by { if targs.Some? { TypeArgsLeaves(targs.value); } }
    case Match(ty, id) =>
      LeafLeaves("identifier", id);
      TypeLeaves(ty);
  }

  /** In the tree of every expression, identifier nodes have no fields. */
  lemma {:induction false} ExprTreeIdentifiersAreLeaves(e: Expr)
    ensures KindsAreLeaves(ExprNode(e), IDS)
    decreases e, 2
  {
    assert forall i :: 0 <= i < |ExprCandidates(e)| ==> CandidateLeaves(ExprCandidates(e)[i]) by {
      if e.Lambda? || e.Assign? || e.IfExp? || e.BinOp? || e.InstanceOf? || e.UnaryOp? || e.PostOp? || e.Cast? {
        OperatorCandidatesLeaves(e);
      } else if e.NewObject? || e.NewArray? || e.This? || e.Super? || e.Constant? || e.Name? || e.ClassExpr? {
        CreationCandidatesLeaves(e);
      } else if e.ExplicitGenericInvocation? || e.Subscript? || e.Member? || e.Call? {
        AccessCandidatesLeaves(e);
      } else {
        ReferenceCandidatesLeaves(e);
      }
    }
    ExprClassIsNotIdentifier(e);
    EmitNodeLeaves(ExprClass(e), ExprCandidates(e));
  }

  lemma {:induction false} ArrayInitLeaves(a: ArrayInit)
    ensures KindsAreLeaves(ArrayInitNode(a), IDS)
    decreases a
  {
    var nodes := seq(|a.values|, i requires 0 <= i < |a.values| => InitValueNode(a.values[i]));
    forall i | 0 <= i < |a.values| ensures KindsAreLeaves(nodes[i], IDS) { InitValueLeaves(a.values[i]); }
    SeqLeaves(nodes);
    EmitNodeLeaves("arrayinit", [Req("values", Many(nodes))]);
  }

  lemma {:induction false} InitValueLeaves(v: InitValue)
    ensures KindsAreLeaves(InitValueNode(v), IDS)
    decreases v
  {
    match v
    case InitExpr(x) => ExprTreeIdentifiersAreLeaves(x);
    case InitArray(a) => ArrayInitLeaves(a);
  }

  lemma GuardedPatternLeaves(g: GuardedPattern)
    ensures KindsAreLeaves(GuardedPatternNode(g), IDS)
  {
    PatternLeaves(g.value);
    ExprsLeaves(g.conditions);
    EmitNodeLeaves("guardedpattern", [
      Req("value", One(PatternNode(g.value))),
      Opt("conditions", |g.conditions| > 0, Many(ExprNodes(g.conditions)))]);
  }

  lemma DeclaratorLeaves(d: Declarator)
    ensures KindsAreLeaves(DeclaratorNode(d), IDS)
  {
    VarDeclIdLeaves(d.id);
    assert d.init.Some? ==> KindsAreLeaves(InitValueNode(d.init.value), IDS) by { if d.init.Some? { InitValueLeaves(d.init.value); } }
    EmitNodeLeaves("declarator", [
      Req("id", One(VarDeclIdNode(d.id))),
      Candidate("init", if d.init.Some? then Some(One(InitValueNode(d.init.value))) else None)]);
  }

  lemma DeclaratorsLeaves(ds: seq<Declarator>)
    ensures SeqKindsAreLeaves(DeclaratorNodes(ds), IDS)
  {
    forall i | 0 <= i < |ds| ensures KindsAreLeaves(DeclaratorNodes(ds)[i], IDS) { DeclaratorLeaves(ds[i]); }
    SeqLeaves(DeclaratorNodes(ds));
  }

  lemma ResourceLeaves(r: Resource)
    ensures KindsAreLeaves(ResourceNode(r), IDS)
  {
    match r
    case Resource(mods, ty, variable) =>
      ModifiersLeaves("modifiers", mods);
      TypeLeaves(ty);
      DeclaratorLeaves(variable);
      EmitNodeLeaves("resource", [
        OptModifiers("modifiers", mods),
        Req("type", One(TypeNode(ty))),
        Req("variable", One(DeclaratorNode(variable)))]);
    case ResourceName(name) => QNameLeaves(name);
  }

  lemma ResourcesLeaves(rs: seq<Resource>)
    ensures SeqKindsAreLeaves(seq(|rs|, i requires 0 <= i < |rs| => ResourceNode(rs[i])), IDS)
  {
    var nodes := seq(|rs|, i requires 0 <= i < |rs| => ResourceNode(rs[i]));
    forall i | 0 <= i < |rs| ensures KindsAreLeaves(nodes[i], IDS) { ResourceLeaves(rs[i]); }
    SeqLeaves(nodes);
  }

  lemma StmtClassIsNotIdentifier(s: Stmt)
    ensures StmtClass(s) != "identifier"
  {
  }

  /** The nodes of a list of statements. */
  lemma {:induction false} StmtsLeaves(ss: seq<Stmt>)
    ensures SeqKindsAreLeaves(StmtNodes(ss), IDS)
    decreases ss, 1
  {
    forall i | 0 <= i < |ss| ensures KindsAreLeaves(StmtNodes(ss)[i], IDS) { StmtTreeIdentifiersAreLeaves(ss[i]); }
    SeqLeaves(StmtNodes(ss));
  }

  /** The nodes of a list of catch clauses. */
  lemma {:induction false} CatchesLeaves(cs: seq<Catch>)
    ensures SeqKindsAreLeaves(seq(|cs|, i requires 0 <= i < |cs| => CatchNode(cs[i])), IDS)
    decreases cs, 1
  {
    var nodes := seq(|cs|, i requires 0 <= i < |cs| => CatchNode(cs[i]));
    forall i | 0 <= i < |cs| ensures KindsAreLeaves(nodes[i], IDS)
    {
      var c := cs[i];
      ModifiersLeaves("modifiers", c.modifiers);
      QNamesLeaves(c.excs);
      LeafLeaves("identifier", c.id);
      StmtTreeIdentifiersAreLeaves(c.body);
      EmitNodeLeaves("catch", [
        OptModifiers("modifiers", c.modifiers),
        Req("excs", Many(QNameNodes(c.excs))),
        Req("id", One(IdNode(c.id))),
        Req("body", One(StmtNode(c.body)))]);
    }
    SeqLeaves(nodes);
  }

  /** The fields of simple statements, declarations and conditionals keep identifiers as leaves. */
  lemma {:induction false} SimpleStmtCandidatesLeaves(s: Stmt)
    requires s.Empty? || s.Block? || s.Expression? || s.LocalVariable? || s.If? || s.While? || s.Return?
    ensures forall i :: 0 <= i < |StmtCandidates(s)| ==> CandidateLeaves(StmtCandidates(s)[i])
    decreases s, 0
  {
    match s
    case Empty =>
    case Block(stmts) => StmtsLeaves(stmts);
    case Expression(value) => ExprTreeIdentifiersAreLeaves(value);
    case LocalVariable(mods, ty, decls) =>
      ModifiersLeaves("modifiers", mods);
      TypeLeaves(ty);
      DeclaratorsLeaves(decls);
    case If(test, thenStmt, elseStmt) =>
      ExprTreeIdentifiersAreLeaves(test);
      StmtTreeIdentifiersAreLeaves(thenStmt);
      assert elseStmt.Some? ==> KindsAreLeaves(StmtNode(elseStmt.value), IDS) by { if elseStmt.Some? { StmtTreeIdentifiersAreLeaves(elseStmt.value); } }
    case While(test, body) =>
      ExprTreeIdentifiersAreLeaves(test);
      StmtTreeIdentifiersAreLeaves(body);
    case Return(result) =>
      assert result.Some? ==> KindsAreLeaves(ExprNode(result.value), IDS) by { if result.Some? { ExprTreeIdentifiersAreLeaves(result.value); } }
  }

  /** The fields of throw, yield and jump statements keep identifiers as leaves. */
  lemma {:induction false} JumpStmtCandidatesLeaves(s: Stmt)
    requires s.Throw? || s.Yield? || s.Break? || s.Continue?
    ensures forall i :: 0 <= i < |StmtCandidates(s)| ==> CandidateLeaves(StmtCandidates(s)[i])
    decreases s, 0
  {
    match s
    case Throw(exc) => ExprTreeIdentifiersAreLeaves(exc);
    case Yield(value) => ExprTreeIdentifiersAreLeaves(value);
    case Break(jump) =>
      assert Present(jump) ==> KindsAreLeaves(IdNode(jump.value), IDS) by { if Present(jump) { LeafLeaves("identifier", jump.value); } }
    case Continue(jump) =>
      assert Present(jump) ==> KindsAreLeaves(IdNode(jump.value), IDS) by { if Present(jump) { LeafLeaves("identifier", jump.value); } }
  }

  /** The fields of try statements keep identifiers as leaves. */
  lemma {:induction false} TryStmtCandidatesLeaves(s: Stmt)
    requires s.Try? || s.TryWithResources?
    ensures forall i :: 0 <= i < |StmtCandidates(s)| ==> CandidateLeaves(StmtCandidates(s)[i])
    decreases s, 0
  {
    match s
    case Try(body, catches, final) =>
      StmtTreeIdentifiersAreLeaves(body);
      CatchesLeaves(catches);
      assert final.Some? ==> KindsAreLeaves(StmtNode(final.value), IDS) by { if final.Some? { StmtTreeIdentifiersAreLeaves(final.value); } }
    case TryWithResources(resources, body, catches, final) =>
      ResourcesLeaves(resources);
      StmtTreeIdentifiersAreLeaves(body);
      CatchesLeaves(catches);
      assert final.Some? ==> KindsAreLeaves(StmtNode(final.value), IDS) by { if final.Some? { StmtTreeIdentifiersAreLeaves(final.value); } }
  }

  /** In the tree of every statement, identifier nodes have no fields. */
  lemma {:induction false} StmtTreeIdentifiersAreLeaves(s: Stmt)
    ensures KindsAreLeaves(StmtNode(s), IDS)
    decreases s, 2
  {
    assert forall i :: 0 <= i < |StmtCandidates(s)| ==> CandidateLeaves(StmtCandidates(s)[i]) by {
      if s.Empty? || s.Block? || s.Expression? || s.LocalVariable? || s.If? || s.While? || s.Return? {
        SimpleStmtCandidatesLeaves(s);
      } else if s.Throw? || s.Yield? || s.Break? || s.Continue? {
        JumpStmtCandidatesLeaves(s);
      } else {
        TryStmtCandidatesLeaves(s);
      }
    }
    StmtClassIsNotIdentifier(s);
    EmitNodeLeaves(StmtClass(s), StmtCandidates(s));
  }

  lemma SwitchExpRuleLeaves(r: SwitchExpRule)
    ensures KindsAreLeaves(SwitchExpRuleNode(r), IDS)
  {
    var ruleClass := if r.ruleLabel == ExpCase then "ExpCase" else "ExpDefault";
    LeafLeaves(ruleClass, "");
    var cases := seq(|r.cases|, i requires 0 <= i < |r.cases| => CaseItemNode(r.cases[i]));
    forall i | 0 <= i < |r.cases| ensures KindsAreLeaves(cases[i], IDS)
    {
      match r.cases[i]
      case CaseExpr(x) => ExprTreeIdentifiersAreLeaves(x);
      case CaseGuarded(g) => GuardedPatternLeaves(g);
    }
    SeqLeaves(cases);
    StmtsLeaves(r.body);
    EmitNodeLeaves("switchexprule", [
      Req("label", One(Leaf(ruleClass, ""))),
      Opt("cases", |r.cases| > 0, Many(cases)),
      Opt("body", |r.body| > 0, Many(StmtNodes(r.body)))]);
  }

  lemma SwitchGroupLeaves(g: SwitchGroup)
    ensures KindsAreLeaves(SwitchGroupNode(g), IDS)
  {
    var labels := seq(|g.labels|, i requires 0 <= i < |g.labels| => SwitchLabelNode(g.labels[i]));
    forall i | 0 <= i < |g.labels| ensures KindsAreLeaves(labels[i], IDS)
    {
      match g.labels[i]
      case Case(guard) =>
        ExprTreeIdentifiersAreLeaves(guard);
        EmitNodeLeaves("Case", [Req("guard", One(ExprNode(guard)))]);
      case DefaultCase => LeafLeaves("DefaultCase", "");
    }
    SeqLeaves(labels);
    StmtsLeaves(g.body);
    EmitNodeLeaves("switchgroup", [
      Req("labels", Many(labels)),
      Req("body", Many(StmtNodes(g.body)))]);
  }

  /** Every field a method yields keeps identifiers as leaves. */
  lemma MethodCandidatesLeaves(d: Declaration)
    requires d.Method?
    ensures forall i :: 0 <= i < |DeclarationCandidates(d)| ==> CandidateLeaves(DeclarationCandidates(d)[i])
  {
    ModifiersLeaves("modifiers", d.modifiers);
    assert d.typeParams.Some? ==> KindsAreLeaves(TypeParamsNode(d.typeParams.value), IDS) by { if d.typeParams.Some? { TypeParamsLeaves(d.typeParams.value); } }
    ModifiersLeaves("annotations", d.annotations);
    TypeLeaves(d.returnType);
    LeafLeaves("identifier", d.id);
    assert d.parameters.Some? ==> KindsAreLeaves(ParamsNode(d.parameters.value), IDS) by { if d.parameters.Some? { ParamsLeaves(d.parameters.value); } }
    DimsLeaves(d.dims);
    QNamesLeaves(d.throws);
    assert d.methodBody.Some? ==> KindsAreLeaves(StmtNode(d.methodBody.value), IDS) by { if d.methodBody.Some? { StmtTreeIdentifiersAreLeaves(d.methodBody.value); } }
  }

  /** In the tree of every declaration, identifier nodes have no fields. */
  lemma DeclarationTreeIdentifiersAreLeaves(d: Declaration)
    ensures KindsAreLeaves(DeclarationNode(d), IDS)
  {
    match d {
      case Import(_, name, _) => QNameLeaves(name);
      case Field(mods, ty, decls) =>
        ModifiersLeaves("modifiers", mods);
        TypeLeaves(ty);
        DeclaratorsLeaves(decls);
      case Method(_, _, _, _, _, _, _, _, _) => MethodCandidatesLeaves(d);
    }
    EmitNodeLeaves(DeclarationClass(d), DeclarationCandidates(d));
  }

  /** On every expression's tree, the identifier visitor lists the identifiers in pre-order. */
  lemma ExprIdentifiersInPreorder(e: Expr)
    ensures Visit(IdentifierVisitor(), ExprNode(e)) == IdentifierTexts(Preorder(ExprNode(e)))
  {
    ExprTreeIdentifiersAreLeaves(e);
    IdentifierVisitorIsPreorder(ExprNode(e));
  }

  /** On every statement's tree, the identifier visitor lists the identifiers in pre-order. */
  lemma StmtIdentifiersInPreorder(s: Stmt)
    ensures Visit(IdentifierVisitor(), StmtNode(s)) == IdentifierTexts(Preorder(StmtNode(s)))
  {
    StmtTreeIdentifiersAreLeaves(s);
    IdentifierVisitorIsPreorder(StmtNode(s));
  }

  /** On every declaration's tree, the identifier visitor lists the identifiers in pre-order. */
  lemma DeclarationIdentifiersInPreorder(d: Declaration)
    ensures Visit(IdentifierVisitor(), DeclarationNode(d)) == IdentifierTexts(Preorder(DeclarationNode(d)))
  {
    DeclarationTreeIdentifiersAreLeaves(d);
    IdentifierVisitorIsPreorder(DeclarationNode(d));
  }
}

=== FILE: jast.dfy ===
/**
 * The validated Java AST node model of `src/jast/_jast.py`.
 *
 * The modelled node classes become constructors of immutable datatypes (the
 * classes left out are listed in README.md under "Left out"). List fields are
 * sequences. Most constructors normalise a missing list with `x or []`, so a
 * `None` list and an empty one are the same sequence; the exceptions store the
 * list as given: `typeargs.types` rejects `None` and reads `[]` as the diamond,
 * `qname.identifiers` and `typebound.types` must be non-empty, and
 * `receiver.identifiers` and `switchexprule.cases` are kept unchanged.
 * Optional single-node fields are `Option`s. The validating `__init__`s of the
 * modelled core become smart constructors `Mk...` that return `Ok(node)` or
 * the `JASTError` they raise, checked in the same order as the source. `...WF`
 * predicates state the structural invariants those constructors establish,
 * node by node and over whole trees.
 */
module Jast {
  import opened Wrappers

  /** An identifier; a Python `str` subclass, so the empty identifier is falsy. */
  type Ident = string

  /** `JASTError` with its message. */
  datatype JastError = JastError(message: string)

  /** `<identifier>.<identifier>...` */
  datatype QName = QName(identifiers: seq<Ident>)

  /** The modifier keywords, plus annotations (their element-value pairs are not modelled). */
  datatype Modifier =
    | Abstract | Default | Final | Native | NonSealed | Private | Protected | Public
    | Sealed | Static | Strictfp | Synchronized | Transient | Transitive | Volatile
    | Annotation(name: QName)

  datatype PrimitiveKind = Boolean | Byte | Short | Int | Long | Char | Float | Double

  /** The `jtype` hierarchy. */
  datatype JType =
    | Void
    | Var
    | Primitive(kind: PrimitiveKind, annotations: seq<Modifier>)
    | Wildcard(annotations: seq<Modifier>, bound: Option<WildcardBound>)
    | Coit(annotations: seq<Modifier>, id: Ident, typeArgs: Option<TypeArgs>)
    | ClassType(annotations: seq<Modifier>, coits: seq<JType>)
    | ArrayType(annotations: seq<Modifier>, elem: JType, dims: seq<Dim>)

  /** `(extends | super) <jtype>`; the source keeps both flags. */
  datatype WildcardBound = WildcardBound(ty: JType, isExtends: bool, isSuper: bool)

  /** `< <jtype>, <jtype>, ... >` (the empty diamond is allowed). */
  datatype TypeArgs = TypeArgs(types: seq<JType>)

  /** `<annotation>* []` */
  datatype Dim = Dim(annotations: seq<Modifier>)

  /** `<annotation>* <jtype> & <jtype> & ...` */
  datatype TypeBound = TypeBound(annotations: seq<Modifier>, types: seq<JType>)

  datatype TypeParam = TypeParam(annotations: seq<Modifier>, id: Ident, bound: Option<TypeBound>)

  datatype TypeParams = TypeParams(parameters: seq<TypeParam>)

  /** `<id><dim><dim>...` */
  datatype VarDeclId = VarDeclId(id: Ident, dims: seq<Dim>)

  /** `<modifier>* <jtype> <annotation>* <id>` */
  datatype Pattern = Pattern(modifiers: seq<Modifier>, ty: JType, annotations: seq<Modifier>, id: Ident)

  /** `<pattern> && <condition> && ...` */
  datatype GuardedPattern = GuardedPattern(value: Pattern, conditions: seq<Expr>)

  /** The binary `operator` classes. */
  datatype BinaryOp =
    | Or | And | BitOr | BitXor | BitAnd | Eq | NotEq | Lt | LtE | Gt | GtE
    | LShift | RShift | URShift | Add | Sub | Mult | Div | Mod

  /** The prefix `unaryop` classes. */
  datatype UnaryOperator = PreInc | PreDec | UAdd | USub | Not | Invert

  /** The `postop` classes. */
  datatype PostOperator = PostInc | PostDec

  /** The literal classes, except floating-point literals and text blocks. */
  datatype Literal =
    | IntLiteral(intValue: int, long: bool)
    | BoolLiteral(boolValue: bool)
    | CharLiteral(charValue: char)
    | StringLiteral(stringValue: string)
    | NullLiteral

  /** `receiver`: `<jtype> [<identifier>.]this` */
  datatype Receiver = Receiver(ty: JType, identifiers: seq<Ident>)

  /** `param` and `arity` (a variable-arity parameter). */
  datatype Param =
    | Param(modifiers: seq<Modifier>, ty: JType, id: VarDeclId)
    | Arity(modifiers: seq<Modifier>, ty: JType, annotations: seq<Modifier>, id: VarDeclId)

  /** `params`: an optional receiver parameter and the formal parameters. */
  datatype Params = Params(receiver: Option<Receiver>, parameters: seq<Param>)

  /** The three shapes of `Lambda.args`: an identifier, a list of identifiers, or `params`. */
  datatype LambdaArgs =
    | SingleArg(id: Ident)
    | ArgList(ids: seq<Ident>)
    | FormalParams(params: Params)

  /** `InstanceOf.type`: a type or a pattern. */
  datatype InstanceTarget = TypeTarget(ty: JType) | PatternTarget(pattern: Pattern)

  /** `Reference.type`: an expression or a type. */
  datatype RefTarget = RefExpr(expr: Expr) | RefType(ty: JType)

  /** The expression classes (subclasses of `expr`). */
  datatype Expr =
    | Lambda(params: LambdaArgs, body: Expr)
    | Assign(target: Expr, assignOp: Option<BinaryOp>, value: Expr)
    | IfExp(test: Expr, body: Expr, orelse: Expr)
    | BinOp(left: Expr, op: BinaryOp, right: Expr)
    | InstanceOf(value: Expr, instTarget: InstanceTarget)
    | UnaryOp(uop: UnaryOperator, operand: Expr)
    | PostOp(operand: Expr, pop: PostOperator)
    | Cast(annotations: seq<Modifier>, bound: TypeBound, value: Expr)
    | NewObject(typeArgs: Option<TypeArgs>, ty: JType, args: seq<Expr>)
    | NewArray(ty: JType, exprDims: seq<Expr>, dims: seq<Dim>, init: Option<ArrayInit>)
    | This
    | Super(typeArgs: Option<TypeArgs>, superId: Option<Ident>)
    | Constant(lit: Literal)
    | Name(id: Ident)
    | ClassExpr(ty: JType)
    | ExplicitGenericInvocation(explicitArgs: TypeArgs, value: Expr)
    | Subscript(value: Expr, index: Expr)
    | Member(value: Expr, member: Expr)
    | Call(func: Expr, args: seq<Expr>)
    | Reference(refTarget: RefTarget, typeArgs: Option<TypeArgs>, refId: Option<Ident>, isNew: bool)
    | Match(ty: JType, id: Ident)

  /** An element of an array initializer: an expression or a nested initializer. */
  datatype InitValue = InitExpr(expr: Expr) | InitArray(array: ArrayInit)

  /** `arrayinit`: `{ <value>, <value>, ... }` */
  datatype ArrayInit = ArrayInit(values: seq<InitValue>)

  /** `declarator`: `<id> [= <init>]` */
  datatype Declarator = Declarator(id: VarDeclId, init: Option<InitValue>)

  /** `catch (<modifier>* <exc> | <exc> ... <id>) <body>` */
  datatype Catch = Catch(modifiers: seq<Modifier>, excs: seq<QName>, id: Ident, body: Stmt)

  /** `resource`, or a bare qualified name naming an existing resource. */
  datatype Resource =
    | Resource(modifiers: seq<Modifier>, ty: JType, variable: Declarator)
    | ResourceName(name: QName)

  /** The statement classes this model covers. */
  datatype Stmt =
    | Empty
    | Block(stmts: seq<Stmt>)
    | Expression(value: Expr)
    | LocalVariable(modifiers: seq<Modifier>, ty: JType, declarators: seq<Declarator>)
    | If(test: Expr, thenStmt: Stmt, elseStmt: Option<Stmt>)
    | While(test: Expr, loopBody: Stmt)
    | Return(result: Option<Expr>)
    | Throw(exc: Expr)
    | Yield(value: Expr)
    | Break(jumpLabel: Option<Ident>)
    | Continue(jumpLabel: Option<Ident>)
    | Try(tryBody: Stmt, catches: seq<Catch>, final: Option<Stmt>)
    | TryWithResources(resources: seq<Resource>, tryBody: Stmt, catches: seq<Catch>, final: Option<Stmt>)

  /** `switchexplabel`: `case` or `default` of a switch-expression rule. */
  datatype SwitchExpLabel = ExpCase | ExpDefault

  /** An item of a `case` list: an expression or a guarded pattern. */
  datatype CaseItem = CaseExpr(expr: Expr) | CaseGuarded(guarded: GuardedPattern)

  /** `switchexprule` */
  datatype SwitchExpRule = SwitchExpRule(ruleLabel: SwitchExpLabel, cases: seq<CaseItem>, arrow: bool, body: seq<Stmt>)

  /** `switchlabel`: `case <guard>:` or `default:` */
  datatype SwitchLabel = Case(guard: Expr) | DefaultCase

  /** `switchgroup`: labels followed by statements. */
  datatype SwitchGroup = SwitchGroup(labels: seq<SwitchLabel>, body: seq<Stmt>)

  /** The declaration classes this model covers. */
  datatype Declaration =
    | Import(isStatic: bool, name: QName, onDemand: bool)
    | Field(modifiers: seq<Modifier>, ty: JType, declarators: seq<Declarator>)
    | Method(modifiers: seq<Modifier>, typeParams: Option<TypeParams>, annotations: seq<Modifier>,
             returnType: JType, id: Ident, parameters: Option<Params>, dims: seq<Dim>,
             throws: seq<QName>, methodBody: Option<Stmt>)

  // ---------------------------------------------------------------------
  // Python truthiness of optional identifiers
  // ---------------------------------------------------------------------

  /** `if id:` on an optional identifier: present and non-empty. */
  predicate Present(id: Option<Ident>)
  {
    id.Some? && |id.value| > 0
  }

  // ---------------------------------------------------------------------
  // Node invariants (what each validating constructor guarantees locally)
  // ---------------------------------------------------------------------

  predicate QNameWF(q: QName)
  {
    |q.identifiers| > 0
  }

  predicate ModifierWF(m: Modifier)
  {
    m.Annotation? ==> QNameWF(m.name)
  }

  predicate ModifiersWF(ms: seq<Modifier>)
  {
    forall i :: 0 <= i < |ms| ==> ModifierWF(ms[i])
  }

  /** Exactly one of `extends` / `super` is set. */
  predicate BoundFlagsOk(b: WildcardBound)
  {
    b.isExtends != b.isSuper
  }

  predicate TypeWF(t: JType)
  {
    match t
    case Void => true
    case Var => true
    case Primitive(_, anns) => ModifiersWF(anns)
    case Wildcard(anns, bound) => ModifiersWF(anns) && (bound.Some? ==> WildcardBoundWF(bound.value))
    case Coit(anns, _, targs) => ModifiersWF(anns) && (targs.Some? ==> TypeArgsWF(targs.value))
    case ClassType(anns, coits) =>
      ModifiersWF(anns) && |coits| > 0 && forall i :: 0 <= i < |coits| ==> TypeWF(coits[i])
    case ArrayType(anns, elem, dims) => ModifiersWF(anns) && TypeWF(elem) && DimsWF(dims)
  }

  predicate WildcardBoundWF(b: WildcardBound)
  {
    BoundFlagsOk(b) && TypeWF(b.ty)
  }

  predicate TypeArgsWF(a: TypeArgs)
  {
    forall i :: 0 <= i < |a.types| ==> TypeWF(a.types[i])
  }

  predicate DimsWF(ds: seq<Dim>)
  {
    forall i :: 0 <= i < |ds| ==> ModifiersWF(ds[i].annotations)
  }

  predicate TypesWF(ts: seq<JType>)
  {
    forall i :: 0 <= i < |ts| ==> TypeWF(ts[i])
  }

  predicate TypeBoundWF(b: TypeBound)
  {
    ModifiersWF(b.annotations) && |b.types| > 0 && TypesWF(b.types)
  }

  predicate TypeParamWF(p: TypeParam)
  {
    ModifiersWF(p.annotations) && (p.bound.Some? ==> TypeBoundWF(p.bound.value))
  }

  predicate TypeParamsWF(ps: TypeParams)
  {
    |ps.parameters| > 0 && forall i :: 0 <= i < |ps.parameters| ==> TypeParamWF(ps.parameters[i])
  }

  predicate VarDeclIdWF(v: VarDeclId)
  {
    DimsWF(v.dims)
  }

  predicate PatternWF(p: Pattern)
  {
    ModifiersWF(p.modifiers) && TypeWF(p.ty) && ModifiersWF(p.annotations)
  }

  predicate ParamWF(p: Param)
  {
    match p
    case Param(mods, ty, id) => ModifiersWF(mods) && TypeWF(ty) && VarDeclIdWF(id)
    case Arity(mods, ty, anns, id) => ModifiersWF(mods) && TypeWF(ty) && ModifiersWF(anns) && VarDeclIdWF(id)
  }

  predicate ParamsWF(ps: Params)
  {
    (ps.receiver.Some? ==> TypeWF(ps.receiver.value.ty))
    && forall i :: 0 <= i < |ps.parameters| ==> ParamWF(ps.parameters[i])
  }

  /** A lambda never takes a receiver parameter. */
  predicate LambdaArgsWF(a: LambdaArgs)
  {
    a.FormalParams? ==> a.params.receiver.None? && ParamsWF(a.params)
  }

  predicate InstanceTargetWF(t: InstanceTarget)
  {
    match t
    case TypeTarget(ty) => TypeWF(ty)
    case PatternTarget(p) => PatternWF(p)
  }

  /** Array creation has dimension expressions or an initializer, not both. */
  predicate NewArrayShapeOk(exprDims: seq<Expr>, init: Option<ArrayInit>)
  {
    !(|exprDims| > 0 && init.Some?)
  }

  /** A method reference names exactly one of `new` and an identifier. */
  predicate ReferenceShapeOk(refId: Option<Ident>, isNew: bool)
  {
    isNew != Present(refId)
  }

  /** The invariant each expression node's own constructor checks. */
  predicate ExprNodeOk(e: Expr)
  {
    match e
    case Lambda(params, _) => LambdaArgsWF(params)
    case Cast(anns, bound, _) => ModifiersWF(anns) && TypeBoundWF(bound)
    case NewArray(ty, exprDims, dims, init) => TypeWF(ty) && DimsWF(dims) && NewArrayShapeOk(exprDims, init)
    case Reference(target, targs, refId, isNew) =>
      (target.RefType? ==> TypeWF(target.ty))
      && (targs.Some? ==> TypeArgsWF(targs.value))
      && ReferenceShapeOk(refId, isNew)
    case InstanceOf(_, target) => InstanceTargetWF(target)
    case NewObject(targs, ty, _) => (targs.Some? ==> TypeArgsWF(targs.value)) && TypeWF(ty)
    case Super(targs, _) => targs.Some? ==> TypeArgsWF(targs.value)
    case ClassExpr(ty) => TypeWF(ty)
    case ExplicitGenericInvocation(targs, _) => TypeArgsWF(targs)
    case Match(ty, _) => TypeWF(ty)
    case _ => true
  }

  /** Every node of the expression tree satisfies its constructor's invariant. */
  predicate ExprWF(e: Expr)
  {
    ExprNodeOk(e) &&
    match e
    case Lambda(_, body) => ExprWF(body)
    case Assign(target, _, value) => ExprWF(target) && ExprWF(value)
    case IfExp(test, body, orelse) => ExprWF(test) && ExprWF(body) && ExprWF(orelse)
    case BinOp(left, _, right) => ExprWF(left) && ExprWF(right)
    case InstanceOf(value, _) => ExprWF(value)
    case UnaryOp(_, operand) => ExprWF(operand)
    case PostOp(operand, _) => ExprWF(operand)
    case Cast(_, _, value) => ExprWF(value)
    case NewObject(_, _, args) => forall i :: 0 <= i < |args| ==> ExprWF(args[i])
    case NewArray(_, exprDims, _, init) =>
      (forall i :: 0 <= i < |exprDims| ==> ExprWF(exprDims[i]))
      && (init.Some? ==> ArrayInitWF(init.value))
    case ExplicitGenericInvocation(_, value) => ExprWF(value)
    case Subscript(value, index) => ExprWF(value) && ExprWF(index)
    case Member(value, member) => ExprWF(value) && ExprWF(member)
    case Call(func, args) => ExprWF(func) && forall i :: 0 <= i < |args| ==> ExprWF(args[i])
    case Reference(target, _, _, _) => target.RefExpr? ==> ExprWF(target.expr)
    case _ => true
  }

  predicate InitValueWF(v: InitValue)
  {
    match v
    case InitExpr(e) => ExprWF(e)
    case InitArray(a) => ArrayInitWF(a)
  }

  predicate ArrayInitWF(a: ArrayInit)
  {
    forall i :: 0 <= i < |a.values| ==> InitValueWF(a.values[i])
  }

  predicate GuardedPatternWF(g: GuardedPattern)
  {
    PatternWF(g.value) && forall i :: 0 <= i < |g.conditions| ==> ExprWF(g.conditions[i])
  }

  predicate DeclaratorWF(d: Declarator)
  {
    VarDeclIdWF(d.id) && (d.init.Some? ==> InitValueWF(d.init.value))
  }

  predicate DeclaratorsWF(ds: seq<Declarator>)
  {
    |ds| > 0 && forall i :: 0 <= i < |ds| ==> DeclaratorWF(ds[i])
  }

  predicate CatchWF(c: Catch)
  {
    ModifiersWF(c.modifiers) && |c.excs| > 0
    && (forall i :: 0 <= i < |c.excs| ==> QNameWF(c.excs[i]))
    && StmtWF(c.body)
  }

  predicate ResourceWF(r: Resource)
  {
    match r
    case Resource(mods, ty, variable) => ModifiersWF(mods) && TypeWF(ty) && DeclaratorWF(variable)
    case ResourceName(name) => QNameWF(name)
  }

  /** A `try` has a catch clause or a `finally` block. */
  predicate TryShapeOk(catches: seq<Catch>, final: Option<Stmt>)
  {
    |catches| > 0 || final.Some?
  }

  /** Every node of the statement tree satisfies its constructor's invariant. */
  predicate StmtWF(s: Stmt)
  {
    match s
    case Empty => true
    case Block(stmts) => forall i :: 0 <= i < |stmts| ==> StmtWF(stmts[i])
    case Expression(value) => ExprWF(value)
    case LocalVariable(mods, ty, decls) => ModifiersWF(mods) && TypeWF(ty) && DeclaratorsWF(decls)
    case If(test, thenStmt, elseStmt) =>
      ExprWF(test) && StmtWF(thenStmt) && (elseStmt.Some? ==> StmtWF(elseStmt.value))
    case While(test, loopBody) => ExprWF(test) && StmtWF(loopBody)
    case Return(result) => result.Some? ==> ExprWF(result.value)
    case Throw(exc) => ExprWF(exc)
    case Yield(value) => ExprWF(value)
    case Break(_) => true
    case Continue(_) => true
    case Try(tryBody, catches, final) =>
      TryShapeOk(catches, final) && StmtWF(tryBody)
      && (forall i :: 0 <= i < |catches| ==> CatchWF(catches[i]))
      && (final.Some? ==> StmtWF(final.value))
    case TryWithResources(resources, tryBody, catches, final) =>
      |resources| > 0
      && (forall i :: 0 <= i < |resources| ==> ResourceWF(resources[i]))
      && StmtWF(tryBody)
      && (forall i :: 0 <= i < |catches| ==> CatchWF(catches[i]))
      && (final.Some? ==> StmtWF(final.value))
  }

  predicate CaseItemWF(c: CaseItem)
  {
    match c
    case CaseExpr(e) => ExprWF(e)
    case CaseGuarded(g) => GuardedPatternWF(g)
  }

  /** A `case` rule lists at least one case; a `default` rule lists none. */
  predicate RuleShapeOk(kind: SwitchExpLabel, cases: seq<CaseItem>)
  {
    (kind == ExpCase ==> |cases| > 0) && (kind == ExpDefault ==> |cases| == 0)
  }

  predicate SwitchExpRuleWF(r: SwitchExpRule)
  {
    RuleShapeOk(r.ruleLabel, r.cases)
    && (forall i :: 0 <= i < |r.cases| ==> CaseItemWF(r.cases[i]))
    && (forall i :: 0 <= i < |r.body| ==> StmtWF(r.body[i]))
  }

  predicate SwitchGroupWF(g: SwitchGroup)
  {
    |g.labels| > 0 && |g.body| > 0
    && (forall i :: 0 <= i < |g.labels| ==> g.labels[i].Case? ==> ExprWF(g.labels[i].guard))
    && (forall i :: 0 <= i < |g.body| ==> StmtWF(g.body[i]))
  }

  predicate DeclarationWF(d: Declaration)
  {
    match d
    case Import(_, name, _) => QNameWF(name)
    case Field(mods, ty, decls) => ModifiersWF(mods) && TypeWF(ty) && DeclaratorsWF(decls)
    case Method(mods, tps, anns, rt, _, ps, dims, throws, body) =>
      ModifiersWF(mods) && (tps.Some? ==> TypeParamsWF(tps.value)) && ModifiersWF(anns)
      && TypeWF(rt) && (ps.Some? ==> ParamsWF(ps.value)) && DimsWF(dims)
      && (forall i :: 0 <= i < |throws| ==> QNameWF(throws[i]))
      && (body.Some? ==> StmtWF(body.value))
  }
}

=== FILE: jast_init.dfy ===
/**
 * The validating constructors of `src/jast/_jast.py` as smart constructors.
 *
 * A required parameter the caller may leave out (`None` in the source) is an
 * `Option`; a list parameter is a sequence, since the source treats a missing
 * list and an empty one alike. Each constructor checks its conditions in the
 * source's order and returns the first `JASTError` it would raise, or the
 * node. Each one promises: it succeeds exactly when the source's checks pass,
 * the error it returns is the first failing check's, and a successful result
 * is well formed whenever its children are.
 */
module JastInit {
  import opened Wrappers
  import opened Jast

  /** Raising `JASTError(message)`. */
  function Fail<T>(message: string): Result<T, JastError>
  {
    Err(JastError(message))
  }

  // ---------------------------------------------------------------------
  // Names and types
  // ---------------------------------------------------------------------

  /** `qname(identifiers)`: at least one identifier. */
  function MkQName(identifiers: seq<Ident>): (r: Result<QName, JastError>)
    ensures r.Ok? <==> |identifiers| > 0
    ensures r.Ok? ==> QNameWF(r.value) && r.value.identifiers == identifiers
    ensures r.Err? ==> r.error.message == "identifier is required for qname"
  {
    if |identifiers| == 0 then Fail("identifier is required for qname")
    else Ok(QName(identifiers))
  }

  /** `wildcardbound(type, extends, super_)`: a type and exactly one direction. */
  function MkWildcardBound(ty: Option<JType>, isExtends: bool, isSuper: bool): (r: Result<WildcardBound, JastError>)
    ensures r.Ok? <==> ty.Some? && isExtends != isSuper
    ensures ty.None? ==> r == Fail("jtype is required for wildcardbound")
    ensures ty.Some? && isExtends == isSuper ==>
              r == Fail("extends and super_ are mutually exclusive for wildcardbound")
    ensures r.Ok? ==> BoundFlagsOk(r.value) && r.value.ty == ty.value
    ensures r.Ok? && TypeWF(ty.value) ==> WildcardBoundWF(r.value)
  {
    if ty.None? then Fail("jtype is required for wildcardbound")
    else if isExtends == isSuper then Fail("extends and super_ are mutually exclusive for wildcardbound")
    else Ok(WildcardBound(ty.value, isExtends, isSuper))
  }

  /** `typeargs(types)`: only a missing list is rejected; the empty diamond is fine. */
  function MkTypeArgs(types: Option<seq<JType>>): (r: Result<TypeArgs, JastError>)
    ensures r.Ok? <==> types.Some?
    ensures r.Ok? ==> r.value.types == types.value
    ensures r.Ok? && TypesWF(types.value) ==> TypeArgsWF(r.value)
    ensures r.Err? ==> r.error.message == "types is required for typeargs"
  {
    if types.None? then Fail("types is required for typeargs")
    else Ok(TypeArgs(types.value))
  }

  /** `ClassType(annotations, coits)`: at least one class-or-interface component. */
  function MkClassType(annotations: seq<Modifier>, coits: seq<JType>): (r: Result<JType, JastError>)
    ensures r.Ok? <==> |coits| > 0
    ensures r.Ok? ==> r.value.ClassType? && r.value.coits == coits && r.value.annotations == annotations
    ensures r.Ok? && ModifiersWF(annotations) && TypesWF(coits) ==> TypeWF(r.value)
    ensures r.Err? ==> r.error.message == "coits is required"
  {
    if |coits| == 0 then Fail("coits is required")
    else Ok(ClassType(annotations, coits))
  }

  /** `typebound(annotations, types)`: at least one type. */
  function MkTypeBound(annotations: seq<Modifier>, types: seq<JType>): (r: Result<TypeBound, JastError>)
    ensures r.Ok? <==> |types| > 0
    ensures r.Ok? ==> r.value.types == types && r.value.annotations == annotations
    ensures r.Ok? && ModifiersWF(annotations) && TypesWF(types) ==> TypeBoundWF(r.value)
    ensures r.Err? ==> r.error.message == "types is required for typebound"
  {
    if |types| == 0 then Fail("types is required for typebound")
    else Ok(TypeBound(annotations, types))
  }

  /** `typeparams(parameters)`: at least one parameter. */
  function MkTypeParams(parameters: seq<TypeParam>): (r: Result<TypeParams, JastError>)
    ensures r.Ok? <==> |parameters| > 0
    ensures r.Ok? ==> r.value.parameters == parameters
    ensures r.Ok? && (forall i :: 0 <= i < |parameters| ==> TypeParamWF(parameters[i])) ==> TypeParamsWF(r.value)
    ensures r.Err? ==> r.error.message == "parameters is required for typeparams"
  {
    if |parameters| == 0 then Fail("parameters is required for typeparams")
    else Ok(TypeParams(parameters))
  }

  // ---------------------------------------------------------------------
  // Expressions
  // ---------------------------------------------------------------------

  /** `Lambda(args, body)`: both present, and formal parameters carry no receiver. */
  function MkLambda(args: Option<LambdaArgs>, body: Option<Expr>): (r: Result<Expr, JastError>)
    ensures r.Ok? <==> args.Some? && body.Some? && !(args.value.FormalParams? && args.value.params.receiver.Some?)
    ensures args.None? ==> r == Fail("args is required for Lambda")
    ensures args.Some? && body.None? ==> r == Fail("body is required for Lambda")
    ensures args.Some? && body.Some? && args.value.FormalParams? && args.value.params.receiver.Some? ==>
              r == Fail("receiver_param is not allowed for Lambda")
    ensures r.Ok? ==> r.value == Lambda(args.value, body.value)
    ensures (r.Ok? && ExprWF(body.value) && (args.value.FormalParams? ==> ParamsWF(args.value.params))) ==>
              ExprWF(r.value)
  {
    if args.None? then Fail("args is required for Lambda")
    else if body.None? then Fail("body is required for Lambda")
    else if args.value.FormalParams? && args.value.params.receiver.Some? then
      Fail("receiver_param is not allowed for Lambda")
    else Ok(Lambda(args.value, body.value))
  }

  /** `Assign(target, op, value)`: target and value present; `op` optional. */
  function MkAssign(target: Option<Expr>, op: Option<BinaryOp>, value: Option<Expr>): (r: Result<Expr, JastError>)
    ensures r.Ok? <==> target.Some? && value.Some?
    ensures target.None? ==> r == Fail("target is required for Assign")
    ensures target.Some? && value.None? ==> r == Fail("value is required for Assign")
    ensures r.Ok? ==> r.value == Assign(target.value, op, value.value)
    ensures r.Ok? && ExprWF(target.value) && ExprWF(value.value) ==> ExprWF(r.value)
  {
    if target.None? then Fail("target is required for Assign")
    else if value.None? then Fail("value is required for Assign")
    else Ok(Assign(target.value, op, value.value))
  }

  /** `IfExp(test, body, orelse)`: all three present. */
  function MkIfExp(test: Option<Expr>, body: Option<Expr>, orelse: Option<Expr>): (r: Result<Expr, JastError>)
    ensures r.Ok? <==> test.Some? && body.Some? && orelse.Some?
    ensures test.None? ==> r == Fail("test is required for IfExp")
    ensures test.Some? && body.None? ==> r == Fail("body is required for IfExp")
    ensures test.Some? && body.Some? && orelse.None? ==> r == Fail("orelse is required for IfExp")
    ensures r.Ok? ==> r.value == IfExp(test.value, body.value, orelse.value)
    ensures r.Ok? && ExprWF(test.value) && ExprWF(body.value) && ExprWF(orelse.value) ==> ExprWF(r.value)
  {
    if test.None? then Fail("test is required for IfExp")
    else if body.None? then Fail("body is required for IfExp")
    else if orelse.None? then Fail("orelse is required for IfExp")
    else Ok(IfExp(test.value, body.value, orelse.value))
  }

  /** `BinOp(left, op, right)`: all three present. */
  function MkBinOp(left: Option<Expr>, op: Option<BinaryOp>, right: Option<Expr>): (r: Result<Expr, JastError>)
    ensures r.Ok? <==> left.Some? && op.Some? && right.Some?
    ensures left.None? ==> r == Fail("left is required for BinOp")
    ensures left.Some? && op.None? ==> r == Fail("op is required for BinOp")
    ensures left.Some? && op.Some? && right.None? ==> r == Fail("right is required for BinOp")
    ensures r.Ok? ==> r.value == BinOp(left.value, op.value, right.value)
    ensures r.Ok? && ExprWF(left.value) && ExprWF(right.value) ==> ExprWF(r.value)
  {
    if left.None? then Fail("left is required for BinOp")
    else if op.None? then Fail("op is required for BinOp")
    else if right.None? then Fail("right is required for BinOp")
    else Ok(BinOp(left.value, op.value, right.value))
  }

  /** `UnaryOp(op, operand)`: both present. */
  function MkUnaryOp(op: Option<UnaryOperator>, operand: Option<Expr>): (r: Result<Expr, JastError>)
    ensures r.Ok? <==> op.Some? && operand.Some?
    ensures op.None? ==> r == Fail("op is required for UnaryOp")
    ensures op.Some? && operand.None? ==> r == Fail("operand is required for UnaryOp")
    ensures r.Ok? ==> r.value == UnaryOp(op.value, operand.value)
    ensures r.Ok? && ExprWF(operand.value) ==> ExprWF(r.value)
  {
    if op.None? then Fail("op is required for UnaryOp")
    else if operand.None? then Fail("operand is required for UnaryOp")
    else Ok(UnaryOp(op.value, operand.value))
  }

  /** `Cast(annotations, type, value)`: a type bound and an operand. */
  function MkCast(annotations: seq<Modifier>, bound: Option<TypeBound>, value: Option<Expr>): (r: Result<Expr, JastError>)
    ensures r.Ok? <==> bound.Some? && value.Some?
    ensures bound.None? ==> r == Fail("jtype is required for Cast")
    ensures bound.Some? && value.None? ==> r == Fail("value is required for Cast")
    ensures r.Ok? ==> r.value == Cast(annotations, bound.value, value.value)
    ensures r.Ok? && ModifiersWF(annotations) && TypeBoundWF(bound.value) && ExprWF(value.value) ==> ExprWF(r.value)
  {
    if bound.None? then Fail("jtype is required for Cast")
    else if value.None? then Fail("value is required for Cast")
    else Ok(Cast(annotations, bound.value, value.value))
  }

  /**
   * `NewArray(type, expr_dims, dims, init)`: a type, and dimension
   * expressions or an initializer but not both; missing lists become empty.
   */
  function MkNewArray(ty: Option<JType>, exprDims: seq<Expr>, dims: seq<Dim>, init: Option<ArrayInit>): (r: Result<Expr, JastError>)
    ensures r.Ok? <==> ty.Some? && !(|exprDims| > 0 && init.Some?)
    ensures ty.None? ==> r == Fail("jtype is required for ArrayCreation")
    ensures ty.Some? && |exprDims| > 0 && init.Some? ==>
              r == Fail("expr_dims and init are mutually exclusive for ArrayCreation")
    ensures r.Ok? ==> r.value == NewArray(ty.value, exprDims, dims, init)
    ensures r.Ok? ==> NewArrayShapeOk(r.value.exprDims, r.value.init)
    ensures (r.Ok? && TypeWF(ty.value) && DimsWF(dims)
            && (forall i :: 0 <= i < |exprDims| ==> ExprWF(exprDims[i]))
            && (init.Some? ==> ArrayInitWF(init.value))) ==> ExprWF(r.value)
  {
    if ty.None? then Fail("jtype is required for ArrayCreation")
    else if |exprDims| > 0 && init.Some? then Fail("expr_dims and init are mutually exclusive for ArrayCreation")
    else Ok(NewArray(ty.value, exprDims, dims, init))
  }

  /**
   * `Reference(type, type_args, id, new)`: a target and exactly one of `new`
   * and a (non-empty) identifier.
   */
  function MkReference(target: Option<RefTarget>, typeArgs: Option<TypeArgs>, id: Option<Ident>, isNew: bool): (r: Result<Expr, JastError>)
    ensures r.Ok? <==> target.Some? && isNew != Present(id)
    ensures target.None? ==> r == Fail("type is required for Reference")
    ensures target.Some? && isNew && Present(id) ==> r == Fail("new and id are mutually exclusive for Reference")
    ensures target.Some? && !isNew && !Present(id) ==> r == Fail("new or id is required for Reference")
    ensures r.Ok? ==> r.value == Reference(target.value, typeArgs, id, isNew)
    ensures (r.Ok? && (target.value.RefExpr? ==> ExprWF(target.value.expr))
            && (target.value.RefType? ==> TypeWF(target.value.ty))
            && (typeArgs.Some? ==> TypeArgsWF(typeArgs.value))) ==> ExprWF(r.value)
  {
    if target.None? then Fail("type is required for Reference")
    else if isNew && Present(id) then Fail("new and id are mutually exclusive for Reference")
    else if !isNew && !Present(id) then Fail("new or id is required for Reference")
    else Ok(Reference(target.value, typeArgs, id, isNew))
  }

  /**
   * `switchexprule(label, cases, arrow, body)`: a `case` rule has cases, a
   * `default` rule has none.
   */
  function MkSwitchExpRule(kind: Option<SwitchExpLabel>, cases: seq<CaseItem>, arrow: bool, body: seq<Stmt>): (r: Result<SwitchExpRule, JastError>)
    ensures r.Ok? <==> kind.Some? && RuleShapeOk(kind.value, cases)
    ensures kind.None? ==> r == Fail("label is required for switchexprule")
    ensures kind == Some(ExpCase) && |cases| == 0 ==> r == Fail("cases is required for switchexprule with case")
    ensures kind == Some(ExpDefault) && |cases| > 0 ==> r == Fail("cases is not allowed for switchexprule with default")
    ensures r.Ok? ==> r.value == SwitchExpRule(kind.value, cases, arrow, body)
    ensures (r.Ok? && (forall i :: 0 <= i < |cases| ==> CaseItemWF(cases[i]))
            && (forall i :: 0 <= i < |body| ==> StmtWF(body[i]))) ==> SwitchExpRuleWF(r.value)
  {
    if kind.None? then Fail("label is required for switchexprule")
    else if |cases| == 0 && kind.value == ExpCase then Fail("cases is required for switchexprule with case")
    else if |cases| > 0 && kind.value == ExpDefault then Fail("cases is not allowed for switchexprule with default")
    else Ok(SwitchExpRule(kind.value, cases, arrow, body))
  }

  // ---------------------------------------------------------------------
  // Statements and declarations
  // ---------------------------------------------------------------------

  /** `switchgroup(labels, body)`: at least one label and one statement. */
  function MkSwitchGroup(labels: seq<SwitchLabel>, body: seq<Stmt>): (r: Result<SwitchGroup, JastError>)
    ensures r.Ok? <==> |labels| > 0 && |body| > 0
    ensures |labels| == 0 ==> r == Fail("labels is required for switchgroup")
    ensures |labels| > 0 && |body| == 0 ==> r == Fail("body is required for switchgroup")
    ensures r.Ok? ==> r.value == SwitchGroup(labels, body)
    ensures (r.Ok? && (forall i :: 0 <= i < |labels| ==> labels[i].Case? ==> ExprWF(labels[i].guard))
            && (forall i :: 0 <= i < |body| ==> StmtWF(body[i]))) ==> SwitchGroupWF(r.value)
  {
    if |labels| == 0 then Fail("labels is required for switchgroup")
    else if |body| == 0 then Fail("body is required for switchgroup")
    else Ok(SwitchGroup(labels, body))
  }

  /** `catch(modifiers, excs, id, body)`: exception types, a name and a body. */
  function MkCatch(modifiers: seq<Modifier>, excs: seq<QName>, id: Option<Ident>, body: Option<Stmt>): (r: Result<Catch, JastError>)
    ensures r.Ok? <==> |excs| > 0 && id.Some? && body.Some?
    ensures |excs| == 0 ==> r == Fail("excs is required for catch")
    ensures |excs| > 0 && id.None? ==> r == Fail("label is required for catch")
    ensures |excs| > 0 && id.Some? && body.None? ==> r == Fail("body is required for catch")
    ensures r.Ok? ==> r.value == Catch(modifiers, excs, id.value, body.value)
    ensures (r.Ok? && ModifiersWF(modifiers) && (forall i :: 0 <= i < |excs| ==> QNameWF(excs[i]))
            && StmtWF(body.value)) ==> CatchWF(r.value)
  {
    if |excs| == 0 then Fail("excs is required for catch")
    else if id.None? then Fail("label is required for catch")
    else if body.None? then Fail("body is required for catch")
    else Ok(Catch(modifiers, excs, id.value, body.value))
  }

  /** `Try(body, catches, final)`: a body and at least one catch clause or a finally block. */
  function MkTry(body: Option<Stmt>, catches: seq<Catch>, final: Option<Stmt>): (r: Result<Stmt, JastError>)
    ensures r.Ok? <==> body.Some? && (|catches| > 0 || final.Some?)
    ensures body.None? ==> r == Fail("body is required for Try")
    ensures body.Some? && |catches| == 0 && final.None? ==> r == Fail("catches or final is required for Try")
    ensures r.Ok? ==> r.value == Try(body.value, catches, final)
    ensures (r.Ok? && StmtWF(body.value) && (forall i :: 0 <= i < |catches| ==> CatchWF(catches[i]))
            && (final.Some? ==> StmtWF(final.value))) ==> StmtWF(r.value)
  {
    if body.None? then Fail("body is required for Try")
    else if |catches| == 0 && final.None? then Fail("catches or final is required for Try")
    else Ok(Try(body.value, catches, final))
  }

  /** `TryWithResources(resources, body, catches, final)`: resources and a body; no catch or finally needed. */
  function MkTryWithResources(resources: seq<Resource>, body: Option<Stmt>, catches: seq<Catch>, final: Option<Stmt>): (r: Result<Stmt, JastError>)
    ensures r.Ok? <==> |resources| > 0 && body.Some?
    ensures |resources| == 0 ==> r == Fail("resources is required for TryWithResources")
    ensures |resources| > 0 && body.None? ==> r == Fail("body is required for TryWithResources")
    ensures r.Ok? ==> r.value == TryWithResources(resources, body.value, catches, final)
    ensures (r.Ok? && (forall i :: 0 <= i < |resources| ==> ResourceWF(resources[i])) && StmtWF(body.value)
            && (forall i :: 0 <= i < |catches| ==> CatchWF(catches[i]))
            && (final.Some? ==> StmtWF(final.value))) ==> StmtWF(r.value)
  {
    if |resources| == 0 then Fail("resources is required for TryWithResources")
    else if body.None? then Fail("body is required for TryWithResources")
    else Ok(TryWithResources(resources, body.value, catches, final))
  }

  /** `LocalVariable(modifiers, type, declarators)`: a type and at least one declarator. */
  function MkLocalVariable(modifiers: seq<Modifier>, ty: Option<JType>, declarators: seq<Declarator>): (r: Result<Stmt, JastError>)
    ensures r.Ok? <==> ty.Some? && |declarators| > 0
    ensures ty.None? ==> r == Fail("type is required for LocalVariable")
    ensures ty.Some? && |declarators| == 0 ==> r == Fail("declarators is required for LocalVariable")
    ensures r.Ok? ==> r.value == LocalVariable(modifiers, ty.value, declarators)
    ensures (r.Ok? && ModifiersWF(modifiers) && TypeWF(ty.value)
            && (forall i :: 0 <= i < |declarators| ==> DeclaratorWF(declarators[i]))) ==> StmtWF(r.value)
  {
    if ty.None? then Fail("type is required for LocalVariable")
    else if |declarators| == 0 then Fail("declarators is required for LocalVariable")
    else Ok(LocalVariable(modifiers, ty.value, declarators))
  }

  /** `Field(modifiers, type, declarators)`: a type and at least one declarator. */
  function MkField(modifiers: seq<Modifier>, ty: Option<JType>, declarators: seq<Declarator>): (r: Result<Declaration, JastError>)
    ensures r.Ok? <==> ty.Some? && |declarators| > 0
    ensures ty.None? ==> r == Fail("type is required for Field")
    ensures ty.Some? && |declarators| == 0 ==> r == Fail("declarators is required for Field")
    ensures r.Ok? ==> r.value == Field(modifiers, ty.value, declarators)
    ensures (r.Ok? && ModifiersWF(modifiers) && TypeWF(ty.value)
            && (forall i :: 0 <= i < |declarators| ==> DeclaratorWF(declarators[i]))) ==> DeclarationWF(r.value)
  {
    if ty.None? then Fail("type is required for Field")
    else if |declarators| == 0 then Fail("declarators is required for Field")
    else Ok(Field(modifiers, ty.value, declarators))
  }

  /** `Import(static, name, on_demand)`: a qualified name. */
  function MkImport(isStatic: bool, name: Option<QName>, onDemand: bool): (r: Result<Declaration, JastError>)
    ensures r.Ok? <==> name.Some?
    ensures r.Ok? ==> r.value == Import(isStatic, name.value, onDemand)
    ensures r.Ok? && QNameWF(name.value) ==> DeclarationWF(r.value)
    ensures r.Err? ==> r.error.message == "qname is required for Import"
  {
    if name.None? then Fail("qname is required for Import")
    else Ok(Import(isStatic, name.value, onDemand))
  }

  /** `Method(...)`: a return type and a name; everything else is optional. */
  function MkMethod(modifiers: seq<Modifier>, typeParams: Option<TypeParams>, annotations: seq<Modifier>,
                    returnType: Option<JType>, id: Option<Ident>, parameters: Option<Params>, dims: seq<Dim>,
                    throws: seq<QName>, body: Option<Stmt>): (r: Result<Declaration, JastError>)
    ensures r.Ok? <==> returnType.Some? && id.Some?
    ensures returnType.None? ==> r == Fail("return_type is required for Method")
    ensures returnType.Some? && id.None? ==> r == Fail("qname is required for Method")
    ensures r.Ok? ==> r.value == Method(modifiers, typeParams, annotations, returnType.value, id.value,
                                        parameters, dims, throws, body)
    ensures (r.Ok? && ModifiersWF(modifiers) && (typeParams.Some? ==> TypeParamsWF(typeParams.value))
            && ModifiersWF(annotations) && TypeWF(returnType.value)
            && (parameters.Some? ==> ParamsWF(parameters.value)) && DimsWF(dims)
            && (forall i :: 0 <= i < |throws| ==> QNameWF(throws[i]))
            && (body.Some? ==> StmtWF(body.value))) ==> DeclarationWF(r.value)
  {
    if returnType.None? then Fail("return_type is required for Method")
    else if id.None? then Fail("qname is required for Method")
    else Ok(Method(modifiers, typeParams, annotations, returnType.value, id.value, parameters, dims, throws, body))
  }
}

=== FILE: jast_iter.dfy ===
/**
 * `__iter__` of every modelled node class of `src/jast/_jast.py`: the
 * `(field, value)` pairs a node exposes, as a generic `Tree.Node` whose kind
 * is the Python class name.
 *
 * Each class's `__iter__` is a fixed list of candidate fields in declaration
 * order; a required field is always yielded, and a field guarded by
 * `if self.x:` only when the attribute is truthy (a present node, a
 * non-empty list or a non-empty identifier). Plain flags (`extends`,
 * `static`, `arrow`, `new`, ...) are never yielded, and neither are a type
 * bound's annotations.
 */
module JastIter {
  import opened Wrappers
  import opened Tree
  import opened Jast

  /** One `yield` of an `__iter__`: the field name and, when it is yielded, its value. */
  datatype Candidate = Candidate(name: string, value: Option<Child>)

  /** `yield name, value` unconditionally. */
  function Req(name: string, c: Child): Candidate
  {
    Candidate(name, Some(c))
  }

  /** `if <present>: yield name, value`. */
  function Opt(name: string, present: bool, c: Child): Candidate
  {
    Candidate(name, if present then Some(c) else None)
  }

  function CandidateNames(cs: seq<Candidate>): (r: seq<string>)
    ensures |r| == |cs|
    ensures forall i :: 0 <= i < |cs| ==> r[i] == cs[i].name
  {
    seq(|cs|, i requires 0 <= i < |cs| => cs[i].name)
  }

  /** Running the `__iter__` body: the yielded fields, in order. */
  function Emit(cs: seq<Candidate>): seq<Slot>
  {
    if |cs| == 0 then []
    else if cs[0].value.Some? then [Slot(cs[0].name, cs[0].value.value)] + Emit(cs[1..])
    else Emit(cs[1..])
  }

  /**
   * Exactly the candidates with a value are yielded, each with that value,
   * and no field is reordered.
   */
  lemma {:induction false} EmitYields(cs: seq<Candidate>)
    ensures IsSubsequence(Names(Emit(cs)), CandidateNames(cs))
    ensures forall i :: 0 <= i < |cs| && cs[i].value.Some? ==> Slot(cs[i].name, cs[i].value.value) in Emit(cs)
    ensures forall s :: s in Emit(cs) ==> exists i :: 0 <= i < |cs| && cs[i].value == Some(s.child) && cs[i].name == s.name
    decreases |cs|
  {
    if |cs| > 0 {
      var rest := Emit(cs[1..]);
      EmitYields(cs[1..]);
      assert CandidateNames(cs)[1..] == CandidateNames(cs[1..]);
      forall s | s in rest
        ensures exists i :: 0 <= i < |cs| && cs[i].value == Some(s.child) && cs[i].name == s.name
      {
        var j :| 0 <= j < |cs[1..]| && cs[1..][j].value == Some(s.child) && cs[1..][j].name == s.name;
        assert cs[j + 1] == cs[1..][j];
      }
      forall i | 1 <= i < |cs| && cs[i].value.Some?
        ensures Slot(cs[i].name, cs[i].value.value) in rest
      {
        assert cs[1..][i - 1] == cs[i];
      }
      if cs[0].value.Some? {
        var r := [Slot(cs[0].name, cs[0].value.value)] + rest;
        assert Names(r)[1..] == Names(rest);
      } else {
        SubsequenceOfTail(Names(rest), CandidateNames(cs));
      }
    }
  }

  function IdNode(id: Ident): Node
  {
    Leaf("identifier", id)
  }

  function IdNodes(ids: seq<Ident>): (r: seq<Node>)
    ensures |r| == |ids|
  {
    seq(|ids|, i requires 0 <= i < |ids| => IdNode(ids[i]))
  }

  /** An optional identifier is yielded only when truthy (present and non-empty). */
  function OptId(name: string, id: Option<Ident>): Candidate
  {
    Candidate(name, if Present(id) then Some(One(IdNode(id.value))) else None)
  }

  function QNameNode(q: QName): Node
  {
    Node("qname", "", Emit([Req("identifiers", Many(IdNodes(q.identifiers)))]))
  }

  function QNameNodes(qs: seq<QName>): (r: seq<Node>)
    ensures |r| == |qs|
  {
    seq(|qs|, i requires 0 <= i < |qs| => QNameNode(qs[i]))
  }

  function ModifierClass(m: Modifier): string
  {
    match m
    case Abstract => "Abstract"
    case Default => "Default"
    case Final => "Final"
    case Native => "Native"
    case NonSealed => "NonSealed"
    case Private => "Private"
    case Protected => "Protected"
    case Public => "Public"
    case Sealed => "Sealed"
    case Static => "Static"
    case Strictfp => "Strictfp"
    case Synchronized => "Synchronized"
    case Transient => "Transient"
    case Transitive => "Transitive"
    case Volatile => "Volatile"
    case Annotation(_) => "Annotation"
  }

  function ModifierNode(m: Modifier): Node
  {
    match m
    case Annotation(name) => Node("Annotation", "", Emit([Req("name", One(QNameNode(name)))]))
    case _ => Leaf(ModifierClass(m), "")
  }

  /** A list field guarded by `if self.<name>:`, holding modifiers or annotations. */
  function OptModifiers(name: string, ms: seq<Modifier>): Candidate
  {
    Opt(name, |ms| > 0, Many(seq(|ms|, i requires 0 <= i < |ms| => ModifierNode(ms[i]))))
  }

  function PrimitiveClass(k: PrimitiveKind): string
  {
    match k
    case Boolean => "Boolean"
    case Byte => "Byte"
    case Short => "Short"
    case Int => "Int"
    case Long => "Long"
    case Char => "Char"
    case Float => "Float"
    case Double => "Double"
  }

  function TypeNode(t: JType): Node
  {
    match t
    case Void => Leaf("Void", "")
    case Var => Leaf("Var", "")
    case Primitive(k, anns) => Node(PrimitiveClass(k), "", Emit([OptModifiers("annotations", anns)]))
    case Wildcard(anns, bound) =>
      Node("Wildcard", "", Emit([
        OptModifiers("annotations", anns),
        Candidate("bound", if bound.Some? then Some(One(WildcardBoundNode(bound.value))) else None)]))
    case Coit(anns, id, targs) =>
      Node("Coit", "", Emit([
        OptModifiers("annotations", anns),
        Req("id", One(IdNode(id))),
        Candidate("type_args", if targs.Some? then Some(One(TypeArgsNode(targs.value))) else None)]))
    case ClassType(anns, coits) =>
      Node("ClassType", "", Emit([
        OptModifiers("annotations", anns),
        Req("coits", Many(seq(|coits|, i requires 0 <= i < |coits| => TypeNode(coits[i]))))]))
    case ArrayType(anns, elem, dims) =>
      Node("ArrayType", "", Emit([
        OptModifiers("annotations", anns),
        Req("type", One(TypeNode(elem))),
        Opt("dims", |dims| > 0, Many(DimNodes(dims)))]))
  }

  /** `wildcardbound` yields only its type; the direction flags are not fields of the iteration. */
  function WildcardBoundNode(b: WildcardBound): Node
  {
    Node("wildcardbound", "", Emit([Req("type", One(TypeNode(b.ty)))]))
  }

  /** `typeargs` always yields its (possibly empty) list of types. */
  function TypeArgsNode(a: TypeArgs): Node
  {
    Node("typeargs", "", Emit([Req("types", Many(TypeNodes(a.types)))]))
  }

  function TypeNodes(ts: seq<JType>): (r: seq<Node>)
    ensures |r| == |ts|
  {
    seq(|ts|, i requires 0 <= i < |ts| => TypeNode(ts[i]))
  }

  function DimNodes(ds: seq<Dim>): (r: seq<Node>)
    ensures |r| == |ds|
  {
    seq(|ds|, i requires 0 <= i < |ds| => Node("dim", "", Emit([OptModifiers("annotations", ds[i].annotations)])))
  }

  /** `typebound` yields only its types; its annotations are not a field of the iteration. */
  function TypeBoundNode(b: TypeBound): Node
  {
    Node("typebound", "", Emit([Req("types", Many(TypeNodes(b.types)))]))
  }

  function TypeParamNode(p: TypeParam): Node
  {
    Node("typeparam", "", Emit([
      OptModifiers("annotations", p.annotations),
      Req("id", One(IdNode(p.id))),
      Candidate("bound", if p.bound.Some? then Some(One(TypeBoundNode(p.bound.value))) else None)]))
  }

  function TypeParamsNode(ps: TypeParams): Node
  {
    Node("typeparams", "", Emit([
      Req("parameters", Many(seq(|ps.parameters|, i requires 0 <= i < |ps.parameters| => TypeParamNode(ps.parameters[i]))))]))
  }

  function VarDeclIdNode(v: VarDeclId): Node
  {
    Node("variabledeclaratorid", "", Emit([Req("id", One(IdNode(v.id))), Opt("dims", |v.dims| > 0, Many(DimNodes(v.dims)))]))
  }

  function PatternNode(p: Pattern): Node
  {
    Node("pattern", "", Emit([
      OptModifiers("modifiers", p.modifiers),
      Req("type", One(TypeNode(p.ty))),
      OptModifiers("annotations", p.annotations),
      Req("id", One(IdNode(p.id)))]))
  }

  function BinaryOpClass(op: BinaryOp): string
  {
    match op
    case Or => "Or"
    case And => "And"
    case BitOr => "BitOr"
    case BitXor => "BitXor"
    case BitAnd => "BitAnd"
    case Eq => "Eq"
    case NotEq => "NotEq"
    case Lt => "Lt"
    case LtE => "LtE"
    case Gt => "Gt"
    case GtE => "GtE"
    case LShift => "LShift"
    case RShift => "RShift"
    case URShift => "URShift"
    case Add => "Add"
    case Sub => "Sub"
    case Mult => "Mult"
    case Div => "Div"
    case Mod => "Mod"
  }

  function UnaryOpClass(op: UnaryOperator): string
  {
    match op
    case PreInc => "PreInc"
    case PreDec => "PreDec"
    case UAdd => "UAdd"
    case USub => "USub"
    case Not => "Not"
    case Invert => "Invert"
  }

  function PostOpClass(op: PostOperator): string
  {
    match op
    case PostInc => "PostInc"
    case PostDec => "PostDec"
  }

  function LiteralClass(l: Literal): string
  {
    match l
    case IntLiteral(_, _) => "IntLiteral"
    case BoolLiteral(_) => "BoolLiteral"
    case CharLiteral(_) => "CharLiteral"
    case StringLiteral(_) => "StringLiteral"
    case NullLiteral => "NullLiteral"
  }

  function ReceiverNode(r: Receiver): Node
  {
    Node("receiver", "", Emit([
      Req("type", One(TypeNode(r.ty))),
      Opt("identifiers", |r.identifiers| > 0, Many(IdNodes(r.identifiers)))]))
  }

  function ParamNode(p: Param): Node
  {
    match p
    case Param(mods, ty, id) =>
      Node("param", "", Emit([OptModifiers("modifiers", mods), Req("type", One(TypeNode(ty))), Req("id", One(VarDeclIdNode(id)))]))
    case Arity(mods, ty, anns, id) =>
      Node("arity", "", Emit([
        OptModifiers("modifiers", mods),
        Req("type", One(TypeNode(ty))),
        OptModifiers("annotations", anns),
        Req("id", One(VarDeclIdNode(id)))]))
  }

  function ParamsNode(ps: Params): Node
  {
    Node("params", "", Emit([
      Candidate("receiver_param", if ps.receiver.Some? then Some(One(ReceiverNode(ps.receiver.value))) else None),
      Opt("parameters", |ps.parameters| > 0, Many(seq(|ps.parameters|, i requires 0 <= i < |ps.parameters| => ParamNode(ps.parameters[i]))))]))
  }

  /** `Lambda.args` as yielded: one identifier, a list of identifiers, or `params`. */
  function LambdaArgsChild(a: LambdaArgs): Child
  {
    match a
    case SingleArg(id) => One(IdNode(id))
    case ArgList(ids) => Many(IdNodes(ids))
    case FormalParams(ps) => One(ParamsNode(ps))
  }

  /** The Python class of an expression node. */
  function ExprClass(e: Expr): string
  {
    match e
    case Lambda(_, _) => "Lambda"
    case Assign(_, _, _) => "Assign"
    case IfExp(_, _, _) => "IfExp"
    case BinOp(_, _, _) => "BinOp"
    case InstanceOf(_, _) => "InstanceOf"
    case UnaryOp(_, _) => "UnaryOp"
    case PostOp(_, _) => "PostOp"
    case Cast(_, _, _) => "Cast"
    case NewObject(_, _, _) => "NewObject"
    case NewArray(_, _, _, _) => "NewArray"
    case This => "This"
    case Super(_, _) => "Super"
    case Constant(_) => "Constant"
    case Name(_) => "Name"
    case ClassExpr(_) => "ClassExpr"
    case ExplicitGenericInvocation(_, _) => "ExplicitGenericInvocation"
    case Subscript(_, _) => "Subscript"
    case Member(_, _) => "Member"
    case Call(_, _) => "Call"
    case Reference(_, _, _, _) => "Reference"
    case Match(_, _) => "Match"
  }

  /** The candidate fields of an expression's `__iter__`, in the order it yields them. */
  function ExprCandidates(e: Expr): seq<Candidate>
    decreases e, 0
  {
    match e
    case Lambda(args, body) => [Req("args", LambdaArgsChild(args)), Req("body", One(ExprNode(body)))]
    case Assign(target, op, value) =>
      [Req("target", One(ExprNode(target))),
       Candidate("op", if op.Some? then Some(One(Leaf(BinaryOpClass(op.value), ""))) else None),
       Req("value", One(ExprNode(value)))]
    case IfExp(test, body, orelse) =>
      [Req("test", One(ExprNode(test))), Req("body", One(ExprNode(body))), Req("orelse", One(ExprNode(orelse)))]
    case BinOp(left, op, right) =>
      [Req("left", One(ExprNode(left))), Req("op", One(Leaf(BinaryOpClass(op), ""))), Req("right", One(ExprNode(right)))]
    case InstanceOf(value, target) =>
      [Req("value", One(ExprNode(value))),
       Req("type", One(match target
                       case TypeTarget(ty) => TypeNode(ty)
                       case PatternTarget(p) => PatternNode(p)))]
    case UnaryOp(op, operand) => [Req("op", One(Leaf(UnaryOpClass(op), ""))), Req("operand", One(ExprNode(operand)))]
    case PostOp(operand, op) => [Req("operand", One(ExprNode(operand))), Req("op", One(Leaf(PostOpClass(op), "")))]
    case Cast(anns, bound, value) =>
      [OptModifiers("annotations", anns), Req("type", One(TypeBoundNode(bound))), Req("value", One(ExprNode(value)))]
    case NewObject(targs, ty, args) =>
      [Candidate("type_args", if targs.Some? then Some(One(TypeArgsNode(targs.value))) else None),
       Req("type", One(TypeNode(ty))),
       Opt("args", |args| > 0, Many(ExprNodes(args)))]
    case NewArray(ty, exprDims, dims, init) =>
      [Req("type", One(TypeNode(ty))),
       Opt("expr_dims", |exprDims| > 0, Many(ExprNodes(exprDims))),
       Opt("dims", |dims| > 0, Many(DimNodes(dims))),
       Candidate("init", if init.Some? then Some(One(ArrayInitNode(init.value))) else None)]
    case This => []
    case Super(targs, id) =>
      [Candidate("type_args", if targs.Some? then Some(One(TypeArgsNode(targs.value))) else None), OptId("id", id)]
    case Constant(lit) => [Req("value", One(Leaf(LiteralClass(lit), "")))]
    case Name(id) => [Req("id", One(IdNode(id)))]
    case ClassExpr(ty) => [Req("type", One(TypeNode(ty)))]
    case ExplicitGenericInvocation(targs, value) =>
      [Req("type_args", One(TypeArgsNode(targs))), Req("value", One(ExprNode(value)))]
    case Subscript(value, index) => [Req("value", One(ExprNode(value))), Req("index", One(ExprNode(index)))]
    case Member(value, member) => [Req("value", One(ExprNode(value))), Req("member", One(ExprNode(member)))]
    case Call(func, args) =>
      [Req("func", One(ExprNode(func))),
       Opt("args", |args| > 0, Many(ExprNodes(args)))]
    case Reference(target, targs, id, _) =>
      [Req("type", One(match target
                       case RefExpr(x) => ExprNode(x)
                       case RefType(ty) => TypeNode(ty))),
       Candidate("type_args", if targs.Some? then Some(One(TypeArgsNode(targs.value))) else None),
       OptId("id", id)]
    case Match(ty, id) => [Req("type", One(TypeNode(ty))), Req("id", One(IdNode(id)))]
  }

  function ExprNode(e: Expr): Node
    decreases e, 1
  {
    Node(ExprClass(e), "", Emit(ExprCandidates(e)))
  }

  function ExprNodes(xs: seq<Expr>): (r: seq<Node>)
    ensures |r| == |xs|
    decreases xs, 2
  {
    seq(|xs|, i requires 0 <= i < |xs| => ExprNode(xs[i]))
  }

  function ArrayInitNode(a: ArrayInit): Node
  {
    Node("arrayinit", "", Emit([Req("values", Many(seq(|a.values|, i requires 0 <= i < |a.values| => InitValueNode(a.values[i]))))]))
  }

  function InitValueNode(v: InitValue): Node
  {
    match v
    case InitExpr(x) => ExprNode(x)
    case InitArray(a) => ArrayInitNode(a)
  }

  function GuardedPatternNode(g: GuardedPattern): Node
  {
    Node("guardedpattern", "", Emit([
      Req("value", One(PatternNode(g.value))),
      Opt("conditions", |g.conditions| > 0, Many(ExprNodes(g.conditions)))]))
  }

  function DeclaratorNode(d: Declarator): Node
  {
    Node("declarator", "", Emit([
      Req("id", One(VarDeclIdNode(d.id))),
      Candidate("init", if d.init.Some? then Some(One(InitValueNode(d.init.value))) else None)]))
  }

  function DeclaratorNodes(ds: seq<Declarator>): (r: seq<Node>)
    ensures |r| == |ds|
  {
    seq(|ds|, i requires 0 <= i < |ds| => DeclaratorNode(ds[i]))
  }

  /** The Python class of a statement node. */
  function StmtClass(s: Stmt): string
  {
    match s
    case Empty => "Empty"
    case Block(_) => "Block"
    case Expression(_) => "Expression"
    case LocalVariable(_, _, _) => "LocalVariable"
    case If(_, _, _) => "If"
    case While(_, _) => "While"
    case Return(_) => "Return"
    case Throw(_) => "Throw"
    case Yield(_) => "Yield"
    case Break(_) => "Break"
    case Continue(_) => "Continue"
    case Try(_, _, _) => "Try"
    case TryWithResources(_, _, _, _) => "TryWithResources"
  }

  /** The candidate fields of a statement's `__iter__`, in the order it yields them. */
  function StmtCandidates(s: Stmt): seq<Candidate>
    decreases s, 0
  {
    match s
    case Empty => []
    case Block(stmts) => [Req("body", Many(StmtNodes(stmts)))]
    case Expression(value) => [Req("value", One(ExprNode(value)))]
    case LocalVariable(mods, ty, decls) =>
      [OptModifiers("modifiers", mods), Req("type", One(TypeNode(ty))), Req("declarators", Many(DeclaratorNodes(decls)))]
    case If(test, thenStmt, elseStmt) =>
      [Req("test", One(ExprNode(test))),
       Req("body", One(StmtNode(thenStmt))),
       Candidate("orelse", if elseStmt.Some? then Some(One(StmtNode(elseStmt.value))) else None)]
    case While(test, body) => [Req("test", One(ExprNode(test))), Req("body", One(StmtNode(body)))]
    case Return(result) => [Candidate("value", if result.Some? then Some(One(ExprNode(result.value))) else None)]
    case Throw(exc) => [Req("exc", One(ExprNode(exc)))]
    case Yield(value) => [Req("value", One(ExprNode(value)))]
    case Break(jump) => [OptId("label", jump)]
    case Continue(jump) => [OptId("label", jump)]
    case Try(body, catches, final) =>
      [Req("body", One(StmtNode(body))),
       Opt("catches", |catches| > 0, Many(seq(|catches|, i requires 0 <= i < |catches| => CatchNode(catches[i])))),
       Candidate("final", if final.Some? then Some(One(StmtNode(final.value))) else None)]
    case TryWithResources(resources, body, catches, final) =>
      [Req("resources", Many(seq(|resources|, i requires 0 <= i < |resources| => ResourceNode(resources[i])))),
       Req("body", One(StmtNode(body))),
       Opt("catches", |catches| > 0, Many(seq(|catches|, i requires 0 <= i < |catches| => CatchNode(catches[i])))),
       Candidate("final", if final.Some? then Some(One(StmtNode(final.value))) else None)]
  }

  function StmtNode(s: Stmt): Node
    decreases s, 1
  {
    Node(StmtClass(s), "", Emit(StmtCandidates(s)))
  }

  function StmtNodes(ss: seq<Stmt>): (r: seq<Node>)
    ensures |r| == |ss|
    decreases ss, 2
  {
    seq(|ss|, i requires 0 <= i < |ss| => StmtNode(ss[i]))
  }

  function CatchNode(c: Catch): Node
  {
    Node("catch", "", Emit([
      OptModifiers("modifiers", c.modifiers),
      Req("excs", Many(QNameNodes(c.excs))),
      Req("id", One(IdNode(c.id))),
      Req("body", One(StmtNode(c.body)))]))
  }

  function ResourceNode(r: Resource): Node
  {
    match r
    case Resource(mods, ty, variable) =>
      Node("resource", "", Emit([
        OptModifiers("modifiers", mods),
        Req("type", One(TypeNode(ty))),
        Req("variable", One(DeclaratorNode(variable)))]))
    case ResourceName(name) => QNameNode(name)
  }

  function CaseItemNode(c: CaseItem): Node
  {
    match c
    case CaseExpr(x) => ExprNode(x)
    case CaseGuarded(g) => GuardedPatternNode(g)
  }

  function SwitchExpRuleNode(r: SwitchExpRule): Node
  {
    Node("switchexprule", "", Emit([
      Req("label", One(Leaf(if r.ruleLabel == ExpCase then "ExpCase" else "ExpDefault", ""))),
      Opt("cases", |r.cases| > 0, Many(seq(|r.cases|, i requires 0 <= i < |r.cases| => CaseItemNode(r.cases[i])))),
      Opt("body", |r.body| > 0, Many(StmtNodes(r.body)))]))
  }

  function SwitchLabelNode(l: SwitchLabel): Node
  {
    match l
    case Case(guard) => Node("Case", "", Emit([Req("guard", One(ExprNode(guard)))]))
    case DefaultCase => Leaf("DefaultCase", "")
  }

  function SwitchGroupNode(g: SwitchGroup): Node
  {
    Node("switchgroup", "", Emit([
      Req("labels", Many(seq(|g.labels|, i requires 0 <= i < |g.labels| => SwitchLabelNode(g.labels[i])))),
      Req("body", Many(StmtNodes(g.body)))]))
  }

  /** The candidate fields of a declaration's `__iter__`, in the order it yields them. */
  function DeclarationCandidates(d: Declaration): seq<Candidate>
  {
    match d
    case Import(_, name, _) => [Req("name", One(QNameNode(name)))]
    case Field(mods, ty, decls) =>
      [OptModifiers("modifiers", mods), Req("type", One(TypeNode(ty))), Req("declarators", Many(DeclaratorNodes(decls)))]
    case Method(mods, tps, anns, rt, id, ps, dims, throws, body) =>
      [OptModifiers("modifiers", mods),
       Candidate("type_params", if tps.Some? then Some(One(TypeParamsNode(tps.value))) else None),
       OptModifiers("annotations", anns),
       Req("return_type", One(TypeNode(rt))),
       Req("id", One(IdNode(id))),
       Candidate("parameters", if ps.Some? then Some(One(ParamsNode(ps.value))) else None),
       Opt("dims", |dims| > 0, Many(DimNodes(dims))),
       Opt("throws", |throws| > 0, Many(QNameNodes(throws))),
       Candidate("body", if body.Some? then Some(One(StmtNode(body.value))) else None)]
  }

  function DeclarationClass(d: Declaration): string
  {
    match d
    case Import(_, _, _) => "Import"
    case Field(_, _, _) => "Field"
    case Method(_, _, _, _, _, _, _, _, _) => "Method"
  }

  function DeclarationNode(d: Declaration): Node
  {
    Node(DeclarationClass(d), "", Emit(DeclarationCandidates(d)))
  }
}

=== FILE: jast_iter_props.dfy ===
/**
 * What `__iter__` promises, stated against an independent table of each
 * class's fields in declaration order and a per-field truthiness rule: the
 * yielded names are exactly the declared fields whose attribute is truthy,
 * and they come out in declaration order.
 */
module JastIterProps {
  import opened Wrappers
  import opened Tree
  import opened Jast
  import opened JastIter

  /** The fields the `__iter__` of an expression's class may yield, in declaration order. */
  function ExprFields(e: Expr): seq<string>
  {
    match e
    case Lambda(_, _) => ["args", "body"]
    case Assign(_, _, _) => ["target", "op", "value"]
    case IfExp(_, _, _) => ["test", "body", "orelse"]
    case BinOp(_, _, _) => ["left", "op", "right"]
    case InstanceOf(_, _) => ["value", "type"]
    case UnaryOp(_, _) => ["op", "operand"]
    case PostOp(_, _) => ["operand", "op"]
    case Cast(_, _, _) => ["annotations", "type", "value"]
    case NewObject(_, _, _) => ["type_args", "type", "args"]
    case NewArray(_, _, _, _) => ["type", "expr_dims", "dims", "init"]
    case Super(_, _) => ["type_args", "id"]
    case Constant(_) => ["value"]
    case Name(_) => ["id"]
    case ClassExpr(_) => ["type"]
    case ExplicitGenericInvocation(_, _) => ["type_args", "value"]
    case Subscript(_, _) => ["value", "index"]
    case Member(_, _) => ["value", "member"]
    case Call(_, _) => ["func", "args"]
    case Reference(_, _, _, _) => ["type", "type_args", "id"]
    case Match(_, _) => ["type", "id"]
    case This => []
  }

  /**
   * Whether the attribute behind field `f` is truthy in Python: an absent
   * node is `None`, an empty list or identifier is falsy, and every node
   * object is truthy.
   */
  predicate ExprAttrTruthy(e: Expr, f: string)
  {
    match e
    case Assign(_, op, _) => f == "op" ==> op.Some?
    case Cast(anns, _, _) => f == "annotations" ==> |anns| > 0
    case NewObject(targs, _, args) => (f == "type_args" ==> targs.Some?) && (f == "args" ==> |args| > 0)
    case NewArray(_, exprDims, dims, init) =>
      (f == "expr_dims" ==> |exprDims| > 0) && (f == "dims" ==> |dims| > 0) && (f == "init" ==> init.Some?)
    case Super(targs, id) => (f == "type_args" ==> targs.Some?) && (f == "id" ==> Present(id))
    case Call(_, args) => f == "args" ==> |args| > 0
    case Reference(_, targs, id, _) => (f == "type_args" ==> targs.Some?) && (f == "id" ==> Present(id))
    case _ => true
  }

  function StmtFields(s: Stmt): seq<string>
  {
    match s
    case Block(_) => ["body"]
    case Expression(_) => ["value"]
    case LocalVariable(_, _, _) => ["modifiers", "type", "declarators"]
    case If(_, _, _) => ["test", "body", "orelse"]
    case While(_, _) => ["test", "body"]
    case Return(_) => ["value"]
    case Throw(_) => ["exc"]
    case Yield(_) => ["value"]
    case Break(_) => ["label"]
    case Continue(_) => ["label"]
    case Try(_, _, _) => ["body", "catches", "final"]
    case TryWithResources(_, _, _, _) => ["resources", "body", "catches", "final"]
    case Empty => []
  }

  predicate StmtAttrTruthy(s: Stmt, f: string)
  {
    match s
    case LocalVariable(mods, _, _) => f == "modifiers" ==> |mods| > 0
    case If(_, _, elseStmt) => f == "orelse" ==> elseStmt.Some?
    case Return(result) => f == "value" ==> result.Some?
    case Break(jump) => f == "label" ==> Present(jump)
    case Continue(jump) => f == "label" ==> Present(jump)
    case Try(_, catches, final) => (f == "catches" ==> |catches| > 0) && (f == "final" ==> final.Some?)
    case TryWithResources(_, _, catches, final) => (f == "catches" ==> |catches| > 0) && (f == "final" ==> final.Some?)
    case _ => true
  }

  function DeclarationFields(d: Declaration): seq<string>
  {
    match d
    case Import(_, _, _) => ["name"]
    case Field(_, _, _) => ["modifiers", "type", "declarators"]
    case Method(_, _, _, _, _, _, _, _, _) => ["modifiers", "type_params", "annotations", "return_type", "id", "parameters", "dims", "throws", "body"]
  }

  predicate DeclarationAttrTruthy(d: Declaration, f: string)
  {
    match d
    case Import(_, _, _) => true
    case Field(mods, _, _) => f == "modifiers" ==> |mods| > 0
    case Method(mods, tps, anns, _, _, ps, dims, throws, body) =>
      && (f == "modifiers" ==> |mods| > 0)
      && (f == "type_params" ==> tps.Some?)
      && (f == "annotations" ==> |anns| > 0)
      && (f == "parameters" ==> ps.Some?)
      && (f == "dims" ==> |dims| > 0)
      && (f == "throws" ==> |throws| > 0)
      && (f == "body" ==> body.Some?)
  }

  /** The names `Emit` produces are those of the candidates that carry a value. */
  lemma {:induction false} EmitNames(cs: seq<Candidate>)
    ensures forall f :: f in Names(Emit(cs)) <==> exists i :: 0 <= i < |cs| && cs[i].name == f && cs[i].value.Some?
  {
    var r := Emit(cs);
    EmitYields(cs);
    forall f | f in Names(r)
      ensures exists i :: 0 <= i < |cs| && cs[i].name == f && cs[i].value.Some?
    {
      var k :| 0 <= k < |r| && Names(r)[k] == f;
      assert r[k] in r;
    }
    forall f | exists i :: 0 <= i < |cs| && cs[i].name == f && cs[i].value.Some?
      ensures f in Names(r)
    {
      var i :| 0 <= i < |cs| && cs[i].name == f && cs[i].value.Some?;
      var s := Slot(cs[i].name, cs[i].value.value);
      var k :| 0 <= k < |r| && r[k] == s;
      assert Names(r)[k] == f;
    }
  }

  /**
   * When the candidate list follows a field table and each candidate
   * carries a value exactly when its attribute is truthy, `Emit` produces
   * the truthy fields of the table, in table order.
   */
  lemma {:induction false} EmitFollowsTable(cs: seq<Candidate>, fields: seq<string>, truthy: string -> bool)
    requires CandidateNames(cs) == fields
    requires forall i :: 0 <= i < |cs| ==> (cs[i].value.Some? <==> truthy(cs[i].name))
    ensures IsSubsequence(Names(Emit(cs)), fields)
    ensures forall f :: f in Names(Emit(cs)) <==> f in fields && truthy(f)
  {
    EmitNames(cs);
    EmitYields(cs);
    forall f | f in fields && truthy(f)
      ensures exists i :: 0 <= i < |cs| && cs[i].name == f && cs[i].value.Some?
    {
      var i :| 0 <= i < |fields| && fields[i] == f;
      assert cs[i].name == f;
    }
    forall f | f in Names(Emit(cs))
      ensures f in fields
    {
      var i :| 0 <= i < |cs| && cs[i].name == f && cs[i].value.Some?;
      assert fields[i] == f;
    }
  }

  /** Every expression's `__iter__` yields exactly its truthy fields, in declaration order. */
  lemma ExprIterFields(e: Expr)
    ensures IsSubsequence(Names(ExprNode(e).fields), ExprFields(e))
    ensures forall f :: f in Names(ExprNode(e).fields) <==> f in ExprFields(e) && ExprAttrTruthy(e, f)
  {
    ExprCandidateNames(e);
    ExprCandidateValues(e);
    EmitFollowsTable(ExprCandidates(e), ExprFields(e), f => ExprAttrTruthy(e, f));
  }

  /** Every statement's `__iter__` yields exactly its truthy fields, in declaration order. */
  lemma StmtIterFields(s: Stmt)
    ensures IsSubsequence(Names(StmtNode(s).fields), StmtFields(s))
    ensures forall f :: f in Names(StmtNode(s).fields) <==> f in StmtFields(s) && StmtAttrTruthy(s, f)
  {
    StmtCandidateNames(s);
    StmtCandidateValues(s);
    EmitFollowsTable(StmtCandidates(s), StmtFields(s), f => StmtAttrTruthy(s, f));
  }

  /** Every declaration's `__iter__` yields exactly its truthy fields, in declaration order. */
  lemma DeclarationIterFields(d: Declaration)
    ensures IsSubsequence(Names(DeclarationNode(d).fields), DeclarationFields(d))
    ensures forall f :: f in Names(DeclarationNode(d).fields) <==> f in DeclarationFields(d) && DeclarationAttrTruthy(d, f)
  {
    DeclarationCandidateNames(d);
    DeclarationCandidateValues(d);
    EmitFollowsTable(DeclarationCandidates(d), DeclarationFields(d), f => DeclarationAttrTruthy(d, f));
  }

  /** Each expression class's `__iter__` considers its fields in table order. */
  lemma ExprCandidateNames(e: Expr)
    ensures CandidateNames(ExprCandidates(e)) == ExprFields(e)
  {
    if e.Lambda? { assert CandidateNames(ExprCandidates(e)) == ExprFields(e); }
    if e.Assign? { assert CandidateNames(ExprCandidates(e)) == ExprFields(e); }
    if e.IfExp? { assert CandidateNames(ExprCandidates(e)) == ExprFields(e); }
    if e.BinOp? { assert CandidateNames(ExprCandidates(e)) == ExprFields(e); }
    if e.InstanceOf? { assert CandidateNames(ExprCandidates(e)) == ExprFields(e); }
    if e.UnaryOp? { assert CandidateNames(ExprCandidates(e)) == ExprFields(e); }
    if e.PostOp? { assert CandidateNames(ExprCandidates(e)) == ExprFields(e); }
    if e.Cast? { assert CandidateNames(ExprCandidates(e)) == ExprFields(e); }
    if e.NewObject? { assert CandidateNames(ExprCandidates(e)) == ExprFields(e); }
    if e.NewArray? { assert CandidateNames(ExprCandidates(e)) == ExprFields(e); }
    if e.This? { assert CandidateNames(ExprCandidates(e)) == ExprFields(e); }
    if e.Super? { assert CandidateNames(ExprCandidates(e)) == ExprFields(e); }
    if e.Constant? { assert CandidateNames(ExprCandidates(e)) == ExprFields(e); }
    if e.Name? { assert CandidateNames(ExprCandidates(e)) == ExprFields(e); }
    if e.ClassExpr? { assert CandidateNames(ExprCandidates(e)) == ExprFields(e); }
    if e.ExplicitGenericInvocation? { assert CandidateNames(ExprCandidates(e)) == ExprFields(e); }
    if e.Subscript? { assert CandidateNames(ExprCandidates(e)) == ExprFields(e); }
    if e.Member? { assert CandidateNames(ExprCandidates(e)) == ExprFields(e); }
    if e.Call? { assert CandidateNames(ExprCandidates(e)) == ExprFields(e); }
    if e.Reference? { assert CandidateNames(ExprCandidates(e)) == ExprFields(e); }
    if e.Match? { assert CandidateNames(ExprCandidates(e)) == ExprFields(e); }
  }

  /** Each expression class's `__iter__` yields a field exactly when its attribute is truthy. */
  lemma ExprCandidateValues(e: Expr)
    ensures forall i :: 0 <= i < |ExprCandidates(e)| ==> (ExprCandidates(e)[i].value.Some? <==> ExprAttrTruthy(e, ExprCandidates(e)[i].name))
  {
    if e.Lambda? { ExprTruthOfLambda(e); }
    if e.Assign? { ExprTruthOfAssign(e); }
    if e.IfExp? { ExprTruthOfIfExp(e); }
    if e.BinOp? { ExprTruthOfBinOp(e); }
    if e.InstanceOf? { ExprTruthOfInstanceOf(e); }
    if e.UnaryOp? { ExprTruthOfUnaryOp(e); }
    if e.PostOp? { ExprTruthOfPostOp(e); }
    if e.Cast? { ExprTruthOfCast(e); }
    if e.NewObject? { ExprTruthOfNewObject(e); }
    if e.NewArray? { ExprTruthOfNewArray(e); }
    if e.This? { ExprTruthOfThis(e); }
    if e.Super? { ExprTruthOfSuper(e); }
    if e.Constant? { ExprTruthOfConstant(e); }
    if e.Name? { ExprTruthOfName(e); }
    if e.ClassExpr? { ExprTruthOfClassExpr(e); }
    if e.ExplicitGenericInvocation? { ExprTruthOfExplicitGenericInvocation(e); }
    if e.Subscript? { ExprTruthOfSubscript(e); }
    if e.Member? { ExprTruthOfMember(e); }
    if e.Call? { ExprTruthOfCall(e); }
    if e.Reference? { ExprTruthOfReference(e); }
    if e.Match? { ExprTruthOfMatch(e); }
  }

  // One lemma per class: each unfolds the candidate list of a single
  // constructor, which keeps every proof small. Checking all constructors
  // in one lemma makes the solver consider every case at once.

  lemma ExprTruthOfLambda(e: Expr)
    requires e.Lambda?
    ensures forall i :: 0 <= i < |ExprCandidates(e)| ==> (ExprCandidates(e)[i].value.Some? <==> ExprAttrTruthy(e, ExprCandidates(e)[i].name))
  {
  }

  lemma ExprTruthOfAssign(e: Expr)
    requires e.Assign?
    ensures forall i :: 0 <= i < |ExprCandidates(e)| ==> (ExprCandidates(e)[i].value.Some? <==> ExprAttrTruthy(e, ExprCandidates(e)[i].name))
  {
  }

  lemma ExprTruthOfIfExp(e: Expr)
    requires e.IfExp?
    ensures forall i :: 0 <= i < |ExprCandidates(e)| ==> (ExprCandidates(e)[i].value.Some? <==> ExprAttrTruthy(e, ExprCandidates(e)[i].name))
  {
  }

  lemma ExprTruthOfBinOp(e: Expr)
    requires e.BinOp?
    ensures forall i :: 0 <= i < |ExprCandidates(e)| ==> (ExprCandidates(e)[i].value.Some? <==> ExprAttrTruthy(e, ExprCandidates(e)[i].name))
  {
  }

  lemma ExprTruthOfInstanceOf(e: Expr)
    requires e.InstanceOf?
    ensures forall i :: 0 <= i < |ExprCandidates(e)| ==> (ExprCandidates(e)[i].value.Some? <==> ExprAttrTruthy(e, ExprCandidates(e)[i].name))
  {
  }

  lemma ExprTruthOfUnaryOp(e: Expr)
    requires e.UnaryOp?
    ensures forall i :: 0 <= i < |ExprCandidates(e)| ==> (ExprCandidates(e)[i].value.Some? <==> ExprAttrTruthy(e, ExprCandidates(e)[i].name))
  {
  }

  lemma ExprTruthOfPostOp(e: Expr)
    requires e.PostOp?
    ensures forall i :: 0 <= i < |ExprCandidates(e)| ==> (ExprCandidates(e)[i].value.Some? <==> ExprAttrTruthy(e, ExprCandidates(e)[i].name))
  {
  }

  lemma ExprTruthOfCast(e: Expr)
    requires e.Cast?
    ensures forall i :: 0 <= i < |ExprCandidates(e)| ==> (ExprCandidates(e)[i].value.Some? <==> ExprAttrTruthy(e, ExprCandidates(e)[i].name))
  {
  }

  lemma ExprTruthOfNewObject(e: Expr)
    requires e.NewObject?
    ensures forall i :: 0 <= i < |ExprCandidates(e)| ==> (ExprCandidates(e)[i].value.Some? <==> ExprAttrTruthy(e, ExprCandidates(e)[i].name))
  {
  }

  lemma ExprTruthOfNewArray(e: Expr)
    requires e.NewArray?
    ensures forall i :: 0 <= i < |ExprCandidates(e)| ==> (ExprCandidates(e)[i].value.Some? <==> ExprAttrTruthy(e, ExprCandidates(e)[i].name))
  {
  }

  lemma ExprTruthOfThis(e: Expr)
    requires e.This?
    ensures forall i :: 0 <= i < |ExprCandidates(e)| ==> (ExprCandidates(e)[i].value.Some? <==> ExprAttrTruthy(e, ExprCandidates(e)[i].name))
  {
  }

  lemma ExprTruthOfSuper(e: Expr)
    requires e.Super?
    ensures forall i :: 0 <= i < |ExprCandidates(e)| ==> (ExprCandidates(e)[i].value.Some? <==> ExprAttrTruthy(e, ExprCandidates(e)[i].name))
  {
  }

  lemma ExprTruthOfConstant(e: Expr)
    requires e.Constant?
    ensures forall i :: 0 <= i < |ExprCandidates(e)| ==> (ExprCandidates(e)[i].value.Some? <==> ExprAttrTruthy(e, ExprCandidates(e)[i].name))
  {
  }

  lemma ExprTruthOfName(e: Expr)
    requires e.Name?
    ensures forall i :: 0 <= i < |ExprCandidates(e)| ==> (ExprCandidates(e)[i].value.Some? <==> ExprAttrTruthy(e, ExprCandidates(e)[i].name))
  {
  }

  lemma ExprTruthOfClassExpr(e: Expr)
    requires e.ClassExpr?
    ensures forall i :: 0 <= i < |ExprCandidates(e)| ==> (ExprCandidates(e)[i].value.Some? <==> ExprAttrTruthy(e, ExprCandidates(e)[i].name))
  {
  }

  lemma ExprTruthOfExplicitGenericInvocation(e: Expr)
    requires e.ExplicitGenericInvocation?
    ensures forall i :: 0 <= i < |ExprCandidates(e)| ==> (ExprCandidates(e)[i].value.Some? <==> ExprAttrTruthy(e, ExprCandidates(e)[i].name))
  {
  }

  lemma ExprTruthOfSubscript(e: Expr)
    requires e.Subscript?
    ensures forall i :: 0 <= i < |ExprCandidates(e)| ==> (ExprCandidates(e)[i].value.Some? <==> ExprAttrTruthy(e, ExprCandidates(e)[i].name))
  {
  }

  lemma ExprTruthOfMember(e: Expr)
    requires e.Member?
    ensures forall i :: 0 <= i < |ExprCandidates(e)| ==> (ExprCandidates(e)[i].value.Some? <==> ExprAttrTruthy(e, ExprCandidates(e)[i].name))
  {
  }

  lemma ExprTruthOfCall(e: Expr)
    requires e.Call?
    ensures forall i :: 0 <= i < |ExprCandidates(e)| ==> (ExprCandidates(e)[i].value.Some? <==> ExprAttrTruthy(e, ExprCandidates(e)[i].name))
  {
  }

  lemma ExprTruthOfReference(e: Expr)
    requires e.Reference?
    ensures forall i :: 0 <= i < |ExprCandidates(e)| ==> (ExprCandidates(e)[i].value.Some? <==> ExprAttrTruthy(e, ExprCandidates(e)[i].name))
  {
  }

  lemma ExprTruthOfMatch(e: Expr)
    requires e.Match?
    ensures forall i :: 0 <= i < |ExprCandidates(e)| ==> (ExprCandidates(e)[i].value.Some? <==> ExprAttrTruthy(e, ExprCandidates(e)[i].name))
  {
  }

  /** Each statement class's `__iter__` considers its fields in table order. */
  lemma StmtCandidateNames(s: Stmt)
    ensures CandidateNames(StmtCandidates(s)) == StmtFields(s)
  {
    if s.Block? { assert CandidateNames(StmtCandidates(s)) == StmtFields(s); }
    if s.Expression? { assert CandidateNames(StmtCandidates(s)) == StmtFields(s); }
    if s.LocalVariable? { assert CandidateNames(StmtCandidates(s)) == StmtFields(s); }
    if s.If? { assert CandidateNames(StmtCandidates(s)) == StmtFields(s); }
    if s.While? { assert CandidateNames(StmtCandidates(s)) == StmtFields(s); }
    if s.Return? { assert CandidateNames(StmtCandidates(s)) == StmtFields(s); }
    if s.Throw? { assert CandidateNames(StmtCandidates(s)) == StmtFields(s); }
    if s.Yield? { assert CandidateNames(StmtCandidates(s)) == StmtFields(s); }
    if s.Break? { assert CandidateNames(StmtCandidates(s)) == StmtFields(s); }
    if s.Continue? { assert CandidateNames(StmtCandidates(s)) == StmtFields(s); }
    if s.Try? { assert CandidateNames(StmtCandidates(s)) == StmtFields(s); }
    if s.TryWithResources? { assert CandidateNames(StmtCandidates(s)) == StmtFields(s); }
    if s.Empty? { assert CandidateNames(StmtCandidates(s)) == StmtFields(s); }
  }

  /** Each statement class's `__iter__` yields a field exactly when its attribute is truthy. */
  lemma StmtCandidateValues(s: Stmt)
    ensures forall i :: 0 <= i < |StmtCandidates(s)| ==> (StmtCandidates(s)[i].value.Some? <==> StmtAttrTruthy(s, StmtCandidates(s)[i].name))
  {
    if s.Block? { StmtTruthOfBlock(s); }
    if s.Expression? { StmtTruthOfExpression(s); }
    if s.LocalVariable? { StmtTruthOfLocalVariable(s); }
    if s.If? { StmtTruthOfIf(s); }
    if s.While? { StmtTruthOfWhile(s); }
    if s.Return? { StmtTruthOfReturn(s); }
    if s.Throw? { StmtTruthOfThrow(s); }
    if s.Yield? { StmtTruthOfYield(s); }
    if s.Break? { StmtTruthOfBreak(s); }
    if s.Continue? { StmtTruthOfContinue(s); }
    if s.Try? { StmtTruthOfTry(s); }
    if s.TryWithResources? { StmtTruthOfTryWithResources(s); }
    if s.Empty? { StmtTruthOfEmpty(s); }
  }

  lemma StmtTruthOfBlock(s: Stmt)
    requires s.Block?
    ensures forall i :: 0 <= i < |StmtCandidates(s)| ==> (StmtCandidates(s)[i].value.Some? <==> StmtAttrTruthy(s, StmtCandidates(s)[i].name))
  {
  }

  lemma StmtTruthOfExpression(s: Stmt)
    requires s.Expression?
    ensures forall i :: 0 <= i < |StmtCandidates(s)| ==> (StmtCandidates(s)[i].value.Some? <==> StmtAttrTruthy(s, StmtCandidates(s)[i].name))
  {
  }

  lemma StmtTruthOfLocalVariable(s: Stmt)
    requires s.LocalVariable?
    ensures forall i :: 0 <= i < |StmtCandidates(s)| ==> (StmtCandidates(s)[i].value.Some? <==> StmtAttrTruthy(s, StmtCandidates(s)[i].name))
  {
  }

  lemma StmtTruthOfIf(s: Stmt)
    requires s.If?
    ensures forall i :: 0 <= i < |StmtCandidates(s)| ==> (StmtCandidates(s)[i].value.Some? <==> StmtAttrTruthy(s, StmtCandidates(s)[i].name))
  {
  }

  lemma StmtTruthOfWhile(s: Stmt)
    requires s.While?
    ensures forall i :: 0 <= i < |StmtCandidates(s)| ==> (StmtCandidates(s)[i].value.Some? <==> StmtAttrTruthy(s, StmtCandidates(s)[i].name))
  {
  }

  lemma StmtTruthOfReturn(s: Stmt)
    requires s.Return?
    ensures forall i :: 0 <= i < |StmtCandidates(s)| ==> (StmtCandidates(s)[i].value.Some? <==> StmtAttrTruthy(s, StmtCandidates(s)[i].name))
  {
  }

  lemma StmtTruthOfThrow(s: Stmt)
    requires s.Throw?
    ensures forall i :: 0 <= i < |StmtCandidates(s)| ==> (StmtCandidates(s)[i].value.Some? <==> StmtAttrTruthy(s, StmtCandidates(s)[i].name))
  {
  }

  lemma StmtTruthOfYield(s: Stmt)
    requires s.Yield?
    ensures forall i :: 0 <= i < |StmtCandidates(s)| ==> (StmtCandidates(s)[i].value.Some? <==> StmtAttrTruthy(s, StmtCandidates(s)[i].name))
  {
  }

  lemma StmtTruthOfBreak(s: Stmt)
    requires s.Break?
    ensures forall i :: 0 <= i < |StmtCandidates(s)| ==> (StmtCandidates(s)[i].value.Some? <==> StmtAttrTruthy(s, StmtCandidates(s)[i].name))
  {
  }

  lemma StmtTruthOfContinue(s: Stmt)
    requires s.Continue?
    ensures forall i :: 0 <= i < |StmtCandidates(s)| ==> (StmtCandidates(s)[i].value.Some? <==> StmtAttrTruthy(s, StmtCandidates(s)[i].name))
  {
  }

  lemma StmtTruthOfTry(s: Stmt)
    requires s.Try?
    ensures forall i :: 0 <= i < |StmtCandidates(s)| ==> (StmtCandidates(s)[i].value.Some? <==> StmtAttrTruthy(s, StmtCandidates(s)[i].name))
  {
  }

  lemma StmtTruthOfTryWithResources(s: Stmt)
    requires s.TryWithResources?
    ensures forall i :: 0 <= i < |StmtCandidates(s)| ==> (StmtCandidates(s)[i].value.Some? <==> StmtAttrTruthy(s, StmtCandidates(s)[i].name))
  {
  }

  lemma StmtTruthOfEmpty(s: Stmt)
    requires s.Empty?
    ensures forall i :: 0 <= i < |StmtCandidates(s)| ==> (StmtCandidates(s)[i].value.Some? <==> StmtAttrTruthy(s, StmtCandidates(s)[i].name))
  {
  }

  /** Each declaration class's `__iter__` considers its fields in table order. */
  lemma DeclarationCandidateNames(d: Declaration)
    ensures CandidateNames(DeclarationCandidates(d)) == DeclarationFields(d)
  {
    if d.Import? { assert CandidateNames(DeclarationCandidates(d)) == DeclarationFields(d); }
    if d.Field? { assert CandidateNames(DeclarationCandidates(d)) == DeclarationFields(d); }
    if d.Method? { assert CandidateNames(DeclarationCandidates(d)) == DeclarationFields(d); }
  }

  /** Each declaration class's `__iter__` yields a field exactly when its attribute is truthy. */
  lemma DeclarationCandidateValues(d: Declaration)
    ensures forall i :: 0 <= i < |DeclarationCandidates(d)| ==> (DeclarationCandidates(d)[i].value.Some? <==> DeclarationAttrTruthy(d, DeclarationCandidates(d)[i].name))
  {
    if d.Import? { DeclarationTruthOfImport(d); }
    if d.Field? { DeclarationTruthOfField(d); }
    if d.Method? { DeclarationTruthOfMethod(d); }
  }

  lemma DeclarationTruthOfImport(d: Declaration)
    requires d.Import?
    ensures forall i :: 0 <= i < |DeclarationCandidates(d)| ==> (DeclarationCandidates(d)[i].value.Some? <==> DeclarationAttrTruthy(d, DeclarationCandidates(d)[i].name))
  {
  }

  lemma DeclarationTruthOfField(d: Declaration)
    requires d.Field?
    ensures forall i :: 0 <= i < |DeclarationCandidates(d)| ==> (DeclarationCandidates(d)[i].value.Some? <==> DeclarationAttrTruthy(d, DeclarationCandidates(d)[i].name))
  {
  }

  lemma DeclarationTruthOfMethod(d: Declaration)
    requires d.Method?
    ensures forall i :: 0 <= i < |DeclarationCandidates(d)| ==> (DeclarationCandidates(d)[i].value.Some? <==> DeclarationAttrTruthy(d, DeclarationCandidates(d)[i].name))
  {
  }
}

=== FILE: leaf_text.dfy ===
/**
 * What the unparser's leaf printers keep: a literal's text determines the
 * literal, an import statement's text gives back its flags and name, and a
 * wildcard bound the constructor accepts is written with its keyword.
 */
module LeafText {
  import opened Wrappers
  import opened Text
  import opened Jast
  import opened Unparser
  import opened JastInit

  // ---------------------------------------------------------------------
  // Literals
  // ---------------------------------------------------------------------

  /**
   * The first character of a literal's text tells its class: a digit or a
   * minus sign for an integer, `t`/`f` for a boolean, a quote for a character
   * or a string, `n` for null.
   */
  lemma LiteralHead(l: Literal)
    ensures |LiteralText(l)| > 0
    ensures l.IntLiteral? <==> LiteralText(l)[0] == '-' || '0' <= LiteralText(l)[0] <= '9'
    ensures l.BoolLiteral? <==> LiteralText(l)[0] == 't' || LiteralText(l)[0] == 'f'
    ensures l.CharLiteral? <==> LiteralText(l)[0] == '\''
    ensures l.StringLiteral? <==> LiteralText(l)[0] == '"'
    ensures l.NullLiteral? <==> LiteralText(l)[0] == 'n'
  {
    if l.IntLiteral? {
      var i := l.intValue;
      assert LiteralText(l)[0] == IntToString(i)[0];
      if i >= 0 {
        assert IntToString(i) == NatToString(i);
      }
    }
  }

  /** Different integer literals are written differently; the suffix `l` marks a long. */
  lemma IntLiteralTextInjective(v: int, long: bool, w: int, long2: bool)
    requires LiteralText(IntLiteral(v, long)) == LiteralText(IntLiteral(w, long2))
    ensures v == w && long == long2
  {
    var s := LiteralText(IntLiteral(v, long));
    IntToStringEndsInDigit(v);
    IntToStringEndsInDigit(w);
    var a, b := IntToString(v), IntToString(w);
    assert s[|s| - 1] == 'l' <==> long;
    assert s[|s| - 1] == 'l' <==> long2;
    if long {
      assert s[..|s| - 1] == a;
      assert LiteralText(IntLiteral(w, long2))[..|s| - 1] == b;
    } else {
      assert s == a && s == b;
    }
    IntToStringInjective(v, w);
  }

  /** `visit_IntLiteral` and friends lose nothing: equal texts come from equal literals. */
  lemma LiteralTextInjective(a: Literal, b: Literal)
    requires LiteralText(a) == LiteralText(b)
    ensures a == b
  {
    var s := LiteralText(a);
    LiteralHead(a);
    LiteralHead(b);
    match a {
      case IntLiteral(v, long) =>
        IntLiteralTextInjective(v, long, b.intValue, b.long);
      case BoolLiteral(x) =>
        assert s == "true" <==> x;
        assert s == "true" <==> b.boolValue;
      case CharLiteral(c) =>
        assert s[1] == c && s[1] == b.charValue;
      case StringLiteral(t) =>
        assert s[1..|s| - 1] == t;
        assert s[1..|s| - 1] == b.stringValue;
      case NullLiteral =>
    }
  }

  // ---------------------------------------------------------------------
  // Imports
  // ---------------------------------------------------------------------

  /** The parts of an import statement. */
  datatype ImportParts = ImportParts(isStatic: bool, identifiers: seq<string>, onDemand: bool)

  /**
   * Reads `import [static ]a.b.c[.*];` back into its parts: the word `static`
   * after `import `, the trailing `.*`, and the name cut at its dots.
   */
  function ReadImport(s: string): Option<ImportParts>
  {
    if |s| < 8 || s[..7] != "import " || s[|s| - 1] != ';' then None
    else
      var body := s[7..|s| - 1];
      Some(ImportParts(StartsStatic(body), Split(DropOnDemand(DropStatic(body)), '.'), EndsOnDemand(DropStatic(body))))
  }

  predicate StartsStatic(body: string)
  {
    |body| >= 7 && body[..7] == "static "
  }

  function DropStatic(body: string): string
  {
    if StartsStatic(body) then body[7..] else body
  }

  predicate EndsOnDemand(name: string)
  {
    |name| >= 2 && name[|name| - 2..] == ".*"
  }

  function DropOnDemand(name: string): string
  {
    if EndsOnDemand(name) then name[..|name| - 2] else name
  }

  /** Identifiers as Java spells them: no dot, space or star inside. */
  predicate PlainIdentifiers(ids: seq<string>)
  {
    CountAll(ids, '.') == 0 && CountAll(ids, ' ') == 0 && CountAll(ids, '*') == 0
  }

  /**
   * `visit_Import` loses nothing: reading its text back gives the static
   * flag, the qualified name's identifiers and the on-demand flag.
   */
  lemma ImportRoundTrip(isStatic: bool, name: QName, onDemand: bool)
    requires QNameWF(name) && PlainIdentifiers(name.identifiers)
    ensures ReadImport(ImportText(isStatic, name, onDemand)) == Some(ImportParts(isStatic, name.identifiers, onDemand))
  {
    var s := ImportText(isStatic, name, onDemand);
    var q := QNameText(name);
    var rest := q + (if onDemand then ".*" else "");
    var body := (if isStatic then "static " else "") + rest;
    ImportSlices(isStatic, name, onDemand);
    NameAndSuffix(name, onDemand);
    ReadStatic(isStatic, rest, body);
    ReadOnDemand(onDemand, q);
    QNameRoundTrip(name);
    assert ReadImport(s) == Some(ImportParts(StartsStatic(body), Split(DropOnDemand(DropStatic(body)), '.'), EndsOnDemand(DropStatic(body))));
  }

  /** The name and the optional `.*` hold no space, and the name holds no star. */
  lemma NameAndSuffix(name: QName, onDemand: bool)
    requires QNameWF(name) && PlainIdentifiers(name.identifiers)
    ensures Count(QNameText(name) + (if onDemand then ".*" else ""), ' ') == 0
    ensures Count(QNameText(name), '*') == 0
  {
    QNameHasNoSpaceOrStar(name);
    SuffixHasNoSpace(onDemand);
    CountAppend(QNameText(name), if onDemand then ".*" else "", ' ');
  }

  lemma SuffixHasNoSpace(onDemand: bool)
    ensures Count(if onDemand then ".*" else "", ' ') == 0
  {
    if onDemand {
      assert ".*"[1..] == "*";
      assert "*"[1..] == "";
    }
  }

  /** The qualified name's text holds no space and no star. */
  lemma QNameHasNoSpaceOrStar(name: QName)
    requires QNameWF(name) && PlainIdentifiers(name.identifiers)
    ensures Count(QNameText(name), ' ') == 0 && Count(QNameText(name), '*') == 0
  {
    JoinCount(name.identifiers, ".", ' ');
    JoinCount(name.identifiers, ".", '*');
  }

  /** The qualified name's text cut at its dots is its identifier list. */
  lemma QNameRoundTrip(name: QName)
    requires QNameWF(name) && CountAll(name.identifiers, '.') == 0
    ensures Split(QNameText(name), '.') == name.identifiers
  {
    SplitJoin(name.identifiers, '.');
  }

  /** The statement's text is `import `, the body, and `;`. */
  lemma ImportSlices(isStatic: bool, name: QName, onDemand: bool)
    ensures var s := ImportText(isStatic, name, onDemand);
            |s| >= 8 && s[..7] == "import " && s[|s| - 1] == ';'
            && s[7..|s| - 1] == (if isStatic then "static " else "") + (QNameText(name) + (if onDemand then ".*" else ""))
  {
    var st, q, w := if isStatic then "static " else "", QNameText(name), if onDemand then ".*" else "";
    var s := ImportText(isStatic, name, onDemand);
    assert s == "import " + (st + (q + w)) + ";";
  }

  /** The word `static` is found exactly when it was written, since the rest has no space. */
  lemma ReadStatic(isStatic: bool, rest: string, body: string)
    requires Count(rest, ' ') == 0
    requires body == (if isStatic then "static " else "") + rest
    ensures StartsStatic(body) == isStatic
    ensures DropStatic(body) == rest
  {
    if !isStatic && |rest| >= 7 && rest[..7] == "static " {
      assert rest[6] == ' ';
      CountZeroAt(rest, ' ', 6);
    }
  }

  /** The trailing `.*` is found exactly when it was written, since the name has no star. */
  lemma ReadOnDemand(onDemand: bool, q: string)
    requires Count(q, '*') == 0
    ensures EndsOnDemand(q + (if onDemand then ".*" else "")) == onDemand
    ensures DropOnDemand(q + (if onDemand then ".*" else "")) == q
  {
    if !onDemand && |q| >= 2 && q[|q| - 2..] == ".*" {
      assert q[|q| - 1] == '*';
      CountZeroAt(q, '*', |q| - 1);
    }
    if !onDemand {
      assert q + "" == q;
    }
  }

  // ---------------------------------------------------------------------
  // Wildcard bounds
  // ---------------------------------------------------------------------

  /**
   * A bound with exactly one flag, as the constructor builds it, is written
   * with that flag's keyword before its type, so the unparser never meets
   * the flagless bound it would reject.
   */
  lemma WildcardBoundWritten(b: WildcardBound)
    requires BoundFlagsOk(b)
    ensures WildcardBoundText(b) != ""
    ensures b.isSuper ==> WildcardBoundText(b) == " super " + TypeText(b.ty)
    ensures b.isExtends ==> WildcardBoundText(b) == " extends " + TypeText(b.ty)
  {
  }

  /** Every bound `wildcardbound(...)` accepts is written with a keyword. */
  lemma BuiltBoundIsWritten(ty: Option<JType>, isExtends: bool, isSuper: bool)
    requires MkWildcardBound(ty, isExtends, isSuper).Ok?
    ensures WildcardBoundText(MkWildcardBound(ty, isExtends, isSuper).value) != ""
  {
    WildcardBoundWritten(MkWildcardBound(ty, isExtends, isSuper).value);
  }
}

=== FILE: reparse.dfy ===
/**
 * A precedence-climbing parser for the token streams of module Corrected,
 * one level per `_Precedence` member: assignment (right-associative),
 * conditional, the ten binary levels (left-associative), cast, prefix,
 * postfix and primary. Reading back the token sequence the corrected
 * printer produces recovers the tree, so that token sequence loses no
 * information.
 */
module Reparse {
  import opened Wrappers
  import opened Jast
  import opened Unparser
  import opened Corrected

  /** An expression parsed from a prefix of the tokens, and the tokens after it. */
  datatype Parsed = Parsed(e: Expr, rest: seq<Token>)

  /** The longest expression at level `p` or tighter at the front of `ts`. */
  function ParseAt(p: Prec, ts: seq<Token>): (r: Option<Parsed>)
    ensures r.Some? ==> |r.value.rest| < |ts|
    decreases |ts|, PRIMARY - p, 1
  {
    if p == LAMBDA then ParseAt(ASSIGN, ts)
    else if p == ASSIGN then ParseAssign(ts)
    else if p == TERNARY then ParseTernary(ts)
    else if p <= MULT then ParseBinary(p, ts)
    else if p == TYPE then ParseCast(ts)
    else if p == UNARY then ParseUnary(ts)
    else if p == POSTFIX then ParsePostfix(ts)
    else ParsePrimary(ts)
  }

  /** A conditional, then optionally an assignment operator and (right-associatively) an assignment. */
  function ParseAssign(ts: seq<Token>): (r: Option<Parsed>)
    ensures r.Some? ==> |r.value.rest| < |ts|
    decreases |ts|, PRIMARY - ASSIGN, 0
  {
    match ParseAt(TERNARY, ts)
    case None => None
    case Some(Parsed(t, r)) =>
      if |r| > 0 && r[0].TAssignOp? then
        match ParseAt(ASSIGN, r[1..])
        case None => None
        case Some(Parsed(v, r2)) => Some(Parsed(Assign(t, r[0].aop, v), r2))
      else Some(Parsed(t, r))
  }

  /** A logical-or expression, then optionally `? expression : conditional`. */
  function ParseTernary(ts: seq<Token>): (r: Option<Parsed>)
    ensures r.Some? ==> |r.value.rest| < |ts|
    decreases |ts|, PRIMARY - TERNARY, 0
  {
    match ParseAt(OR, ts)
    case None => None
    case Some(Parsed(t, r)) =>
      if |r| > 0 && r[0] == TQuestion then
        match ParseAt(LAMBDA, r[1..])
        case None => None
        case Some(Parsed(b, r2)) =>
          if |r2| > 0 && r2[0] == TColon then
            match ParseAt(TERNARY, r2[1..])
            case None => None
            case Some(Parsed(o, r3)) => Some(Parsed(IfExp(t, b, o), r3))
          else None
      else Some(Parsed(t, r))
  }

  /** An operand of the next tighter level, then any operators of binary level `p`. */
  function ParseBinary(p: Prec, ts: seq<Token>): (r: Option<Parsed>)
    requires OR <= p <= MULT
    ensures r.Some? ==> |r.value.rest| < |ts|
    decreases |ts|, PRIMARY - p, 0
  {
    match ParseAt(p + 1, ts)
    case None => None
    case Some(Parsed(a, r)) => BinaryTail(p, a, r)
  }

  function ParseCast(ts: seq<Token>): (r: Option<Parsed>)
    ensures r.Some? ==> |r.value.rest| < |ts|
    decreases |ts|, PRIMARY - TYPE, 0
  {
    if |ts| > 0 && ts[0].TCast? then
      match ParseAt(TYPE, ts[1..])
      case None => None
      case Some(Parsed(x, r)) => Some(Parsed(Cast(ts[0].annotations, ts[0].bound, x), r))
    else ParseAt(UNARY, ts)
  }

  function ParseUnary(ts: seq<Token>): (r: Option<Parsed>)
    ensures r.Some? ==> |r.value.rest| < |ts|
    decreases |ts|, PRIMARY - UNARY, 0
  {
    if |ts| > 0 && ts[0].TPre? then
      match ParseAt(UNARY, ts[1..])
      case None => None
      case Some(Parsed(x, r)) => Some(Parsed(UnaryOp(ts[0].uop, x), r))
    else ParseAt(POSTFIX, ts)
  }

  function ParsePostfix(ts: seq<Token>): (r: Option<Parsed>)
    ensures r.Some? ==> |r.value.rest| < |ts|
    decreases |ts|, PRIMARY - POSTFIX, 0
  {
    match ParseAt(PRIMARY, ts)
    case None => None
    case Some(Parsed(a, r)) => PostfixTail(a, r)
  }

  /** A name, a literal, or a parenthesised expression. */
  function ParsePrimary(ts: seq<Token>): (r: Option<Parsed>)
    ensures r.Some? ==> |r.value.rest| < |ts|
    decreases |ts|, 0, 0
  {
    if |ts| == 0 then None
    else
      match ts[0]
      case TName(id) => Some(Parsed(Name(id), ts[1..]))
      case TLit(l) => Some(Parsed(Constant(l), ts[1..]))
      case TOpen =>
        (match ParseAt(LAMBDA, ts[1..])
         case None => None
         case Some(Parsed(x, r)) => if |r| > 0 && r[0] == TClose then Some(Parsed(x, r[1..])) else None)
      case _ => None
  }

  /** Folds further operators of binary level `p`, with their right operands, onto `a` from the left. */
  function BinaryTail(p: Prec, a: Expr, ts: seq<Token>): (r: Option<Parsed>)
    requires OR <= p <= MULT
    ensures r.Some? ==> |r.value.rest| <= |ts|
    decreases |ts|, 0, 0
  {
    if |ts| > 0 && ts[0].TBin? && BinOpLevel(ts[0].op) == p then
      match ParseAt(p + 1, ts[1..])
      case None => None
      case Some(Parsed(b, r)) => BinaryTail(p, BinOp(a, ts[0].op, b), r)
    else Some(Parsed(a, ts))
  }

  /** Applies further postfix operators to `a`. */
  function PostfixTail(a: Expr, ts: seq<Token>): (r: Option<Parsed>)
    ensures r.Some? ==> |r.value.rest| <= |ts|
    decreases |ts|
  {
    if |ts| > 0 && ts[0].TPost? then PostfixTail(PostOp(a, ts[0].pop), ts[1..]) else Some(Parsed(a, ts))
  }

  /** The whole token stream as one expression. */
  function Parse(ts: seq<Token>): Option<Expr>
  {
    match ParseAt(LAMBDA, ts)
    case Some(Parsed(e, r)) => if |r| == 0 then Some(e) else None
    case None => None
  }

  /** Whether token `t` would extend an expression being parsed at level `p`. */
  predicate Continues(p: Prec, t: Token)
  {
    match t
    case TBin(op) => p <= BinOpLevel(op)
    case TPost(_) => p <= POSTFIX
    case TQuestion => p <= TERNARY
    case TAssignOp(_) => p <= ASSIGN
    case _ => false
  }

  /** The tokens after an expression end it at level `p`. */
  predicate Stops(p: Prec, ts: seq<Token>)
  {
    |ts| == 0 || !Continues(p, ts[0])
  }

  /** Only a name, a literal or an opening parenthesis starts a parse at the postfix level or tighter. */
  lemma PrimaryStart(q: Prec, ts: seq<Token>)
    requires q >= POSTFIX && ParseAt(q, ts).Some?
    ensures |ts| > 0 && (ts[0].TName? || ts[0].TLit? || ts[0].TOpen?)
  {
    if q == POSTFIX {
      assert ParsePostfix(ts).Some?;
    }
    assert ParsePrimary(ts).Some?;
  }

  /** A prefix operator starts a parse at the unary level or looser, never tighter. */
  lemma UnaryStart(q: Prec, ts: seq<Token>)
    requires q >= UNARY && ParseAt(q, ts).Some?
    ensures |ts| > 0 && !ts[0].TCast?
  {
    if q > UNARY {
      PrimaryStart(q, ts);
    } else {
      assert (|ts| > 0 && ts[0].TPre?) || ParseAt(POSTFIX, ts).Some?;
      if !(|ts| > 0 && ts[0].TPre?) {
        PrimaryStart(POSTFIX, ts);
      }
    }
  }

  /**
   * An expression the parser finds at level `q` is also what it finds at
   * any looser level `c`, when the tokens after it stop level `c`.
   */
  lemma {:induction false} Descend(c: Prec, q: Prec, ts: seq<Token>)
    requires c <= q
    requires ParseAt(q, ts).Some? && Stops(c, ParseAt(q, ts).value.rest)
    ensures ParseAt(c, ts) == ParseAt(q, ts)
    decreases q - c
  {
    if c < q {
      Descend(c + 1, q, ts);
      var x := ParseAt(q, ts).value;
      if c == TYPE {
        UnaryStart(q, ts);
        assert ParseAt(c, ts) == ParseCast(ts) == ParseAt(UNARY, ts);
      } else if c == UNARY {
        PrimaryStart(q, ts);
        assert ParseAt(c, ts) == ParseUnary(ts) == ParseAt(POSTFIX, ts);
      } else if c == POSTFIX {
        assert ParseAt(c, ts) == ParsePostfix(ts) == PostfixTail(x.e, x.rest);
      } else if OR <= c <= MULT {
        assert ParseAt(c, ts) == ParseBinary(c, ts) == BinaryTail(c, x.e, x.rest);
      } else if c == TERNARY {
        assert ParseAt(c, ts) == ParseTernary(ts);
      } else if c == ASSIGN {
        assert ParseAt(c, ts) == ParseAssign(ts);
      }
    }
  }

  lemma ParensSameAbove(e: Expr, p: Prec)
    requires OpExpr(e) && p < PRIMARY && OwnLevel(e) != p
    ensures Tokens(e, p) == Tokens(e, p + 1)
  {
  }

  /**
   * The corrected tokens of `e` in context `c`, followed by tokens that stop
   * level `c`, parse back to exactly `e` at level `c`.
   */
  lemma {:induction false} ParsesBack(e: Expr, c: Prec, rest: seq<Token>)
    requires OpExpr(e) && Stops(c, rest)
    ensures ParseAt(c, Tokens(e, c) + rest) == Some(Parsed(e, rest))
    decreases e, if NeedsParens(OwnLevel(e), c) then 3 else 1
  {
    var ts := Tokens(e, c) + rest;
    if NeedsParens(OwnLevel(e), c) {
      WrappedParsesBack(e, c, rest);
    } else {
      assert Tokens(e, c) == Tokens(e, OwnLevel(e));
      match e {
        case Name(_) =>
          LeafParsesBack(e, rest);
        case Constant(_) =>
          LeafParsesBack(e, rest);
        case BinOp(_, op, _) =>
          BinaryChain(e, rest);
          assert BinaryTail(BinOpLevel(op), e, rest) == Some(Parsed(e, rest));
        case PostOp(_, _) =>
          PostfixChain(e, rest);
        case UnaryOp(op, x) =>
          UnaryParsesBack(op, x, rest);
        case Cast(anns, b, x) =>
          CastParsesBack(anns, b, x, rest);
        case Assign(t, op, v) =>
          AssignParsesBack(t, op, v, rest);
        case IfExp(t, b, o) =>
          IfExpParsesBack(t, b, o, rest);
      }
      Descend(c, OwnLevel(e), ts);
    }
  }

  lemma {:induction false} WrappedParsesBack(e: Expr, c: Prec, rest: seq<Token>)
    requires OpExpr(e) && Stops(c, rest) && NeedsParens(OwnLevel(e), c)
    ensures ParseAt(c, Tokens(e, c) + rest) == Some(Parsed(e, rest))
    decreases e, 2
  {
    var inner := Tokens(e, LAMBDA);
    var closed := [TClose] + rest;
    var ts := [TOpen] + (inner + closed);
    ParsesBack(e, LAMBDA, closed);
    assert Tokens(e, c) + rest == ts by {
      assert Tokens(e, c) == [TOpen] + inner + [TClose];
    }
    ParenStep(ts, e, closed);
    assert closed[1..] == rest;
    Descend(c, PRIMARY, ts);
  }

  /** An opening parenthesis, an expression and a closing parenthesis parse as a primary. */
  lemma ParenStep(ts: seq<Token>, x: Expr, r: seq<Token>)
    requires |ts| > 0 && ts[0] == TOpen && ParseAt(LAMBDA, ts[1..]) == Some(Parsed(x, r))
    requires |r| > 0 && r[0] == TClose
    ensures ParseAt(PRIMARY, ts) == Some(Parsed(x, r[1..]))
  {
    assert ParseAt(PRIMARY, ts) == ParsePrimary(ts);
  }

  lemma IfExpTokens(t: Expr, b: Expr, o: Expr, rest: seq<Token>)
    requires OpExpr(IfExp(t, b, o))
    ensures Tokens(IfExp(t, b, o), TERNARY) + rest
         == Tokens(t, OR) + ([TQuestion] + (Tokens(b, LAMBDA) + ([TColon] + (Tokens(o, TERNARY) + rest))))
  {
    assert Tokens(IfExp(t, b, o), TERNARY) == Tokens(t, OR) + [TQuestion] + Tokens(b, LAMBDA) + [TColon] + Tokens(o, TERNARY);
    Reassociate(Tokens(t, OR), [TQuestion], Tokens(b, LAMBDA), [TColon], Tokens(o, TERNARY), rest);
  }

  lemma Reassociate<T>(a: seq<T>, b: seq<T>, c: seq<T>, d: seq<T>, e: seq<T>, f: seq<T>)
    ensures a + b + c + d + e + f == a + (b + (c + (d + (e + f))))
  {
  }

  /** A test, `?`, a body, `:` and an else branch parse as a conditional. */
  lemma TernaryStep(ts: seq<Token>, t: Expr, r: seq<Token>, b: Expr, r2: seq<Token>, o: Expr, r3: seq<Token>)
    requires ParseAt(OR, ts) == Some(Parsed(t, r)) && |r| > 0 && r[0] == TQuestion
    requires ParseAt(LAMBDA, r[1..]) == Some(Parsed(b, r2)) && |r2| > 0 && r2[0] == TColon
    requires ParseAt(TERNARY, r2[1..]) == Some(Parsed(o, r3))
    ensures ParseAt(TERNARY, ts) == Some(Parsed(IfExp(t, b, o), r3))
  {
    assert ParseAt(TERNARY, ts) == ParseTernary(ts);
  }

  /** The parse of `? body : else` after a test, with the pieces given as separate sequences. */
  lemma TernaryPieces(ts: seq<Token>, t: Expr, b: Expr, o: Expr, bodyToks: seq<Token>, elseToks: seq<Token>, rest: seq<Token>)
    requires ParseAt(OR, ts) == Some(Parsed(t, [TQuestion] + (bodyToks + ([TColon] + (elseToks + rest)))))
    requires ParseAt(LAMBDA, bodyToks + ([TColon] + (elseToks + rest))) == Some(Parsed(b, [TColon] + (elseToks + rest)))
    requires ParseAt(TERNARY, elseToks + rest) == Some(Parsed(o, rest))
    ensures ParseAt(TERNARY, ts) == Some(Parsed(IfExp(t, b, o), rest))
  {
    var r2 := [TColon] + (elseToks + rest);
    var r := [TQuestion] + (bodyToks + r2);
    assert r[1..] == bodyToks + r2 && r2[1..] == elseToks + rest;
    TernaryStep(ts, t, r, b, r2, o, rest);
  }

  lemma LeafParsesBack(e: Expr, rest: seq<Token>)
    requires e.Name? || e.Constant?
    ensures ParseAt(PRIMARY, Tokens(e, PRIMARY) + rest) == Some(Parsed(e, rest))
  {
    assert Tokens(e, PRIMARY) == BareTokens(e);
    var ts := BareTokens(e) + rest;
    assert ts[1..] == rest;
  }

  lemma {:induction false} UnaryParsesBack(op: UnaryOperator, x: Expr, rest: seq<Token>)
    requires OpExpr(x) && Stops(UNARY, rest)
    ensures ParseAt(UNARY, Tokens(UnaryOp(op, x), UNARY) + rest) == Some(Parsed(UnaryOp(op, x), rest))
    decreases UnaryOp(op, x), 0
  {
    ParsesBack(x, UNARY, rest);
    assert Tokens(UnaryOp(op, x), UNARY) == [TPre(op)] + Tokens(x, UNARY);
    var ts := Tokens(UnaryOp(op, x), UNARY) + rest;
    assert ts == [TPre(op)] + (Tokens(x, UNARY) + rest);
  }

  lemma {:induction false} CastParsesBack(anns: seq<Modifier>, b: TypeBound, x: Expr, rest: seq<Token>)
    requires OpExpr(x) && Stops(TYPE, rest)
    ensures ParseAt(TYPE, Tokens(Cast(anns, b, x), TYPE) + rest) == Some(Parsed(Cast(anns, b, x), rest))
    decreases Cast(anns, b, x), 0
  {
    ParsesBack(x, TYPE, rest);
    assert Tokens(Cast(anns, b, x), TYPE) == [TCast(anns, b)] + Tokens(x, TYPE);
    var ts := Tokens(Cast(anns, b, x), TYPE) + rest;
    assert ts == [TCast(anns, b)] + (Tokens(x, TYPE) + rest);
  }

  lemma {:induction false} AssignParsesBack(t: Expr, op: Option<BinaryOp>, v: Expr, rest: seq<Token>)
    requires OpExpr(Assign(t, op, v)) && Stops(ASSIGN, rest)
    ensures ParseAt(ASSIGN, Tokens(Assign(t, op, v), ASSIGN) + rest) == Some(Parsed(Assign(t, op, v), rest))
    decreases Assign(t, op, v), 0
  {
    var tail := Tokens(v, ASSIGN) + rest;
    ParsesBack(t, TERNARY, [TAssignOp(op)] + tail);
    ParsesBack(v, ASSIGN, rest);
    assert Tokens(Assign(t, op, v), ASSIGN) + rest == Tokens(t, TERNARY) + ([TAssignOp(op)] + tail);
  }

  lemma {:induction false} IfExpParsesBack(t: Expr, b: Expr, o: Expr, rest: seq<Token>)
    requires OpExpr(IfExp(t, b, o)) && Stops(TERNARY, rest)
    ensures ParseAt(TERNARY, Tokens(IfExp(t, b, o), TERNARY) + rest) == Some(Parsed(IfExp(t, b, o), rest))
    decreases IfExp(t, b, o), 0
  {
    var r2 := [TColon] + (Tokens(o, TERNARY) + rest);
    var r := [TQuestion] + (Tokens(b, LAMBDA) + r2);
    ParsesBack(t, OR, r);
    ParsesBack(b, LAMBDA, r2);
    ParsesBack(o, TERNARY, rest);
    TernaryPieces(Tokens(t, OR) + r, t, b, o, Tokens(b, LAMBDA), Tokens(o, TERNARY), rest);
    IfExpTokens(t, b, o, rest);
  }

  /**
   * A binary operation printed bare at its own level `p` parses back to
   * itself and then the parser goes on folding level-`p` operators onto it.
   */
  lemma {:induction false} BinaryChain(e: Expr, rest: seq<Token>)
    requires OpExpr(e) && e.BinOp? && Stops(BinOpLevel(e.op) + 1, rest)
    ensures ParseAt(BinOpLevel(e.op), Tokens(e, BinOpLevel(e.op)) + rest) == BinaryTail(BinOpLevel(e.op), e, rest)
    decreases e, 0
  {
    var BinOp(l, op, r) := e;
    var p := BinOpLevel(op);
    var more := [TBin(op)] + (Tokens(r, p + 1) + rest);
    var ts := Tokens(l, p) + more;
    assert Tokens(e, p) == Tokens(l, p) + [TBin(op)] + Tokens(r, p + 1);
    assert Tokens(e, p) + rest == ts;
    if OwnLevel(l) == p {
      BinaryChain(l, more);
    } else {
      ParensSameAbove(l, p);
      ParsesBack(l, p + 1, more);
      assert ParseAt(p, ts) == ParseBinary(p, ts);
    }
    assert ParseAt(p, ts) == BinaryTail(p, l, more);
    ParsesBack(r, p + 1, rest);
    assert more[0] == TBin(op) && more[1..] == Tokens(r, p + 1) + rest;
    assert BinaryTail(p, l, more) == BinaryTail(p, e, rest);
  }

  /** A postfix operation parses back to itself and the parser goes on applying postfix operators to it. */
  lemma {:induction false} PostfixChain(e: Expr, rest: seq<Token>)
    requires OpExpr(e) && e.PostOp?
    ensures ParseAt(POSTFIX, Tokens(e, POSTFIX) + rest) == PostfixTail(e, rest)
    decreases e, 0
  {
    var PostOp(x, op) := e;
    var more := [TPost(op)] + rest;
    assert Tokens(e, POSTFIX) + rest == Tokens(x, POSTFIX) + more;
    if x.PostOp? {
      PostfixChain(x, more);
    } else {
      ParensSameAbove(x, POSTFIX);
      ParsesBack(x, PRIMARY, more);
    }
  }

  /** Parsing the corrected printer's tokens gives back the expression. */
  lemma RoundTrip(e: Expr)
    requires OpExpr(e)
    ensures Parse(Tokens(e, LAMBDA)) == Some(e)
  {
    ParsesBack(e, LAMBDA, []);
    assert Tokens(e, LAMBDA) + [] == Tokens(e, LAMBDA);
  }

  /** Two different expressions never get the same corrected tokens. */
  lemma TokensInjective(e1: Expr, e2: Expr)
    requires OpExpr(e1) && OpExpr(e2) && Tokens(e1, LAMBDA) == Tokens(e2, LAMBDA)
    ensures e1 == e2
  {
    RoundTrip(e1);
    RoundTrip(e2);
  }
}

=== FILE: text.dfy ===
/**
 * The string-building primitives the unparser writes with: `interleave`
 * (items with a separator between them, wrapped in start/end text when the
 * list is non-empty), `traverse` (items back to back, wrapped likewise) and
 * Python's `str()` of an integer.
 */
module Text {

  /** The items written one after the other, with no separator. */
  function Concat(items: seq<string>): string
  {
    if |items| == 0 then "" else items[0] + Concat(items[1..])
  }

  /** The items written with `sep` between each two neighbours. */
  function Join(items: seq<string>, sep: string): string
  {
    if |items| == 0 then ""
    else if |items| == 1 then items[0]
    else items[0] + sep + Join(items[1..], sep)
  }

  /** `interleave(items, sep, start, end)`: nothing for an empty list. */
  function Interleave(items: seq<string>, sep: string, start: string, end: string): string
  {
    if |items| == 0 then "" else start + Join(items, sep) + end
  }

  /** `traverse(items, start, end)`: nothing for an empty list. */
  function Traverse(items: seq<string>, start: string, end: string): string
  {
    if |items| == 0 then "" else start + Concat(items) + end
  }

  /** Number of occurrences of `c` in `s`. */
  function Count(s: string, c: char): nat
  {
    if |s| == 0 then 0 else (if s[0] == c then 1 else 0) + Count(s[1..], c)
  }

  /** Total number of occurrences of `c` over all the items. */
  function CountAll(items: seq<string>, c: char): nat
  {
    if |items| == 0 then 0 else Count(items[0], c) + CountAll(items[1..], c)
  }

  /** Total length of all the items. */
  function TotalLength(items: seq<string>): nat
  {
    if |items| == 0 then 0 else |items[0]| + TotalLength(items[1..])
  }

  lemma {:induction false} CountAppend(a: string, b: string, c: char)
    ensures Count(a + b, c) == Count(a, c) + Count(b, c)
    decreases |a|
  {
    if |a| == 0 {
      assert a + b == b;
    } else {
      assert (a + b)[0] == a[0];
      assert (a + b)[1..] == a[1..] + b;
      CountAppend(a[1..], b, c);
    }
  }

  /**
   * On n >= 1 items `Join` writes exactly n - 1 separators: every occurrence
   * of a character in the result comes from an item or from one of the
   * n - 1 separators.
   */
  lemma {:induction false} JoinCount(items: seq<string>, sep: string, c: char)
    requires |items| > 0
    ensures Count(Join(items, sep), c) == CountAll(items, c) + (|items| - 1) * Count(sep, c)
    decreases |items|
  {
    if |items| == 1 {
      assert CountAll(items[1..], c) == 0;
    } else {
      JoinCount(items[1..], sep, c);
      CountAppend(items[0], sep, c);
      CountAppend(items[0] + sep, Join(items[1..], sep), c);
    }
  }

  /** The length of a join: the items plus exactly n - 1 separators. */
  lemma {:induction false} JoinLength(items: seq<string>, sep: string)
    requires |items| > 0
    ensures |Join(items, sep)| == TotalLength(items) + (|items| - 1) * |sep|
    decreases |items|
  {
    if |items| > 1 {
      JoinLength(items[1..], sep);
    }
  }

  /**
   * `interleave` writes nothing for an empty list; otherwise `start`, the
   * items with exactly n - 1 separators between them, and `end`.
   */
  lemma InterleaveLength(items: seq<string>, sep: string, start: string, end: string)
    ensures |items| == 0 ==> Interleave(items, sep, start, end) == ""
    ensures |items| > 0 ==>
              |Interleave(items, sep, start, end)| == |start| + TotalLength(items) + (|items| - 1) * |sep| + |end|
  {
    if |items| > 0 {
      JoinLength(items, sep);
    }
  }

  /** The decimal digit `d` as a character. */
  function DigitChar(d: nat): char
    requires d < 10
  {
    "0123456789"[d]
  }

  /** Python's `str(n)` of a natural number: its decimal digits. */
  function NatToString(n: nat): (r: string)
    ensures 0 < |r|
    ensures forall i :: 0 <= i < |r| ==> '0' <= r[i] <= '9'
    decreases n
  {
    if n < 10 then [DigitChar(n)] else NatToString(n / 10) + [DigitChar(n % 10)]
  }

  /** Python's `str(i)` of an integer: a minus sign before negative numbers. */
  function IntToString(i: int): (r: string)
    ensures 0 < |r|
    ensures r[0] == '-' <==> i < 0
  {
    if i < 0 then "-" + NatToString(-i) else NatToString(i)
  }

  /** The value of a decimal digit character. */
  function DigitValue(c: char): int
  {
    c as int - '0' as int
  }

  lemma DigitRoundTrip(d: nat)
    requires d < 10
    ensures DigitValue(DigitChar(d)) == d
  {
  }

  /** A string of decimal digits read back as a number, most significant digit first. */
  function ParseNat(s: string): int
  {
    if |s| == 0 then 0 else 10 * ParseNat(s[..|s| - 1]) + DigitValue(s[|s| - 1])
  }

  /** Reading the decimal text of `n` back gives `n`. */
  lemma {:induction false} ParseNatToString(n: nat)
    ensures ParseNat(NatToString(n)) == n
    decreases n
  {
    var s := NatToString(n);
    if n < 10 {
      DigitRoundTrip(n);
      assert s[..|s| - 1] == [];
    } else {
      ParseNatToString(n / 10);
      DigitRoundTrip(n % 10);
      assert s[..|s| - 1] == NatToString(n / 10);
    }
  }

  /** An optional minus sign followed by decimal digits, read back as a number. */
  function ParseInt(s: string): int
  {
    if |s| > 0 && s[0] == '-' then -ParseNat(s[1..]) else ParseNat(s)
  }

  /** Reading Python's `str(i)` back gives `i`. */
  lemma ParseIntToString(i: int)
    ensures ParseInt(IntToString(i)) == i
  {
    if i < 0 {
      ParseNatToString(-i);
      assert IntToString(i)[1..] == NatToString(-i);
    } else {
      ParseNatToString(i);
    }
  }

  /** Different integers have different texts. */
  lemma IntToStringInjective(i: int, j: int)
    requires IntToString(i) == IntToString(j)
    ensures i == j
  {
    ParseIntToString(i);
    ParseIntToString(j);
  }

  /** The last character of `str(i)` is a digit. */
  lemma IntToStringEndsInDigit(i: int)
    ensures '0' <= IntToString(i)[|IntToString(i)| - 1] <= '9'
  {
    if i < 0 {
      assert IntToString(i)[|IntToString(i)| - 1] == NatToString(-i)[|NatToString(-i)| - 1];
    }
  }

  /** `s` cut at every occurrence of `c`; a string without `c` is one piece. */
  function Split(s: string, c: char): (r: seq<string>)
    ensures |r| > 0
  {
    if |s| == 0 then [""]
    else
      var rest := Split(s[1..], c);
      if s[0] == c then [""] + rest else [[s[0]] + rest[0]] + rest[1..]
  }

  /** A piece without `c` at the front of a string extends the first piece of the rest. */
  lemma {:induction false} SplitPiece(w: string, tail: string, c: char)
    requires Count(w, c) == 0
    ensures Split(w + tail, c) == [w + Split(tail, c)[0]] + Split(tail, c)[1..]
    decreases |w|
  {
    var t := Split(tail, c);
    if |w| == 0 {
      assert w + tail == tail;
      assert w + t[0] == t[0];
      assert t == [t[0]] + t[1..];
    } else {
      assert w[0] != c;
      assert (w + tail)[0] == w[0];
      assert (w + tail)[1..] == w[1..] + tail;
      SplitPiece(w[1..], tail, c);
      var r := Split(w[1..] + tail, c);
      assert r[0] == w[1..] + t[0] && r[1..] == t[1..];
      assert [w[0]] + (w[1..] + t[0]) == w + t[0];
    }
  }

  /** Splitting a join at its separator gives the items back when no item holds the separator. */
  lemma {:induction false} SplitJoin(items: seq<string>, c: char)
    requires |items| > 0 && CountAll(items, c) == 0
    ensures Split(Join(items, [c]), c) == items
    decreases |items|
  {
    if |items| == 1 {
      SplitPiece(items[0], "", c);
      assert items[0] + "" == items[0];
    } else {
      SplitJoin(items[1..], c);
      SplitJoinStep(items[0], Join(items[1..], [c]), c);
      assert Join(items, [c]) == items[0] + ([c] + Join(items[1..], [c]));
      assert items == [items[0]] + items[1..];
    }
  }

  /** An item, the separator and the rest split into the item and the rest's pieces. */
  lemma SplitJoinStep(w: string, rest: string, c: char)
    requires Count(w, c) == 0
    ensures Split(w + ([c] + rest), c) == [w] + Split(rest, c)
  {
    SplitPiece(w, [c] + rest, c);
    SplitAtSeparator(rest, c);
    assert w + "" == w;
  }

  lemma SplitAtSeparator(rest: string, c: char)
    ensures Split([c] + rest, c) == [""] + Split(rest, c)
  {
    assert ([c] + rest)[0] == c;
    assert ([c] + rest)[1..] == rest;
  }

  /** A character that does not occur in `s` is at none of its positions. */
  lemma {:induction false} CountZeroAt(s: string, c: char, i: int)
    requires Count(s, c) == 0 && 0 <= i < |s|
    ensures s[i] != c
    decreases i
  {
    if i > 0 {
      CountZeroAt(s[1..], c, i - 1);
    }
  }
}

=== FILE: tree.dfy ===
/**
 * The generic view of a JAST node that the visitors walk: its class name,
 * the text of an identifier (empty for every other class), and the
 * `(field, value)` pairs its `__iter__` yields, in order. A value is a
 * single node or a list of nodes.
 */
module Tree {

  datatype Node = Node(kind: string, text: string, fields: seq<Slot>)

  /** One `(field, value)` pair of `__iter__`. */
  datatype Slot = Slot(name: string, child: Child)

  datatype Child = One(node: Node) | Many(nodes: seq<Node>)

  /** A node with no fields, such as an identifier or an operator. */
  function Leaf(kind: string, text: string): (r: Node)
    ensures r.kind == kind && r.text == text && |r.fields| == 0
  {
    Node(kind, text, [])
  }

  /** The names of the fields, in order. */
  function Names(slots: seq<Slot>): (r: seq<string>)
    ensures |r| == |slots|
    ensures forall i :: 0 <= i < |slots| ==> r[i] == slots[i].name
  {
    if |slots| == 0 then [] else [slots[0].name] + Names(slots[1..])
  }

  /** The nodes held by one field value. */
  function ChildNodes(c: Child): seq<Node>
  {
    match c
    case One(m) => [m]
    case Many(ms) => ms
  }

  /** The direct children of a node, field by field and list element by list element. */
  function Children(slots: seq<Slot>): seq<Node>
  {
    if |slots| == 0 then [] else ChildNodes(slots[0].child) + Children(slots[1..])
  }

  /** Every node of the tree, each before its descendants, children in field order. */
  function Preorder(n: Node): seq<Node>
  {
    [n] + PreorderSlots(n.fields)
  }

  function PreorderSlots(slots: seq<Slot>): seq<Node>
  {
    if |slots| == 0 then [] else PreorderChild(slots[0].child) + PreorderSlots(slots[1..])
  }

  function PreorderChild(c: Child): seq<Node>
  {
    match c
    case One(m) => Preorder(m)
    case Many(ms) => PreorderSeq(ms)
  }

  function PreorderSeq(ms: seq<Node>): seq<Node>
  {
    if |ms| == 0 then [] else Preorder(ms[0]) + PreorderSeq(ms[1..])
  }

  /** Every node of the tree whose kind is in `kinds` has no fields. */
  predicate KindsAreLeaves(n: Node, kinds: set<string>)
  {
    (n.kind in kinds ==> |n.fields| == 0) && SlotsKindsAreLeaves(n.fields, kinds)
  }

  predicate SlotsKindsAreLeaves(slots: seq<Slot>, kinds: set<string>)
  {
    |slots| > 0 ==> ChildKindsAreLeaves(slots[0].child, kinds) && SlotsKindsAreLeaves(slots[1..], kinds)
  }

  predicate ChildKindsAreLeaves(c: Child, kinds: set<string>)
  {
    match c
    case One(m) => KindsAreLeaves(m, kinds)
    case Many(ms) => SeqKindsAreLeaves(ms, kinds)
  }

  predicate SeqKindsAreLeaves(ms: seq<Node>, kinds: set<string>)
  {
    |ms| > 0 ==> KindsAreLeaves(ms[0], kinds) && SeqKindsAreLeaves(ms[1..], kinds)
  }

  /** `a` is `b` with some elements left out, the rest kept in order. */
  predicate IsSubsequence<T(==)>(a: seq<T>, b: seq<T>)
  {
    if |a| == 0 then true
    else if |b| == 0 then false
    else if a[0] == b[0] then IsSubsequence(a[1..], b[1..])
    else IsSubsequence(a, b[1..])
  }

  /** A subsequence of the tail of `b` is a subsequence of `b`. */
  lemma {:induction false} SubsequenceOfTail<T>(a: seq<T>, b: seq<T>)
    requires |b| > 0 && IsSubsequence(a, b[1..])
    ensures IsSubsequence(a, b)
    decreases |a| + |b|
  {
    if |a| > 0 && a[0] == b[0] {
      SubsequenceDropHead(a, b[1..]);
    }
  }

  /** A subsequence stays one when its first element is dropped. */
  lemma {:induction false} SubsequenceDropHead<T>(a: seq<T>, b: seq<T>)
    requires |a| > 0 && IsSubsequence(a, b)
    ensures IsSubsequence(a[1..], b)
    decreases |a| + |b|
  {
    if |b| > 0 {
      if a[0] == b[0] {
        SubsequenceOfTail(a[1..], b);
      } else {
        SubsequenceDropHead(a, b[1..]);
        SubsequenceOfTail(a[1..], b);
      }
    }
  }

  /** Keeping the first element of `b` and a subsequence of its tail gives a subsequence of `b`. */
  lemma SubsequenceCons<T>(x: T, a: seq<T>, b: seq<T>)
    requires |b| > 0 && b[0] == x && IsSubsequence(a, b[1..])
    ensures IsSubsequence([x] + a, b)
  {
    assert ([x] + a)[1..] == a;
  }

  lemma {:induction false} NamesAppend(a: seq<Slot>, b: seq<Slot>)
    ensures Names(a + b) == Names(a) + Names(b)
    decreases |a|
  {
    if |a| == 0 {
      assert a + b == b;
    } else {
      assert (a + b)[1..] == a[1..] + b;
      NamesAppend(a[1..], b);
    }
  }
}

=== FILE: unparse.dfy ===
/**
 * The precedence-aware unparser of `src/jast/_unparse.py`, for expressions
 * and the types, patterns, literals and operators they contain, plus
 * `Import`.
 *
 * Every expression class has its own level in the 17-step `_Precedence`
 * scale and every parent hands each child a context level. The unparser
 * keeps those context levels in a side table keyed by node identity that
 * defaults to LAMBDA. Here the context level is an explicit parameter. A
 * child is wrapped in parentheses exactly when its context level is
 * strictly greater than its own level.
 */
module Unparser {
  import opened Wrappers
  import opened Text
  import opened Jast

  /** `_Precedence`: an `IntEnum` numbered 1 (LAMBDA) to 17 (PRIMARY). */
  type Prec = p: int | 1 <= p <= 17 witness 1

  const LAMBDA: Prec := 1
  const ASSIGN: Prec := 2
  const TERNARY: Prec := 3
  const OR: Prec := 4
  const AND: Prec := 5
  const BIT_OR: Prec := 6
  const BIT_XOR: Prec := 7
  const BIT_AND: Prec := 8
  const EQ: Prec := 9
  const COMPARE: Prec := 10
  const SHIFT: Prec := 11
  const ADD: Prec := 12
  const MULT: Prec := 13
  const TYPE: Prec := 14
  const UNARY: Prec := 15
  const POSTFIX: Prec := 16
  const PRIMARY: Prec := 17

  /** `_Precedence.next`: the level one step up; PRIMARY has no successor and stays put. */
  function Next(p: Prec): (r: Prec)
    ensures p <= r <= p + 1
    ensures r == p <==> p == PRIMARY
  {
    if p < PRIMARY then p + 1 else p
  }

  /** `binop_precedence`: the level of each binary operator. */
  function BinOpLevel(op: BinaryOp): Prec
  {
    match op
    case Or => OR
    case And => AND
    case BitOr => BIT_OR
    case BitXor => BIT_XOR
    case BitAnd => BIT_AND
    case Eq | NotEq => EQ
    case Lt | LtE | Gt | GtE => COMPARE
    case LShift | RShift | URShift => SHIFT
    case Add | Sub => ADD
    case Mult | Div | Mod => MULT
  }

  /**
   * The level an expression passes to `require_parens`. Classes whose
   * visitor does not call `require_parens` are never parenthesised; they
   * get PRIMARY, which no context level exceeds.
   */
  function OwnLevel(e: Expr): Prec
  {
    match e
    case Lambda(_, _) => LAMBDA
    case Assign(_, _, _) => ASSIGN
    case IfExp(_, _, _) => TERNARY
    case BinOp(_, op, _) => BinOpLevel(op)
    case InstanceOf(_, _) => COMPARE
    case NewObject(_, _, _) => TYPE
    case NewArray(_, _, _, _) => TYPE
    case Cast(_, _, _) => TYPE
    case UnaryOp(_, _) => UNARY
    case PostOp(_, _) => POSTFIX
    case _ => PRIMARY
  }

  /** `require_parens(own, node)`: the context level is strictly greater than the node's own level. */
  predicate NeedsParens(own: Prec, ctx: Prec)
  {
    ctx > own
  }

  function BinOpText(op: BinaryOp): string
  {
    match op
    case Or => "||"
    case And => "&&"
    case BitOr => "|"
    case BitXor => "^"
    case BitAnd => "&"
    case Eq => "=="
    case NotEq => "!="
    case Lt => "<"
    case LtE => "<="
    case Gt => ">"
    case GtE => ">="
    case LShift => "<<"
    case RShift => ">>"
    case URShift => ">>>"
    case Add => "+"
    case Sub => "-"
    case Mult => "*"
    case Div => "/"
    case Mod => "%"
  }

  /** The operator text of `visit_Assign`: ` = ` without an operator, ` <op>= ` with one. */
  function AssignOpText(op: Option<BinaryOp>): string
  {
    if op.Some? then " " + BinOpText(op.value) + "= " else " = "
  }

  function UnaryText(op: UnaryOperator): string
  {
    match op
    case PreInc => "++"
    case PreDec => "--"
    case UAdd => "+"
    case USub => "-"
    case Not => "!"
    case Invert => "~"
  }

  function PostText(op: PostOperator): string
  {
    match op
    case PostInc => "++"
    case PostDec => "--"
  }

  /** `visit_IntLiteral` and friends; an int is written as Python's `str()` of it. */
  function LiteralText(l: Literal): string
  {
    match l
    case IntLiteral(v, long) => IntToString(v) + (if long then "l" else "")
    case BoolLiteral(b) => if b then "true" else "false"
    case CharLiteral(c) => "'" + [c] + "'"
    case StringLiteral(s) => "\"" + s + "\""
    case NullLiteral => "null"
  }

  function QNameText(q: QName): string
  {
    Join(q.identifiers, ".")
  }

  function ModifierText(m: Modifier): string
  {
    match m
    case Abstract => "abstract"
    case Default => "default"
    case Final => "final"
    case Native => "native"
    case NonSealed => "non-sealed"
    case Private => "private"
    case Protected => "protected"
    case Public => "public"
    case Sealed => "sealed"
    case Static => "static"
    case Strictfp => "strictfp"
    case Synchronized => "synchronized"
    case Transient => "transient"
    case Transitive => "transitive"
    case Volatile => "volatile"
    case Annotation(name) => "@" + QNameText(name)
  }

  function ModifierTexts(ms: seq<Modifier>): (r: seq<string>)
    ensures |r| == |ms|
  {
    seq(|ms|, i requires 0 <= i < |ms| => ModifierText(ms[i]))
  }

  /** `traverse(annotations, end=" ")`: annotations back to back, then one space. */
  function AnnotationsText(anns: seq<Modifier>): string
  {
    Traverse(ModifierTexts(anns), "", " ")
  }

  /** `interleave(modifiers, " ", end=" ")`: each modifier followed by one space. */
  function ModifiersText(ms: seq<Modifier>): string
  {
    Interleave(ModifierTexts(ms), " ", "", " ")
  }

  function PrimitiveText(k: PrimitiveKind): string
  {
    match k
    case Boolean => "boolean"
    case Byte => "byte"
    case Short => "short"
    case Int => "int"
    case Long => "long"
    case Char => "char"
    case Float => "float"
    case Double => "double"
  }

  /** The visitors of the type classes; a primitive type's annotations are not written. */
  function TypeText(t: JType): string
  {
    match t
    case Void => "void"
    case Var => "var"
    case Primitive(k, _) => PrimitiveText(k)
    case Wildcard(anns, bound) =>
      AnnotationsText(anns) + "?" + (if bound.Some? then WildcardBoundText(bound.value) else "")
    case Coit(anns, id, targs) =>
      AnnotationsText(anns) + id + (if targs.Some? then TypeArgsText(targs.value) else "")
    case ClassType(anns, coits) =>
      AnnotationsText(anns) + Join(seq(|coits|, i requires 0 <= i < |coits| => TypeText(coits[i])), ".")
    case ArrayType(anns, elem, dims) =>
      AnnotationsText(anns) + TypeText(elem) + DimsText(dims)
  }

  /**
   * `visit_wildcardbound`: `super` is checked first. A bound with neither
   * flag makes the unparser raise; the constructor never builds one, and
   * here it writes nothing.
   */
  function WildcardBoundText(b: WildcardBound): string
  {
    if b.isSuper then " super " + TypeText(b.ty)
    else if b.isExtends then " extends " + TypeText(b.ty)
    else ""
  }

  /** `visit_typeargs`: the types between angle brackets, comma-separated (`<>` when empty). */
  function TypeArgsText(a: TypeArgs): string
  {
    "<" + Join(seq(|a.types|, i requires 0 <= i < |a.types| => TypeText(a.types[i])), ", ") + ">"
  }

  function OptTypeArgsText(a: Option<TypeArgs>): string
  {
    if a.Some? then TypeArgsText(a.value) else ""
  }

  /** `traverse(dims)`, each `dim` being its annotations followed by `[]`. */
  function DimsText(dims: seq<Dim>): string
  {
    Concat(seq(|dims|, i requires 0 <= i < |dims| => Concat(ModifierTexts(dims[i].annotations)) + "[]"))
  }

  /** `visit_typebound`: annotations, then the types joined by ` & `. */
  function TypeBoundText(b: TypeBound): string
  {
    AnnotationsText(b.annotations) + Join(seq(|b.types|, i requires 0 <= i < |b.types| => TypeText(b.types[i])), " & ")
  }

  function VarDeclIdText(v: VarDeclId): string
  {
    v.id + DimsText(v.dims)
  }

  /** `visit_pattern`: `[modifiers ]type [annotations ]id`. */
  function PatternText(p: Pattern): string
  {
    ModifiersText(p.modifiers) + TypeText(p.ty) + " " + AnnotationsText(p.annotations) + p.id
  }

  function ReceiverText(r: Receiver): string
  {
    TypeText(r.ty) + " " + Interleave(r.identifiers, ".", "", ".") + "this"
  }

  function ParamText(p: Param): string
  {
    match p
    case Param(mods, ty, id) => ModifiersText(mods) + TypeText(ty) + " " + VarDeclIdText(id)
    case Arity(mods, ty, anns, id) => ModifiersText(mods) + TypeText(ty) + " " + AnnotationsText(anns) + "... " + VarDeclIdText(id)
  }

  /** `visit_params`: the receiver, when there is one, and the parameters, comma-separated. */
  function ParamsText(ps: Params): string
  {
    var receiver := if ps.receiver.Some? then [ReceiverText(ps.receiver.value)] else [];
    Join(receiver + seq(|ps.parameters|, i requires 0 <= i < |ps.parameters| => ParamText(ps.parameters[i])), ", ")
  }

  function LambdaArgsText(a: LambdaArgs): string
  {
    match a
    case SingleArg(id) => id
    case ArgList(ids) => "(" + Join(ids, ", ") + ")"
    case FormalParams(ps) => "(" + ParamsText(ps) + ")"
  }

  /** `s` wrapped in parentheses when `wrap` holds. */
  function Parens(wrap: bool, s: string): string
  {
    if wrap then "(" + s + ")" else s
  }

  /** `visit(e)` with `e`'s context level `ctx`: the expression, parenthesised when the context demands it. */
  function Unparse(e: Expr, ctx: Prec): string
    decreases e, 1
  {
    Parens(NeedsParens(OwnLevel(e), ctx), Bare(e))
  }

  /** The items of `items_view(args)`: each argument in the default LAMBDA context. */
  function ArgTexts(args: seq<Expr>): (r: seq<string>)
    ensures |r| == |args|
    decreases args
  {
    seq(|args|, i requires 0 <= i < |args| => Unparse(args[i], LAMBDA))
  }

  /** The body of each expression visitor, inside any parentheses `require_parens` adds. */
  function Bare(e: Expr): string
    decreases e, 0
  {
    match e
    case Lambda(args, body) => LambdaArgsText(args) + " -> " + Unparse(body, LAMBDA)
    case Assign(target, op, value) =>
      Unparse(target, Next(ASSIGN)) + AssignOpText(op) + Unparse(value, ASSIGN)
    case IfExp(test, body, orelse) =>
      Unparse(test, Next(TERNARY)) + " ? " + Unparse(body, LAMBDA) + " : " + Unparse(orelse, LAMBDA)
    case BinOp(left, op, right) =>
      Unparse(left, BinOpLevel(op)) + " " + BinOpText(op) + " " + Unparse(right, Next(BinOpLevel(op)))
    case InstanceOf(value, target) =>
      Unparse(value, COMPARE) + " instanceof "
      + (match target
         case TypeTarget(ty) => TypeText(ty)
         case PatternTarget(p) => PatternText(p))
    case UnaryOp(op, operand) => UnaryText(op) + Unparse(operand, UNARY)
    case PostOp(operand, op) => Unparse(operand, POSTFIX) + PostText(op)
    case Cast(anns, bound, value) => "(" + AnnotationsText(anns) + TypeBoundText(bound) + ") " + Unparse(value, TYPE)
    case NewObject(targs, ty, args) =>
      "new" + OptTypeArgsText(targs) + " " + TypeText(ty) + "(" + Join(ArgTexts(args), ", ") + ")"
    case NewArray(ty, exprDims, dims, init) =>
      "new " + TypeText(ty) + Interleave(ArgTexts(exprDims), "][", "[", "]") + DimsText(dims)
      + (if init.Some? then " " + ArrayInitText(init.value) else "")
    case This => "this"
    case Super(targs, id) => "super" + (if Present(id) then "." + OptTypeArgsText(targs) + id.value else "")
    case Constant(lit) => LiteralText(lit)
    case Name(id) => id
    case ClassExpr(ty) => TypeText(ty) + ".class"
    case ExplicitGenericInvocation(targs, value) => TypeArgsText(targs) + Unparse(value, LAMBDA)
    case Subscript(value, index) => Unparse(value, PRIMARY) + "[" + Unparse(index, LAMBDA) + "]"
    case Member(value, member) => Unparse(value, PRIMARY) + "." + Unparse(member, LAMBDA)
    case Call(func, args) => Unparse(func, PRIMARY) + "(" + Join(ArgTexts(args), ", ") + ")"
    case Reference(target, targs, id, isNew) =>
      (match target
       case RefExpr(x) => Unparse(x, LAMBDA)
       case RefType(ty) => TypeText(ty))
      + "::" + OptTypeArgsText(targs) + (if id.Some? then id.value else "") + (if isNew then "new" else "")
    case Match(ty, id) => TypeText(ty) + " " + id
  }

  /** `visit_arrayinit`: the values between braces, comma-separated. */
  function ArrayInitText(a: ArrayInit): string
  {
    "{" + Join(seq(|a.values|, i requires 0 <= i < |a.values| => InitValueText(a.values[i])), ", ") + "}"
  }

  function InitValueText(v: InitValue): string
  {
    match v
    case InitExpr(x) => Unparse(x, LAMBDA)
    case InitArray(a) => ArrayInitText(a)
  }

  /** The conditions of a guarded pattern, each in the default LAMBDA context. */
  function ConditionTexts(g: GuardedPattern): (r: seq<string>)
    ensures |r| == |g.conditions|
  {
    seq(|g.conditions|, i requires 0 <= i < |g.conditions| => Unparse(g.conditions[i], LAMBDA))
  }

  /** `n` copies of `s`. */
  function Repeat(s: string, n: nat): string
  {
    if n == 0 then "" else s + Repeat(s, n - 1)
  }

  /**
   * `visit_guardedpattern`: one `(` for every condition but the last, the
   * pattern, then ` && ` and the conditions separated by `) && `.
   */
  function GuardedPatternText(g: GuardedPattern): string
  {
    var n := |g.conditions|;
    (if n > 0 then Repeat("(", n - 1) else "")
    + PatternText(g.value)
    + (if n > 0 then " && " else "")
    + Interleave(ConditionTexts(g), ") && ", "", "")
  }

  /** `unparse(e)`: the root is visited in the default LAMBDA context. */
  function UnparseExpr(e: Expr): string
  {
    Unparse(e, LAMBDA)
  }

  /** `visit_Import` with no indentation, as the first thing written. */
  function ImportText(isStatic: bool, name: QName, onDemand: bool): string
  {
    "import " + (if isStatic then "static " else "") + QNameText(name) + (if onDemand then ".*" else "") + ";"
  }
}

=== FILE: unparse_examples.dfy ===
/**
 * The exact strings the unparser's test suite expects for nested
 * expressions, derived from the model through the precedence lemmas.
 */
module UnparseExamples {
  import opened Wrappers
  import opened Text
  import opened Jast
  import opened Unparser
  import opened UnparseProps

  function Num(n: int): Expr
  {
    Constant(IntLiteral(n, false))
  }

  function Bool(b: bool): Expr
  {
    Constant(BoolLiteral(b))
  }

  function IntType(): TypeBound
  {
    TypeBound([], [Primitive(Int, [])])
  }

  lemma LeafTexts(s: string, l: Literal)
    ensures UnparseExpr(Name(s)) == s
    ensures UnparseExpr(Constant(l)) == LiteralText(l)
  {
    ContextOnlyWraps(Name(s), LAMBDA);
    ContextOnlyWraps(Constant(l), LAMBDA);
  }

  lemma DigitText(n: nat)
    requires n < 10
    ensures UnparseExpr(Num(n)) == [DigitChar(n)]
  {
    LeafTexts("", IntLiteral(n, false));
  }

  lemma FortyTwoText()
    ensures UnparseExpr(Num(42)) == "42"
  {
    assert NatToString(42) == NatToString(4) + [DigitChar(2)];
    LeafTexts("", IntLiteral(42, false));
  }

  lemma BoolText(b: bool)
    ensures UnparseExpr(Bool(b)) == if b then "true" else "false"
  {
    LeafTexts("", BoolLiteral(b));
  }

  /** Names and constants: the leaves of the examples, printed at the primary level. */
  predicate IsLeaf(e: Expr)
  {
    e.Name? || e.Constant?
  }

  // Each example below is proved once for arbitrary leaves with the given
  // texts (the `...Shape` lemma), then instantiated with the test's leaves.

  lemma {:induction false} AssignRightNestedShape(x: Expr, y: Expr, v: Expr)
    requires IsLeaf(x) && IsLeaf(y) && IsLeaf(v)
    requires UnparseExpr(x) == "x" && UnparseExpr(y) == "y" && UnparseExpr(v) == "42"
    ensures UnparseExpr(Assign(x, None, Assign(y, None, v))) == "x = y = 42"
  {
    AssignOperands(y, None, v);
    AssignOperands(x, None, Assign(y, None, v));
  }

  lemma AssignRightNested()
    ensures UnparseExpr(Assign(Name("x"), None, Assign(Name("y"), None, Num(42)))) == "x = y = 42"
  {
    LeafTexts("x", NullLiteral);
    LeafTexts("y", NullLiteral);
    FortyTwoText();
    AssignRightNestedShape(Name("x"), Name("y"), Num(42));
  }

  lemma {:induction false} AssignLeftNestedShape(x: Expr, y: Expr, v: Expr)
    requires IsLeaf(x) && IsLeaf(y) && IsLeaf(v)
    requires UnparseExpr(x) == "x" && UnparseExpr(y) == "y" && UnparseExpr(v) == "42"
    ensures UnparseExpr(Assign(Assign(x, None, y), None, v)) == "(x = y) = 42"
  {
    AssignOperands(x, None, y);
    AssignOperands(Assign(x, None, y), None, v);
  }

  lemma AssignLeftNested()
    ensures UnparseExpr(Assign(Assign(Name("x"), None, Name("y")), None, Num(42))) == "(x = y) = 42"
  {
    LeafTexts("x", NullLiteral);
    LeafTexts("y", NullLiteral);
    FortyTwoText();
    AssignLeftNestedShape(Name("x"), Name("y"), Num(42));
  }

  lemma {:induction false} AssignWithOperatorShape(x: Expr, v: Expr)
    requires IsLeaf(x) && IsLeaf(v)
    requires UnparseExpr(x) == "x" && UnparseExpr(v) == "42"
    ensures UnparseExpr(Assign(x, Some(Add), v)) == "x += 42"
    ensures UnparseExpr(Assign(x, Some(URShift), v)) == "x >>>= 42"
  {
    AssignOperands(x, Some(Add), v);
    AssignOperands(x, Some(URShift), v);
  }

  lemma AssignWithOperator()
    ensures UnparseExpr(Assign(Name("x"), Some(Add), Num(42))) == "x += 42"
    ensures UnparseExpr(Assign(Name("x"), Some(URShift), Num(42))) == "x >>>= 42"
  {
    LeafTexts("x", NullLiteral);
    FortyTwoText();
    AssignWithOperatorShape(Name("x"), Num(42));
  }

  lemma {:induction false} IfExpInBodyShape(t: Expr, f: Expr, a: Expr, b: Expr, c: Expr)
    requires IsLeaf(t) && IsLeaf(f) && IsLeaf(a) && IsLeaf(b) && IsLeaf(c)
    requires UnparseExpr(t) == "true" && UnparseExpr(f) == "false"
    requires UnparseExpr(a) == "42" && UnparseExpr(b) == "0" && UnparseExpr(c) == "1"
    ensures UnparseExpr(IfExp(t, IfExp(f, a, b), c)) == "true ? false ? 42 : 0 : 1"
  {
    IfExpOperands(f, a, b);
    IfExpOperands(t, IfExp(f, a, b), c);
  }

  lemma IfExpInBody()
    ensures UnparseExpr(IfExp(Bool(true), IfExp(Bool(false), Num(42), Num(0)), Num(1))) == "true ? false ? 42 : 0 : 1"
  {
    BoolText(true);
    BoolText(false);
    FortyTwoText();
    DigitText(0);
    DigitText(1);
    IfExpInBodyShape(Bool(true), Bool(false), Num(42), Num(0), Num(1));
  }

  lemma {:induction false} IfExpInElseShape(t: Expr, a: Expr, f: Expr, b: Expr, c: Expr)
    requires IsLeaf(t) && IsLeaf(a) && IsLeaf(f) && IsLeaf(b) && IsLeaf(c)
    requires UnparseExpr(t) == "true" && UnparseExpr(f) == "false"
    requires UnparseExpr(a) == "42" && UnparseExpr(b) == "0" && UnparseExpr(c) == "1"
    ensures UnparseExpr(IfExp(t, a, IfExp(f, b, c))) == "true ? 42 : false ? 0 : 1"
  {
    IfExpOperands(f, b, c);
    IfExpOperands(t, a, IfExp(f, b, c));
  }

  lemma IfExpInElse()
    ensures UnparseExpr(IfExp(Bool(true), Num(42), IfExp(Bool(false), Num(0), Num(1)))) == "true ? 42 : false ? 0 : 1"
  {
    BoolText(true);
    BoolText(false);
    FortyTwoText();
    DigitText(0);
    DigitText(1);
    IfExpInElseShape(Bool(true), Num(42), Bool(false), Num(0), Num(1));
  }

  lemma {:induction false} IfExpInTestShape(t: Expr, a: Expr, b: Expr, c: Expr, d: Expr)
    requires IsLeaf(t) && IsLeaf(a) && IsLeaf(b) && IsLeaf(c) && IsLeaf(d)
    requires UnparseExpr(t) == "true" && UnparseExpr(a) == "42" && UnparseExpr(b) == "0"
    requires UnparseExpr(c) == "1" && UnparseExpr(d) == "2"
    ensures UnparseExpr(IfExp(IfExp(t, a, b), c, d)) == "(true ? 42 : 0) ? 1 : 2"
  {
    IfExpOperands(t, a, b);
    IfExpOperands(IfExp(t, a, b), c, d);
  }

  lemma IfExpInTest()
    ensures UnparseExpr(IfExp(IfExp(Bool(true), Num(42), Num(0)), Num(1), Num(2))) == "(true ? 42 : 0) ? 1 : 2"
  {
    BoolText(true);
    FortyTwoText();
    DigitText(0);
    DigitText(1);
    DigitText(2);
    IfExpInTestShape(Bool(true), Num(42), Num(0), Num(1), Num(2));
  }

  lemma {:induction false} SubtractionLeftShape(a: Expr, b: Expr, c: Expr)
    requires IsLeaf(a) && IsLeaf(b) && IsLeaf(c)
    requires UnparseExpr(a) == "1" && UnparseExpr(b) == "2" && UnparseExpr(c) == "3"
    ensures UnparseExpr(BinOp(BinOp(a, Sub, b), Sub, c)) == "1 - 2 - 3"
  {
    BinOpOperands(a, Sub, b);
    BinOpOperands(BinOp(a, Sub, b), Sub, c);
  }

  lemma {:induction false} SubtractionRightShape(a: Expr, b: Expr, c: Expr)
    requires IsLeaf(a) && IsLeaf(b) && IsLeaf(c)
    requires UnparseExpr(a) == "1" && UnparseExpr(b) == "2" && UnparseExpr(c) == "3"
    ensures UnparseExpr(BinOp(a, Sub, BinOp(b, Sub, c))) == "1 - (2 - 3)"
  {
    BinOpOperands(b, Sub, c);
    BinOpOperands(a, Sub, BinOp(b, Sub, c));
  }

  lemma SubtractionNesting()
    ensures UnparseExpr(BinOp(BinOp(Num(1), Sub, Num(2)), Sub, Num(3))) == "1 - 2 - 3"
    ensures UnparseExpr(BinOp(Num(1), Sub, BinOp(Num(2), Sub, Num(3)))) == "1 - (2 - 3)"
  {
    DigitText(1);
    DigitText(2);
    DigitText(3);
    SubtractionLeftShape(Num(1), Num(2), Num(3));
    SubtractionRightShape(Num(1), Num(2), Num(3));
  }

  lemma {:induction false} TighterRightShape(a: Expr, b: Expr, c: Expr)
    requires IsLeaf(a) && IsLeaf(b) && IsLeaf(c)
    requires UnparseExpr(a) == "1" && UnparseExpr(b) == "2" && UnparseExpr(c) == "3"
    ensures UnparseExpr(BinOp(a, Add, BinOp(b, Mult, c))) == "1 + 2 * 3"
  {
    BinOpOperands(b, Mult, c);
    BinOpOperands(a, Add, BinOp(b, Mult, c));
  }

  lemma {:induction false} LooserLeftShape(a: Expr, b: Expr, c: Expr)
    requires IsLeaf(a) && IsLeaf(b) && IsLeaf(c)
    requires UnparseExpr(a) == "1" && UnparseExpr(b) == "2" && UnparseExpr(c) == "3"
    ensures UnparseExpr(BinOp(BinOp(a, Add, b), Mult, c)) == "(1 + 2) * 3"
  {
    BinOpOperands(a, Add, b);
    BinOpOperands(BinOp(a, Add, b), Mult, c);
  }

  lemma MixedLevels()
    ensures UnparseExpr(BinOp(Num(1), Add, BinOp(Num(2), Mult, Num(3)))) == "1 + 2 * 3"
    ensures UnparseExpr(BinOp(BinOp(Num(1), Add, Num(2)), Mult, Num(3))) == "(1 + 2) * 3"
  {
    DigitText(1);
    DigitText(2);
    DigitText(3);
    TighterRightShape(Num(1), Num(2), Num(3));
    LooserLeftShape(Num(1), Num(2), Num(3));
  }

  lemma {:induction false} UnaryAndProductShape(x: Expr, y: Expr)
    requires IsLeaf(x) && IsLeaf(y)
    requires UnparseExpr(x) == "x" && UnparseExpr(y) == "y"
    ensures UnparseExpr(UnaryOp(USub, BinOp(x, Mult, y))) == "-(x * y)"
    ensures UnparseExpr(BinOp(UnaryOp(USub, x), Mult, y)) == "-x * y"
  {
    BinOpOperands(x, Mult, y);
    UnaryOperand(USub, BinOp(x, Mult, y));
    UnaryOperand(USub, x);
    BinOpOperands(UnaryOp(USub, x), Mult, y);
  }

  lemma UnaryAndProduct()
    ensures UnparseExpr(UnaryOp(USub, BinOp(Name("x"), Mult, Name("y")))) == "-(x * y)"
    ensures UnparseExpr(BinOp(UnaryOp(USub, Name("x")), Mult, Name("y"))) == "-x * y"
  {
    LeafTexts("x", NullLiteral);
    LeafTexts("y", NullLiteral);
    UnaryAndProductShape(Name("x"), Name("y"));
  }

  lemma PrimitiveBoundText(k: PrimitiveKind)
    ensures TypeBoundText(TypeBound([], [Primitive(k, [])])) == PrimitiveText(k)
  {
    var ts := seq(1, i requires 0 <= i < 1 => TypeText([Primitive(k, [])][i]));
    assert ts == [PrimitiveText(k)];
    assert Join(ts, " & ") == PrimitiveText(k);
  }

  lemma {:induction false} CastOfUnaryShape(x: Expr, i: TypeBound)
    requires IsLeaf(x) && UnparseExpr(x) == "x" && TypeBoundText(i) == "int"
    ensures UnparseExpr(Cast([], i, UnaryOp(USub, x))) == "(int) -x"
  {
    UnaryOperand(USub, x);
    CastOperand([], i, UnaryOp(USub, x));
  }

  lemma {:induction false} UnaryOfCastShape(x: Expr, i: TypeBound)
    requires IsLeaf(x) && UnparseExpr(x) == "x" && TypeBoundText(i) == "int"
    ensures UnparseExpr(UnaryOp(USub, Cast([], i, x))) == "-((int) x)"
  {
    CastOperand([], i, x);
    UnaryOperand(USub, Cast([], i, x));
  }

  lemma {:induction false} CastOfCastShape(x: Expr, i: TypeBound, l: TypeBound)
    requires IsLeaf(x) && UnparseExpr(x) == "x" && TypeBoundText(i) == "int" && TypeBoundText(l) == "long"
    ensures UnparseExpr(Cast([], i, Cast([], l, x))) == "(int) (long) x"
  {
    CastOperand([], l, x);
    CastOperand([], i, Cast([], l, x));
  }

  lemma Casts()
    ensures UnparseExpr(Cast([], IntType(), UnaryOp(USub, Name("x")))) == "(int) -x"
    ensures UnparseExpr(UnaryOp(USub, Cast([], IntType(), Name("x")))) == "-((int) x)"
    ensures UnparseExpr(Cast([], IntType(), Cast([], TypeBound([], [Primitive(Long, [])]), Name("x")))) == "(int) (long) x"
  {
    PrimitiveBoundText(Int);
    PrimitiveBoundText(Long);
    LeafTexts("x", NullLiteral);
    CastOfUnaryShape(Name("x"), IntType());
    UnaryOfCastShape(Name("x"), IntType());
    CastOfCastShape(Name("x"), IntType(), TypeBound([], [Primitive(Long, [])]));
  }

  lemma {:induction false} PostfixAndMemberShape(x: Expr, y: Expr)
    requires IsLeaf(x) && IsLeaf(y)
    requires UnparseExpr(x) == "x" && UnparseExpr(y) == "y"
    ensures UnparseExpr(PostOp(UnaryOp(UAdd, x), PostInc)) == "(+x)++"
    ensures UnparseExpr(Member(UnaryOp(PreInc, x), y)) == "(++x).y"
    ensures UnparseExpr(UnaryOp(PreInc, Member(x, y))) == "++x.y"
  {
    UnaryOperand(UAdd, x);
    PostfixOperand(UnaryOp(UAdd, x), PostInc);
    UnaryOperand(PreInc, x);
    PrimaryOperand(UnaryOp(PreInc, x), y, [], y);
    PrimaryOperand(x, y, [], y);
    UnaryOperand(PreInc, Member(x, y));
  }

  lemma PostfixAndMember()
    ensures UnparseExpr(PostOp(UnaryOp(UAdd, Name("x")), PostInc)) == "(+x)++"
    ensures UnparseExpr(Member(UnaryOp(PreInc, Name("x")), Name("y"))) == "(++x).y"
    ensures UnparseExpr(UnaryOp(PreInc, Member(Name("x"), Name("y")))) == "++x.y"
  {
    LeafTexts("x", NullLiteral);
    LeafTexts("y", NullLiteral);
    PostfixAndMemberShape(Name("x"), Name("y"));
  }

  lemma {:induction false} DoubleMinusShape(v: Expr)
    requires IsLeaf(v) && UnparseExpr(v) == "42"
    ensures UnparseExpr(UnaryOp(USub, UnaryOp(USub, v))) == "--42"
  {
    UnaryOperand(USub, v);
    UnaryOperand(USub, UnaryOp(USub, v));
  }

  /** Two minus signs nest bare, so the text reads like a decrement; the tests expect exactly this. */
  lemma DoubleMinus()
    ensures UnparseExpr(UnaryOp(USub, UnaryOp(USub, Num(42)))) == "--42"
  {
    FortyTwoText();
    DoubleMinusShape(Num(42));
  }

  /** Two conditions: one opening parenthesis, closed before the second condition. */
  lemma GuardedTwoConditions(g: GuardedPattern)
    requires |g.conditions| == 2
    ensures GuardedPatternText(g) == "(" + PatternText(g.value) + " && " + ConditionTexts(g)[0] + ") && " + ConditionTexts(g)[1]
  {
    var cs := ConditionTexts(g);
    assert Join(cs[1..], ") && ") == cs[1];
    assert Repeat("(", 1) == "(";
  }

  lemma {:induction false} GuardedPatternShape(g: GuardedPattern)
    requires PatternText(g.value) == "int bar" && ConditionTexts(g) == ["true", "42"]
    ensures GuardedPatternText(g) == "(int bar && true) && 42"
  {
    GuardedTwoConditions(g);
  }

  lemma GuardedPatternExample()
    ensures GuardedPatternText(GuardedPattern(Pattern([], Primitive(Int, []), [], "bar"), [Bool(true), Num(42)])) == "(int bar && true) && 42"
  {
    IntBarText();
    ExampleConditions();
    GuardedPatternShape(GuardedPattern(Pattern([], Primitive(Int, []), [], "bar"), [Bool(true), Num(42)]));
  }

  lemma IntBarText()
    ensures PatternText(Pattern([], Primitive(Int, []), [], "bar")) == "int bar"
  {
  }

  lemma ExampleConditions()
    ensures ConditionTexts(GuardedPattern(Pattern([], Primitive(Int, []), [], "bar"), [Bool(true), Num(42)])) == ["true", "42"]
  {
    BoolText(true);
    FortyTwoText();
  }

  lemma {:induction false} GuardedPatternWithoutConditions()
    ensures GuardedPatternText(GuardedPattern(Pattern([], Primitive(Int, []), [], "bar"), [])) == "int bar"
  {
    assert PatternText(Pattern([], Primitive(Int, []), [], "bar")) == "int bar";
  }

  /** `import static foo.bar;` and `import foo.*;`. */
  lemma ImportExamples()
    ensures ImportText(true, QName(["foo", "bar"]), false) == "import static foo.bar;"
    ensures ImportText(false, QName(["foo"]), true) == "import foo.*;"
  {
    StaticFooBarName();
    FooName();
    ImportShape(QName(["foo", "bar"]), QName(["foo"]));
  }

  lemma {:induction false} ImportShape(q: QName, r: QName)
    requires QNameText(q) == "foo.bar" && QNameText(r) == "foo"
    ensures ImportText(true, q, false) == "import static foo.bar;"
    ensures ImportText(false, r, true) == "import foo.*;"
  {
  }

  lemma StaticFooBarName()
    ensures QNameText(QName(["foo", "bar"])) == "foo.bar"
  {
    assert Join(["foo", "bar"], ".") == "foo.bar";
  }

  lemma FooName()
    ensures QNameText(QName(["foo"])) == "foo"
  {
    assert Join(["foo"], ".") == "foo";
  }
}

=== FILE: unparse_props.dfy ===
/**
 * The precedence rules the unparser encodes, each stated against the own
 * levels of the operands: which operands come out parenthesised, which come
 * out bare, and the exact strings of the unparser's test cases.
 */
module UnparseProps {
  import opened Wrappers
  import opened Text
  import opened Jast
  import opened Unparser

  /**
   * An expression in context `ctx` is its root rendering, parenthesised
   * exactly when `ctx` exceeds its own level; at the root (context LAMBDA)
   * nothing is parenthesised.
   */
  lemma ContextOnlyWraps(e: Expr, ctx: Prec)
    ensures Unparse(e, ctx) == Parens(ctx > OwnLevel(e), UnparseExpr(e))
    ensures UnparseExpr(e) == Bare(e)
  {
  }

  /** The text of `e` in context `ctx` is its root text in parentheses. */
  predicate Wrapped(e: Expr, ctx: Prec)
  {
    Unparse(e, ctx) == "(" + UnparseExpr(e) + ")"
  }

  /**
   * Parenthesising is monotone in the context: an expression wrapped in
   * some context is wrapped in every greater one, an expression left bare
   * is left bare in every smaller one, and in each context it is exactly
   * one of the two.
   */
  lemma WrapMonotone(e: Expr, lo: Prec, hi: Prec)
    requires lo <= hi
    ensures Wrapped(e, lo) ==> Wrapped(e, hi)
    ensures Unparse(e, hi) == UnparseExpr(e) ==> Unparse(e, lo) == UnparseExpr(e)
    ensures Wrapped(e, hi) <==> Unparse(e, hi) != UnparseExpr(e)
  {
    var s := UnparseExpr(e);
    assert |"(" + s + ")"| == |s| + 2;
    ContextOnlyWraps(e, lo);
    ContextOnlyWraps(e, hi);
  }

  /** `e` in context `ctx` when it is bare, `(e)` otherwise. */
  function Operand(e: Expr, wrap: bool): string
  {
    Parens(wrap, UnparseExpr(e))
  }

  /**
   * `visit_BinOp`: the left operand is parenthesised iff it binds strictly
   * looser than the operator, the right one iff it binds no tighter than
   * the operator. Binary operators are therefore left-associative.
   */
  lemma BinOpOperands(l: Expr, op: BinaryOp, r: Expr)
    ensures UnparseExpr(BinOp(l, op, r))
         == Operand(l, OwnLevel(l) < BinOpLevel(op)) + " " + BinOpText(op) + " " + Operand(r, OwnLevel(r) <= BinOpLevel(op))
  {
    var e := BinOp(l, op, r);
    ContextOnlyWraps(e, LAMBDA);
    ContextOnlyWraps(l, BinOpLevel(op));
    ContextOnlyWraps(r, Next(BinOpLevel(op)));
    assert Bare(e) == Unparse(l, BinOpLevel(op)) + " " + BinOpText(op) + " " + Unparse(r, Next(BinOpLevel(op)));
  }

  /** Two operators of one level nest to the left bare and to the right parenthesised: `1 - 2 - 3` vs `1 - (2 - 3)`. */
  lemma BinOpLeftAssociative(a: Expr, o1: BinaryOp, b: Expr, o2: BinaryOp, c: Expr)
    requires BinOpLevel(o1) == BinOpLevel(o2)
    ensures UnparseExpr(BinOp(BinOp(a, o1, b), o2, c)) == UnparseExpr(BinOp(a, o1, b)) + " " + BinOpText(o2) + " " + Operand(c, OwnLevel(c) <= BinOpLevel(o2))
    ensures UnparseExpr(BinOp(a, o1, BinOp(b, o2, c))) == Operand(a, OwnLevel(a) < BinOpLevel(o1)) + " " + BinOpText(o1) + " (" + UnparseExpr(BinOp(b, o2, c)) + ")"
  {
    BinOpOperands(BinOp(a, o1, b), o2, c);
    BinOpOperands(a, o1, BinOp(b, o2, c));
  }

  /** A strictly tighter right operand is bare (`1 + 2 * 3`); a strictly looser left operand is parenthesised (`(1 + 2) * 3`). */
  lemma BinOpTighterLooser(a: Expr, o1: BinaryOp, b: Expr, o2: BinaryOp, c: Expr)
    requires BinOpLevel(o1) < BinOpLevel(o2)
    ensures UnparseExpr(BinOp(a, o1, BinOp(b, o2, c))) == Operand(a, OwnLevel(a) < BinOpLevel(o1)) + " " + BinOpText(o1) + " " + UnparseExpr(BinOp(b, o2, c))
    ensures UnparseExpr(BinOp(BinOp(a, o1, b), o2, c)) == "(" + UnparseExpr(BinOp(a, o1, b)) + ") " + BinOpText(o2) + " " + Operand(c, OwnLevel(c) <= BinOpLevel(o2))
  {
    BinOpOperands(a, o1, BinOp(b, o2, c));
    BinOpOperands(BinOp(a, o1, b), o2, c);
  }

  /**
   * `visit_Assign`: the target is parenthesised iff it is a lambda or an
   * assignment, the value only if it is a lambda, so assignment is
   * right-associative.
   */
  lemma AssignOperands(t: Expr, op: Option<BinaryOp>, v: Expr)
    ensures UnparseExpr(Assign(t, op, v)) == Operand(t, t.Lambda? || t.Assign?) + AssignOpText(op) + Operand(v, v.Lambda?)
  {
    var e := Assign(t, op, v);
    ContextOnlyWraps(e, LAMBDA);
    assert Bare(e) == Unparse(t, Next(ASSIGN)) + AssignOpText(op) + Unparse(v, ASSIGN);
    ContextOnlyWraps(t, Next(ASSIGN));
    ContextOnlyWraps(v, ASSIGN);
    BelowAssignLevels(t, v);
  }

  /** Only lambdas and assignments are looser than TERNARY, and only lambdas looser than ASSIGN. */
  lemma BelowAssignLevels(t: Expr, v: Expr)
    ensures Next(ASSIGN) > OwnLevel(t) <==> t.Lambda? || t.Assign?
    ensures ASSIGN > OwnLevel(v) <==> v.Lambda?
  {
  }

  /**
   * `visit_IfExp`: only the test is ever parenthesised, and only when it is
   * a conditional, an assignment or a lambda; body and else branch are
   * always bare.
   */
  lemma IfExpOperands(t: Expr, b: Expr, o: Expr)
    ensures UnparseExpr(IfExp(t, b, o)) == Operand(t, t.Lambda? || t.Assign? || t.IfExp?) + " ? " + UnparseExpr(b) + " : " + UnparseExpr(o)
  {
    var e := IfExp(t, b, o);
    ContextOnlyWraps(e, LAMBDA);
    assert Bare(e) == Unparse(t, Next(TERNARY)) + " ? " + UnparseExpr(b) + " : " + UnparseExpr(o);
    ContextOnlyWraps(t, Next(TERNARY));
    BelowTernaryLevel(t);
  }

  /** Only lambdas, assignments and conditionals are looser than the level above TERNARY. */
  lemma BelowTernaryLevel(t: Expr)
    ensures Next(TERNARY) > OwnLevel(t) <==> t.Lambda? || t.Assign? || t.IfExp?
  {
  }

  /** Whether an expression's own level is one of the binary-operator levels or lower. */
  predicate LooserThanType(e: Expr)
  {
    OwnLevel(e) < TYPE
  }

  /**
   * The operand of a prefix operator is parenthesised iff its own level is
   * below UNARY: `-(x * y)`, `-((int) x)`, but `- -x` nests bare as `--x`.
   */
  lemma UnaryOperand(op: UnaryOperator, x: Expr)
    ensures UnparseExpr(UnaryOp(op, x)) == UnaryText(op) + Operand(x, OwnLevel(x) < UNARY)
    ensures OwnLevel(x) < UNARY <==> LooserThanType(x) || x.NewObject? || x.NewArray? || x.Cast?
  {
    UnaryOperandText(op, x);
    BelowUnary(x);
  }

  lemma UnaryOperandText(op: UnaryOperator, x: Expr)
    ensures UnparseExpr(UnaryOp(op, x)) == UnaryText(op) + Operand(x, OwnLevel(x) < UNARY)
  {
    var e := UnaryOp(op, x);
    ContextOnlyWraps(e, LAMBDA);
    ContextOnlyWraps(x, UNARY);
    assert Bare(e) == UnaryText(op) + Unparse(x, UNARY);
  }

  /** The levels below UNARY: the binary-operator levels and below, and TYPE. */
  lemma BelowUnary(x: Expr)
    ensures OwnLevel(x) < UNARY <==> LooserThanType(x) || x.NewObject? || x.NewArray? || x.Cast?
  {
  }

  /** The operand of a postfix operator is parenthesised iff its own level is below POSTFIX: `(+x)++`. */
  lemma PostfixOperand(x: Expr, op: PostOperator)
    ensures UnparseExpr(PostOp(x, op)) == Operand(x, OwnLevel(x) < POSTFIX) + PostText(op)
    ensures OwnLevel(x) < POSTFIX <==> OwnLevel(x) < UNARY || x.UnaryOp?
  {
    var e := PostOp(x, op);
    ContextOnlyWraps(e, LAMBDA);
    ContextOnlyWraps(x, POSTFIX);
    assert Bare(e) == Unparse(x, POSTFIX) + PostText(op);
  }

  /** The value of a cast is parenthesised iff it binds looser than a cast: `(int) (x * y)`, but `(int) (long) x` and `(int) -x`. */
  lemma CastOperand(anns: seq<Modifier>, b: TypeBound, x: Expr)
    ensures UnparseExpr(Cast(anns, b, x)) == "(" + AnnotationsText(anns) + TypeBoundText(b) + ") " + Operand(x, LooserThanType(x))
  {
    var e := Cast(anns, b, x);
    ContextOnlyWraps(e, LAMBDA);
    ContextOnlyWraps(x, TYPE);
    assert Bare(e) == "(" + AnnotationsText(anns) + TypeBoundText(b) + ") " + Unparse(x, TYPE);
  }

  /**
   * The object of a member access, call or subscript is parenthesised iff
   * it is not a primary expression: `(++x).y`, but `x.y.z`.
   */
  lemma PrimaryOperand(x: Expr, m: Expr, args: seq<Expr>, i: Expr)
    ensures UnparseExpr(Member(x, m)) == Operand(x, OwnLevel(x) < PRIMARY) + "." + UnparseExpr(m)
    ensures UnparseExpr(Call(x, args)) == Operand(x, OwnLevel(x) < PRIMARY) + "(" + Join(ArgTexts(args), ", ") + ")"
    ensures UnparseExpr(Subscript(x, i)) == Operand(x, OwnLevel(x) < PRIMARY) + "[" + UnparseExpr(i) + "]"
  {
    MemberOperand(x, m);
    CallOperand(x, args);
    SubscriptOperand(x, i);
  }

  lemma MemberOperand(x: Expr, m: Expr)
    ensures UnparseExpr(Member(x, m)) == Operand(x, OwnLevel(x) < PRIMARY) + "." + UnparseExpr(m)
  {
    ContextOnlyWraps(x, PRIMARY);
    ContextOnlyWraps(m, LAMBDA);
    ContextOnlyWraps(Member(x, m), LAMBDA);
    assert Bare(Member(x, m)) == Unparse(x, PRIMARY) + "." + Unparse(m, LAMBDA);
  }

  lemma CallOperand(x: Expr, args: seq<Expr>)
    ensures UnparseExpr(Call(x, args)) == Operand(x, OwnLevel(x) < PRIMARY) + "(" + Join(ArgTexts(args), ", ") + ")"
  {
    ContextOnlyWraps(x, PRIMARY);
    ContextOnlyWraps(Call(x, args), LAMBDA);
    assert Bare(Call(x, args)) == Unparse(x, PRIMARY) + "(" + Join(ArgTexts(args), ", ") + ")";
  }

  lemma SubscriptOperand(x: Expr, i: Expr)
    ensures UnparseExpr(Subscript(x, i)) == Operand(x, OwnLevel(x) < PRIMARY) + "[" + UnparseExpr(i) + "]"
  {
    ContextOnlyWraps(x, PRIMARY);
    ContextOnlyWraps(i, LAMBDA);
    ContextOnlyWraps(Subscript(x, i), LAMBDA);
    assert Bare(Subscript(x, i)) == Unparse(x, PRIMARY) + "[" + Unparse(i, LAMBDA) + "]";
  }

  lemma {:induction false} RepeatCount(s: string, n: nat, c: char)
    ensures Count(Repeat(s, n), c) == n * Count(s, c)
    decreases n
  {
    if n > 0 {
      RepeatCount(s, n - 1, c);
      CountAppend(s, Repeat(s, n - 1), c);
    }
  }

  /**
   * `visit_guardedpattern` with n >= 1 conditions writes n - 1 opening and
   * n - 1 closing parentheses of its own, besides those inside the pattern
   * and the conditions: one `(` per condition but the last, and one `)`
   * per `) && ` separator.
   */
  lemma GuardedPatternParens(g: GuardedPattern)
    requires |g.conditions| > 0
    ensures Count(GuardedPatternText(g), '(') == |g.conditions| - 1 + Count(PatternText(g.value), '(') + CountAll(ConditionTexts(g), '(')
    ensures Count(GuardedPatternText(g), ')') == |g.conditions| - 1 + Count(PatternText(g.value), ')') + CountAll(ConditionTexts(g), ')')
  {
    GuardedPatternOpens(g);
    GuardedPatternPieces(g, ')');
    OpeningRunCount(|g.conditions| - 1);
    JoinedConditionsCount(ConditionTexts(g));
    assert Count(" && ", ')') == 0;
  }

  lemma {:induction false} GuardedPatternOpens(g: GuardedPattern)
    requires |g.conditions| > 0
    ensures Count(GuardedPatternText(g), '(') == |g.conditions| - 1 + Count(PatternText(g.value), '(') + CountAll(ConditionTexts(g), '(')
  {
    GuardedPatternPieces(g, '(');
    OpeningRunCount(|g.conditions| - 1);
    JoinedConditionsCount(ConditionTexts(g));
    assert Count(" && ", '(') == 0;
  }

  /** The run of opening parentheses holds exactly `k` of them and no closing one. */
  lemma OpeningRunCount(k: nat)
    ensures Count(Repeat("(", k), '(') == k && Count(Repeat("(", k), ')') == 0
  {
    RepeatCount("(", k, '(');
    RepeatCount("(", k, ')');
    assert Count("(", '(') == 1 && Count("(", ')') == 0;
  }

  /** Joining the conditions adds one closing parenthesis per separator and no opening one. */
  lemma {:induction false} JoinedConditionsCount(items: seq<string>)
    requires |items| > 0
    ensures Count(Join(items, ") && "), '(') == CountAll(items, '(')
    ensures Count(Join(items, ") && "), ')') == CountAll(items, ')') + |items| - 1
    decreases |items|
  {
    if |items| == 1 {
      assert CountAll(items[1..], '(') == 0 && CountAll(items[1..], ')') == 0;
    } else {
      var head := items[0] + ") && ";
      JoinedConditionsCount(items[1..]);
      SeparatorCount(items[0]);
      CountAppend(head, Join(items[1..], ") && "), '(');
      CountAppend(head, Join(items[1..], ") && "), ')');
    }
  }

  lemma SeparatorCount(s: string)
    ensures Count(s + ") && ", '(') == Count(s, '(')
    ensures Count(s + ") && ", ')') == Count(s, ')') + 1
  {
    CountAppend(s, ") && ", '(');
    CountAppend(s, ") && ", ')');
    assert Count(") && ", '(') == 0 && Count(") && ", ')') == 1;
  }

  /** Any character's count in a guarded pattern with conditions, piece by piece. */
  lemma GuardedPatternPieces(g: GuardedPattern, c: char)
    requires |g.conditions| > 0
    ensures Count(GuardedPatternText(g), c)
         == Count(Repeat("(", |g.conditions| - 1), c) + Count(PatternText(g.value), c) + Count(" && ", c) + Count(Join(ConditionTexts(g), ") && "), c)
  {
    var opens := Repeat("(", |g.conditions| - 1);
    var p := PatternText(g.value);
    var joined := Join(ConditionTexts(g), ") && ");
    assert GuardedPatternText(g) == opens + p + " && " + joined;
    CountAppend(opens, p, c);
    CountAppend(opens + p, " && ", c);
    CountAppend(opens + p + " && ", joined, c);
  }

  /** With no conditions a guarded pattern is just its pattern. */
  lemma GuardedPatternNoConditions(g: GuardedPattern)
    requires |g.conditions| == 0
    ensures GuardedPatternText(g) == PatternText(g.value)
  {
  }
}

=== FILE: visitors.dfy ===
/**
 * `src/jast/_visitors.py`: the result-folding visitor and the rewriting
 * transformers, over the generic node view of `Tree`.
 *
 * A subclass's `visit_<Class>` methods are given as a set of overridden class
 * names and one pure hook. The hook also receives what `generic_visit` would
 * produce for the node, so an override may use the children's results or
 * ignore them. Hooks are pure: the in-place transformer and the copying one
 * compute the same tree, and the model cannot express a hook that mutates
 * the node it is given.
 */
module Visitors {
  import opened Wrappers
  import opened Tree

  // ---------------------------------------------------------------------
  // JNodeVisitor
  // ---------------------------------------------------------------------

  /**
   * A `JNodeVisitor` subclass: `default_result()`, `aggregate_result` and
   * the `visit_<Class>` overrides.
   */
  datatype Visitor<!R> = Visitor(default: R, aggregate: (R, R) -> R, overrides: set<string>, hook: (Node, R) -> R)

  /** `visit`: the override for the node's class if there is one, else `generic_visit`. */
  function Visit<R>(v: Visitor<R>, n: Node): (r: R)
    ensures n.kind !in v.overrides ==> r == GenericVisit(v, n)
    ensures n.kind in v.overrides ==> r == v.hook(n, GenericVisit(v, n))
    decreases n, 1
  {
    if n.kind in v.overrides then v.hook(n, GenericVisit(v, n)) else GenericVisit(v, n)
  }

  /** `generic_visit`: fold `aggregate_result` over the fields, starting from `default_result()`. */
  function GenericVisit<R>(v: Visitor<R>, n: Node): R
    decreases n, 0
  {
    VisitSlots(v, n.fields, v.default)
  }

  function VisitSlots<R>(v: Visitor<R>, slots: seq<Slot>, acc: R): R
    decreases slots
  {
    if |slots| == 0 then acc else VisitSlots(v, slots[1..], VisitChild(v, slots[0].child, acc))
  }

  function VisitChild<R>(v: Visitor<R>, c: Child, acc: R): R
    decreases c
  {
    match c
    case One(m) => v.aggregate(acc, Visit(v, m))
    case Many(ms) => VisitItems(v, ms, acc)
  }

  /** The fold over a list of nodes, in list order. */
  function VisitItems<R>(v: Visitor<R>, ms: seq<Node>, acc: R): R
    decreases ms
  {
    if |ms| == 0 then acc else VisitItems(v, ms[1..], v.aggregate(acc, Visit(v, ms[0])))
  }

  lemma {:induction false} VisitItemsAppend<R>(v: Visitor<R>, a: seq<Node>, b: seq<Node>, acc: R)
    ensures VisitItems(v, a + b, acc) == VisitItems(v, b, VisitItems(v, a, acc))
    decreases |a|
  {
    if |a| > 0 {
      assert (a + b)[0] == a[0];
      assert (a + b)[1..] == a[1..] + b;
      VisitItemsAppend(v, a[1..], b, v.aggregate(acc, Visit(v, a[0])));
    } else {
      assert a + b == b;
    }
  }

  /**
   * `generic_visit` is one left fold over the node's children, all fields
   * flattened in order: field boundaries do not matter.
   */
  lemma {:induction false} VisitSlotsIsFold<R>(v: Visitor<R>, slots: seq<Slot>, acc: R)
    ensures VisitSlots(v, slots, acc) == VisitItems(v, Children(slots), acc)
    decreases |slots|
  {
    if |slots| > 0 {
      var c := slots[0].child;
      assert VisitChild(v, c, acc) == VisitItems(v, ChildNodes(c), acc) by {
        if c.One? {
          assert VisitItems(v, [c.node], acc) == VisitItems(v, [], v.aggregate(acc, Visit(v, c.node)));
        }
      }
      VisitSlotsIsFold(v, slots[1..], VisitChild(v, c, acc));
      VisitItemsAppend(v, ChildNodes(c), Children(slots[1..]), acc);
    }
  }

  lemma GenericVisitIsFold<R>(v: Visitor<R>, n: Node)
    ensures GenericVisit(v, n) == VisitItems(v, Children(n.fields), v.default)
  {
    VisitSlotsIsFold(v, n.fields, v.default);
  }

  // ---------------------------------------------------------------------
  // The default hooks
  // ---------------------------------------------------------------------

  /** A visitor keeping the base class's hooks: `default_result()` is `None`, `aggregate_result` keeps the new result. */
  function BaseVisitor<X(!new)>(overrides: set<string>, hook: (Node, Option<X>) -> Option<X>): (v: Visitor<Option<X>>)
    ensures v.default == None && v.overrides == overrides
    ensures forall a, r :: v.aggregate(a, r) == r
  {
    Visitor(None, (a: Option<X>, r: Option<X>) => r, overrides, hook)
  }

  lemma {:induction false} VisitItemsKeepsLast<R>(v: Visitor<R>, ms: seq<Node>, acc: R)
    requires forall a, r :: v.aggregate(a, r) == r
    ensures |ms| == 0 ==> VisitItems(v, ms, acc) == acc
    ensures |ms| > 0 ==> VisitItems(v, ms, acc) == Visit(v, ms[|ms| - 1])
    decreases |ms|
  {
    if |ms| > 1 {
      VisitItemsKeepsLast(v, ms[1..], v.aggregate(acc, Visit(v, ms[0])));
    }
  }

  /**
   * With the default hooks, `generic_visit` returns the result of the last
   * child it visited, or `default_result()` for a node with no children.
   */
  lemma GenericVisitIsLastChild<R>(v: Visitor<R>, n: Node)
    requires forall a, r :: v.aggregate(a, r) == r
    ensures |Children(n.fields)| == 0 ==> GenericVisit(v, n) == v.default
    ensures |Children(n.fields)| > 0 ==>
              GenericVisit(v, n) == Visit(v, Children(n.fields)[|Children(n.fields)| - 1])
  {
    GenericVisitIsFold(v, n);
    VisitItemsKeepsLast(v, Children(n.fields), v.default);
  }

  /** The base visitor with no overrides returns `None` for every tree. */
  lemma {:induction false} BaseVisitorReturnsNone<X(!new)>(hook: (Node, Option<X>) -> Option<X>, n: Node)
    ensures Visit(BaseVisitor({}, hook), n) == None
    decreases n, 1
  {
    BaseSlotsReturnNone(hook, n.fields);
  }

  lemma {:induction false} BaseSlotsReturnNone<X(!new)>(hook: (Node, Option<X>) -> Option<X>, slots: seq<Slot>)
    ensures VisitSlots(BaseVisitor({}, hook), slots, None) == None
    decreases slots
  {
    var v := BaseVisitor({}, hook);
    if |slots| > 0 {
      match slots[0].child {
        case One(m) => BaseVisitorReturnsNone(hook, m);
        case Many(ms) => BaseItemsReturnNone(hook, ms);
      }
      BaseSlotsReturnNone(hook, slots[1..]);
    }
  }

  lemma {:induction false} BaseItemsReturnNone<X(!new)>(hook: (Node, Option<X>) -> Option<X>, ms: seq<Node>)
    ensures VisitItems(BaseVisitor({}, hook), ms, None) == None
    decreases ms
  {
    if |ms| > 0 {
      BaseVisitorReturnsNone(hook, ms[0]);
      BaseItemsReturnNone(hook, ms[1..]);
    }
  }

  // ---------------------------------------------------------------------
  // Collecting visitors: list results concatenated
  // ---------------------------------------------------------------------

  /**
   * A visitor whose results are lists joined by concatenation, and whose
   * overrides for the classes in `kinds` return `f(node)` without visiting
   * further (as the identifier-collecting visitor does).
   */
  function Collector<T(!new)>(kinds: set<string>, f: Node -> seq<T>): (v: Visitor<seq<T>>)
    ensures v.default == [] && v.overrides == kinds
    ensures forall a, b :: v.aggregate(a, b) == a + b
    ensures forall n, g :: v.hook(n, g) == f(n)
  {
    Visitor([], (a: seq<T>, b: seq<T>) => a + b, kinds, (n: Node, g: seq<T>) => f(n))
  }

  /** `f` applied to the listed nodes whose kind is in `kinds`, results concatenated in order. */
  function Hits<T>(ns: seq<Node>, kinds: set<string>, f: Node -> seq<T>): seq<T>
  {
    if |ns| == 0 then [] else (if ns[0].kind in kinds then f(ns[0]) else []) + Hits(ns[1..], kinds, f)
  }

  lemma {:induction false} HitsAppend<T>(a: seq<Node>, b: seq<Node>, kinds: set<string>, f: Node -> seq<T>)
    ensures Hits(a + b, kinds, f) == Hits(a, kinds, f) + Hits(b, kinds, f)
    decreases |a|
  {
    if |a| > 0 {
      assert (a + b)[0] == a[0];
      assert (a + b)[1..] == a[1..] + b;
      HitsAppend(a[1..], b, kinds, f);
    } else {
      assert a + b == b;
    }
  }

  /**
   * When the collected classes are leaves, a collecting visitor returns
   * their results in source pre-order: the visit is a filter over `Preorder`.
   */
  lemma {:induction false} CollectorIsPreorder<T(!new)>(kinds: set<string>, f: Node -> seq<T>, n: Node)
    requires KindsAreLeaves(n, kinds)
    ensures Visit(Collector(kinds, f), n) == Hits(Preorder(n), kinds, f)
    decreases n, 1
  {
    var v := Collector(kinds, f);
    if n.kind in kinds {
      assert PreorderSlots(n.fields) == [];
      assert Preorder(n) == [n];
    } else {
      CollectorSlots(kinds, f, n.fields, []);
      HitsAppend([n], PreorderSlots(n.fields), kinds, f);
    }
  }

  lemma {:induction false} CollectorSlots<T(!new)>(kinds: set<string>, f: Node -> seq<T>, slots: seq<Slot>, acc: seq<T>)
    requires SlotsKindsAreLeaves(slots, kinds)
    ensures VisitSlots(Collector(kinds, f), slots, acc) == acc + Hits(PreorderSlots(slots), kinds, f)
    decreases slots
  {
    var v := Collector(kinds, f);
    if |slots| == 0 {
    } else {
      var c := slots[0].child;
      var mid := VisitChild(v, c, acc);
      match c {
        case One(m) => CollectorIsPreorder(kinds, f, m);
        case Many(ms) => CollectorItems(kinds, f, ms, acc);
      }
      assert mid == acc + Hits(PreorderChild(c), kinds, f);
      CollectorSlots(kinds, f, slots[1..], mid);
      HitsAppend(PreorderChild(c), PreorderSlots(slots[1..]), kinds, f);
    }
  }

  lemma {:induction false} CollectorItems<T(!new)>(kinds: set<string>, f: Node -> seq<T>, ms: seq<Node>, acc: seq<T>)
    requires SeqKindsAreLeaves(ms, kinds)
    ensures VisitItems(Collector(kinds, f), ms, acc) == acc + Hits(PreorderSeq(ms), kinds, f)
    decreases ms
  {
    var v := Collector(kinds, f);
    if |ms| > 0 {
      CollectorIsPreorder(kinds, f, ms[0]);
      CollectorItems(kinds, f, ms[1..], v.aggregate(acc, Visit(v, ms[0])));
      HitsAppend(Preorder(ms[0]), PreorderSeq(ms[1..]), kinds, f);
    }
  }

  /** The visitor that lists identifiers: `visit_identifier` returns `[node.value]`. */
  function IdentifierVisitor(): Visitor<seq<string>>
  {
    Collector({"identifier"}, (n: Node) => [n.text])
  }

  /** The texts of the identifier nodes among `ns`, in order. */
  function IdentifierTexts(ns: seq<Node>): seq<string>
  {
    Hits(ns, {"identifier"}, (n: Node) => [n.text])
  }

  /** On a tree whose identifiers are leaves, the identifier visitor lists every identifier in pre-order. */
  lemma IdentifierVisitorIsPreorder(n: Node)
    requires KindsAreLeaves(n, {"identifier"})
    ensures Visit(IdentifierVisitor(), n) == IdentifierTexts(Preorder(n))
  {
    CollectorIsPreorder({"identifier"}, (m: Node) => [m.text], n);
  }

  // ---------------------------------------------------------------------
  // JNodeTransformer / JNodeKeepTransformer
  // ---------------------------------------------------------------------

  /** What a transformer's `visit` returns: `None`, a node, or a list of nodes. */
  datatype Outcome = Removed | Replaced(node: Node) | Spliced(nodes: seq<Node>)

  /** A transformer subclass: the overridden classes and the hook deciding their outcome. */
  datatype Transformer = Transformer(overrides: set<string>, hook: (Node, Node) -> Outcome)

  /** `visit` on a transformer: the override, or `generic_visit`'s node. */
  function Transform(t: Transformer, n: Node): (r: Outcome)
    ensures n.kind !in t.overrides ==> r == Replaced(GenericTransform(t, n))
    decreases n, 1
  {
    if n.kind in t.overrides then t.hook(n, GenericTransform(t, n)) else Replaced(GenericTransform(t, n))
  }

  /** `generic_visit` on a transformer: the same node with every field rewritten. */
  function GenericTransform(t: Transformer, n: Node): (r: Node)
    ensures r.kind == n.kind && r.text == n.text
    decreases n, 0
  {
    Node(n.kind, n.text, TransformSlots(t, n.fields))
  }

  function TransformSlots(t: Transformer, slots: seq<Slot>): seq<Slot>
    decreases slots
  {
    if |slots| == 0 then [] else TransformSlot(t, slots[0]) + TransformSlots(t, slots[1..])
  }

  /**
   * One field: a list is rebuilt from its elements' outcomes; a single node
   * is deleted on `None`, and otherwise replaced by the result, which may be
   * a list.
   */
  function TransformSlot(t: Transformer, s: Slot): seq<Slot>
    decreases s
  {
    match s.child
    case Many(ms) => [Slot(s.name, Many(TransformItems(t, ms)))]
    case One(m) =>
      match Transform(t, m)
      case Removed => []
      case Replaced(x) => [Slot(s.name, One(x))]
      case Spliced(xs) => [Slot(s.name, Many(xs))]
  }

  /** The nodes an outcome puts in a list: none, the node, or the spliced list. */
  function Splice(o: Outcome): seq<Node>
  {
    match o
    case Removed => []
    case Replaced(x) => [x]
    case Spliced(xs) => xs
  }

  function TransformItems(t: Transformer, ms: seq<Node>): seq<Node>
    decreases ms
  {
    if |ms| == 0 then [] else Splice(Transform(t, ms[0])) + TransformItems(t, ms[1..])
  }

  /**
   * A list field is rewritten element by element, in order: the outcome for
   * `a + b` is the outcome for `a` followed by that for `b`.
   */
  lemma {:induction false} TransformItemsAppend(t: Transformer, a: seq<Node>, b: seq<Node>)
    ensures TransformItems(t, a + b) == TransformItems(t, a) + TransformItems(t, b)
    decreases |a|
  {
    if |a| > 0 {
      assert (a + b)[0] == a[0];
      assert (a + b)[1..] == a[1..] + b;
      TransformItemsAppend(t, a[1..], b);
    } else {
      assert a + b == b;
    }
  }

  /** An element mapped to `None` is dropped, a node result replaces it, and a list result is spliced in at its place. */
  lemma TransformItemsSingle(t: Transformer, m: Node)
    ensures Transform(t, m).Removed? ==> TransformItems(t, [m]) == []
    ensures Transform(t, m).Replaced? ==> TransformItems(t, [m]) == [Transform(t, m).node]
    ensures Transform(t, m).Spliced? ==> TransformItems(t, [m]) == Transform(t, m).nodes
  {
    assert TransformItems(t, [m]) == Splice(Transform(t, m)) + TransformItems(t, []);
  }

  /** A transformer with no overrides returns a tree equal to its input. */
  lemma {:induction false} TransformIdentity(t: Transformer, n: Node)
    requires t.overrides == {}
    ensures Transform(t, n) == Replaced(n)
    decreases n, 1
  {
    TransformSlotsIdentity(t, n.fields);
  }

  lemma {:induction false} TransformSlotsIdentity(t: Transformer, slots: seq<Slot>)
    requires t.overrides == {}
    ensures TransformSlots(t, slots) == slots
    decreases slots
  {
    if |slots| > 0 {
      var s := slots[0];
      match s.child {
        case Many(ms) => TransformItemsIdentity(t, ms);
        case One(m) => TransformIdentity(t, m);
      }
      TransformSlotsIdentity(t, slots[1..]);
      assert slots == [s] + slots[1..];
    }
  }

  lemma {:induction false} TransformItemsIdentity(t: Transformer, ms: seq<Node>)
    requires t.overrides == {}
    ensures TransformItems(t, ms) == ms
    decreases ms
  {
    if |ms| > 0 {
      TransformIdentity(t, ms[0]);
      TransformItemsIdentity(t, ms[1..]);
      assert ms == [ms[0]] + ms[1..];
    }
  }

  /**
   * One field of `generic_visit`. A list field keeps its name and holds the
   * rewritten list. A single-node field is deleted when the node's visit
   * returns `None`, gets the new node when it returns one, and holds the
   * returned list when it returns a list.
   */
  lemma TransformSlotCases(t: Transformer, s: Slot)
    ensures s.child.Many? ==> TransformSlot(t, s) == [s.(child := Many(TransformItems(t, s.child.nodes)))]
    ensures s.child.One? && Transform(t, s.child.node).Removed? ==> TransformSlot(t, s) == []
    ensures s.child.One? && Transform(t, s.child.node).Replaced? ==>
              TransformSlot(t, s) == [s.(child := One(Transform(t, s.child.node).node))]
    ensures s.child.One? && Transform(t, s.child.node).Spliced? ==>
              TransformSlot(t, s) == [s.(child := Many(Transform(t, s.child.node).nodes))]
  {
  }

  /** A single-node field whose node's visit returns `None`. */
  predicate Deleted(t: Transformer, s: Slot)
  {
    s.child.One? && Transform(t, s.child.node).Removed?
  }

  /** The fields that are not deleted, in their original order. */
  function Surviving(t: Transformer, slots: seq<Slot>): (r: seq<Slot>)
    ensures |r| <= |slots|
  {
    if |slots| == 0 then []
    else (if Deleted(t, slots[0]) then [] else [slots[0]]) + Surviving(t, slots[1..])
  }

  /**
   * Rewriting keeps the node's fields in order and never adds one: the field
   * names after `generic_visit` are exactly the names of the fields that were
   * not deleted, so they are a subsequence of the old names.
   */
  lemma {:induction false} TransformKeepsFieldOrder(t: Transformer, slots: seq<Slot>)
    ensures Names(TransformSlots(t, slots)) == Names(Surviving(t, slots))
    ensures IsSubsequence(Names(TransformSlots(t, slots)), Names(slots))
    decreases |slots|
  {
    if |slots| > 0 {
      var head := TransformSlot(t, slots[0]);
      var rest := TransformSlots(t, slots[1..]);
      var kept := if Deleted(t, slots[0]) then [] else [slots[0]];
      TransformKeepsFieldOrder(t, slots[1..]);
      NamesAppend(head, rest);
      NamesAppend(kept, Surviving(t, slots[1..]));
      TransformSlotName(t, slots[0]);
      TransformSlotCases(t, slots[0]);
      assert Names(head) == Names(kept);
      assert Names(slots)[1..] == Names(slots[1..]);
      if Names(head) == [] {
        assert Names(head) + Names(rest) == Names(rest);
        SubsequenceOfTail(Names(rest), Names(slots));
      } else {
        SubsequenceCons(slots[0].name, Names(rest), Names(slots));
      }
    }
  }

  /** One field rewrites to nothing or to one field of the same name. */
  lemma TransformSlotName(t: Transformer, s: Slot)
    ensures Names(TransformSlot(t, s)) == [] || Names(TransformSlot(t, s)) == [s.name]
  {
  }

  /** A transformer whose overrides return `None` for the listed classes. */
  function Deleter(kinds: set<string>): (t: Transformer)
    ensures t.overrides == kinds
    ensures forall n, g :: t.hook(n, g) == Removed
  {
    Transformer(kinds, (n: Node, g: Node) => Removed)
  }

  /** No node of the listed classes occurs among `ns`. */
  predicate Avoids(ns: seq<Node>, kinds: set<string>)
  {
    forall i :: 0 <= i < |ns| ==> ns[i].kind !in kinds
  }

  lemma AvoidsAppend(a: seq<Node>, b: seq<Node>, kinds: set<string>)
    ensures Avoids(a + b, kinds) <==> Avoids(a, kinds) && Avoids(b, kinds)
  {
    if Avoids(a, kinds) && Avoids(b, kinds) {
      forall i | 0 <= i < |a + b|
        ensures (a + b)[i].kind !in kinds
      {
        if i >= |a| {
          assert (a + b)[i] == b[i - |a|];
        }
      }
    }
    if Avoids(a + b, kinds) {
      forall i | 0 <= i < |a|
        ensures a[i].kind !in kinds
      {
        assert (a + b)[i] == a[i];
      }
      forall i | 0 <= i < |b|
        ensures b[i].kind !in kinds
      {
        assert (a + b)[|a| + i] == b[i];
      }
    }
  }

  /**
   * The deleting transformer removes a node of the listed classes, and keeps
   * any other node, rewritten so that no node of the listed classes remains
   * in it at any depth.
   */
  lemma {:induction false} DeleterRemovesAll(kinds: set<string>, n: Node)
    ensures n.kind in kinds ==> Transform(Deleter(kinds), n) == Removed
    ensures n.kind !in kinds ==> Transform(Deleter(kinds), n) == Replaced(GenericTransform(Deleter(kinds), n))
    ensures n.kind !in kinds ==> Avoids(Preorder(GenericTransform(Deleter(kinds), n)), kinds)
    decreases n, 1
  {
    if n.kind !in kinds {
      var r := GenericTransform(Deleter(kinds), n);
      DeleterSlots(kinds, n.fields);
      AvoidsAppend([r], PreorderSlots(r.fields), kinds);
    }
  }

  lemma {:induction false} DeleterSlots(kinds: set<string>, slots: seq<Slot>)
    ensures Avoids(PreorderSlots(TransformSlots(Deleter(kinds), slots)), kinds)
    decreases slots
  {
    var t := Deleter(kinds);
    if |slots| > 0 {
      var s := slots[0];
      var head := TransformSlot(t, s);
      var rest := TransformSlots(t, slots[1..]);
      DeleterSlots(kinds, slots[1..]);
      match s.child {
        case Many(ms) =>
          DeleterItems(kinds, ms);
          assert PreorderSlots(head) == PreorderSeq(TransformItems(t, ms)) + PreorderSlots([]);
        case One(m) =>
          DeleterRemovesAll(kinds, m);
          if m.kind !in kinds {
            assert PreorderSlots(head) == Preorder(GenericTransform(t, m)) + PreorderSlots([]);
          }
      }
      PreorderSlotsAppend(head, rest);
      AvoidsAppend(PreorderSlots(head), PreorderSlots(rest), kinds);
    }
  }

  lemma {:induction false} DeleterItems(kinds: set<string>, ms: seq<Node>)
    ensures Avoids(PreorderSeq(TransformItems(Deleter(kinds), ms)), kinds)
    decreases ms
  {
    var t := Deleter(kinds);
    if |ms| > 0 {
      var rest := TransformItems(t, ms[1..]);
      DeleterRemovesAll(kinds, ms[0]);
      DeleterItems(kinds, ms[1..]);
      if ms[0].kind !in kinds {
        var x := GenericTransform(t, ms[0]);
        assert TransformItems(t, ms) == [x] + rest;
        assert ([x] + rest)[1..] == rest;
        AvoidsAppend(Preorder(x), PreorderSeq(rest), kinds);
      } else {
        assert TransformItems(t, ms) == Splice(Removed) + rest;
        assert [] + rest == rest;
      }
    }
  }

  lemma {:induction false} PreorderSlotsAppend(a: seq<Slot>, b: seq<Slot>)
    ensures PreorderSlots(a + b) == PreorderSlots(a) + PreorderSlots(b)
    decreases |a|
  {
    if |a| > 0 {
      assert (a + b)[0] == a[0];
      assert (a + b)[1..] == a[1..] + b;
      PreorderSlotsAppend(a[1..], b);
    } else {
      assert a + b == b;
    }
  }

  /**
   * In a list, the deleting transformer keeps exactly the elements of the
   * other classes, in their original order, each rewritten.
   */
  lemma {:induction false} DeleterFiltersList(kinds: set<string>, ms: seq<Node>)
    ensures TransformItems(Deleter(kinds), ms)
            == KeepOthers(Deleter(kinds), kinds, ms)
    decreases |ms|
  {
    if |ms| > 0 {
      DeleterFiltersList(kinds, ms[1..]);
    }
  }

  /** The reference: drop the elements of the given classes, rewrite the others. */
  function KeepOthers(t: Transformer, kinds: set<string>, ms: seq<Node>): (r: seq<Node>)
    ensures |r| <= |ms|
  {
    if |ms| == 0 then []
    else (if ms[0].kind in kinds then [] else [GenericTransform(t, ms[0])]) + KeepOthers(t, kinds, ms[1..])
  }

  /**
   * `__copy__`: a new node with the same field values, each list field a
   * new list holding the same elements.
   */
  function ShallowCopy(n: Node): (r: Node)
    ensures r == n
  {
    Node(n.kind, n.text, seq(|n.fields|, i requires 0 <= i < |n.fields| =>
      var s := n.fields[i];
      match s.child
      case One(m) => Slot(s.name, One(m))
      case Many(ms) => Slot(s.name, Many(ms[..]))))
  }

  /** `JNodeKeepTransformer.generic_visit`: rewrite a copy instead of the node itself. */
  function KeepGenericTransform(t: Transformer, n: Node): (r: Node)
    ensures r == GenericTransform(t, n)
  {
    GenericTransform(t, ShallowCopy(n))
  }
}

=== FILE: wrappers.dfy ===
/** Failure-compatible wrappers: an optional value and a value-or-error result. */
module Wrappers {

  /** A value that may be absent; the model's stand-in for Python's `None`. */
  datatype Option<+T> = None | Some(value: T) {

    predicate IsFailure() {
      None?
    }

    function PropagateFailure<U>(): Option<U>
      requires None?
    {
      None
    }

    function Extract(): T
      requires Some?
    {
      value
    }
  }

  /** Either a successfully built value or the error a constructor raised. */
  datatype Result<+R, +E> = Ok(value: R) | Err(error: E) {

    predicate IsFailure() {
      Err?
    }

    function PropagateFailure<U>(): Result<U, E>
      requires Err?
    {
      Err(error)
    }

    function Extract(): R
      requires Ok?
    {
      value
    }
  }
}
